=== FILE: README.md ===
# Amazon Product Inspector: a Dafny model of its core

The extension reads an Amazon product page, works out the price the page
shows, scores the listing and keeps a list of saved products in the popup.
This project models the logic behind that as pure functions over strings
and sequences, and proves properties of it.

- **Page scraper** (`content.js`):
  - price-text normalisation (`normalizeSpaces`, `normalizePriceText`, `allowedIncludes`);
  - the six-probe price fallback chain, and the text logic of each probe (`metaPrice`, `jsonLdPrice` over an already-parsed JSON tree, `composedPrice`, `twisterPrice`, `scriptPrice`);
  - the ASIN, brand and selected-variant extractors.
- **Popup** (`popup.js`):
  - the text-to-number parsers;
  - `esc`;
  - `seoScore` and `opportunityScore`;
  - `analyzeComplaints`;
  - the saved list: item key, save with the free-plan cap, remove, clear, and the compare-view guards;
  - the list view: preferences over defaults, `applyFilters`, `applySort` and the top picks;
  - the daily usage gate.

Modules, one per file:

| file | module | what it holds |
|---|---|---|
| wrappers.dfy | Wrappers | `Option`, `Result` |
| text.dfy | Text | whitespace, ASCII case folding, `toLowerCase`, trimming, digit strings |
| jsnumber.dfy | JsNumber | JavaScript numbers (NaN, finite, infinities), decimal runs, `parseFloat`, `Number(string)` |
| lists.dfy | Lists | `filter`, `slice(0, n)`, distinct counts |
| stablesort.dfy | StableSort | the stable sort every comparator is modelled by |
| json.dfy | Json | parsed JSON values and property lookup |
| pricetext.dfy | PriceText | `normalizeSpaces`, `normalizePriceText`, `allowedIncludes` |
| probes.dfy | PriceProbes | `metaPrice`, `composedPrice`, `twisterPrice`, `scriptPrice` |
| ldprice.dfy | LdPrice | `jsonLdPrice` |
| chain.dfy | PriceChain | the fallback chain and the product's price fields |
| roundtrip.dfy | PriceRoundTrip | rendered prices read back by the normaliser |
| extract.dfy | Extractors | ASIN, brand and variant |
| parsers.dfy | TextParsers | `moneyToNum`, `parseReviewCount`, `parseRating`, `parseBsr` |
| escape.dfy | HtmlEscape | `esc` |
| scores.dfy | Scores | `seoScore`, `opportunityScore` |
| complaints.dfy | Complaints | `analyzeComplaints` |
| savedlist.dfy | SavedList | item key, save, remove, clear, compare guards |
| listview.dfy | ListView | preferences, filters, sort orders, top picks |
| usage.dfy | Usage | the daily inspection gate |

**Numbers.** A JavaScript number is `NaN`, a finite value or an infinity.
Finite values are exact reals. A conversion overflows to an infinity at
2^1024 - 2^970, as a double does. Rounding to the nearest double is not
modelled.

**Regular expressions.** Each is modelled as a hand-written scanner for its
literal pattern, with leftmost-match semantics. Alternations pick their
alternatives in pattern order. The `i` flag folds ASCII letters only,
which is what a regular expression without the `u` flag does for these
patterns.

**Sorting.** JavaScript's `sort` is stable. Every comparator in the popup
compares two items through one number. So each sort is modelled as a
stable insertion sort by a key, `StableSort.Sort`.
`ListView.ComparatorMatchesKey` proves that each comparator, as written,
orders every pair exactly as its key does. That includes NaN and the
infinities.

Some consequences of the code that the model keeps:

- `rating_desc` and `price_desc` pass their values to `cmpNum` swapped, so
  unparseable values sort first under them and last under the ascending
  choices.
- The free-plan save cap is checked before the key lookup, so a free user
  with 10 saved items cannot re-save one of them either.
- `hideNoPrice` drops a price that contains "price not found" in any
  letter case, not only one equal to it.
- The demand pick counts a missing rank and a rank of 0 as 999999999, so a
  real rank above 999999999 loses to a missing one.

## Model

| member | source | states |
|---|---|---|
| PriceText.NormalizeSpaces | content.js:36 | the result is canonical: trimmed, with single plain spaces between words; the visible characters are kept in order; canonical text is returned unchanged |
| PriceText.NormalizeSpacesIdempotent | content.js:36 | normalising twice is normalising once |
| PriceText.CollapseKeepsContent | content.js:36 | collapsing whitespace runs keeps every visible character, in order |
| PriceText.AllowedIncludes | content.js:61-64 | true iff SOME needle occurs in the text (an OR, not a co-occurrence test) |
| PriceText.UnavailableTest | content.js:43-47 | the two `includes` and the `allowedIncludes` call together test whether any of the four unavailability phrases occurs |
| PriceText.NormalizePriceText | content.js:38-59 | the display is `normalizeSpaces(raw)`; an unavailable price has no number and is never a range |
| PriceText.NormalizePriceTextSpec | content.js:38-59 | unavailable iff the lowered text holds a phrase; otherwise the number is absent iff there is no digit run after dropping commas, and is otherwise the first run's value unless it overflows; a range iff the price is available, has two or more runs and has a hyphen or en dash |
| PriceText.NormalizePriceTextIdempotent | content.js:38-59 | normalising the display text again gives the same record |
| PriceText.NormalizeEmpty | content.js:39-53 | empty text is an available price with no number and no range |
| PriceChain.FirstNonEmpty | content.js:329-336 | the result is empty iff every probe is empty; otherwise it is the first non-empty probe, and every probe before it is empty |
| PriceChain.ResolvePrice | content.js:329-343 | with no probe text, the record is `'Price not found'` with no number; otherwise number, range and unavailable flags are those the normaliser gives for the first non-empty probe, and price equals priceRaw, which is the normalised text when that is not empty and the probe's own text when it is all whitespace, so price is never empty |
| PriceChain.FirstProbeDecides | content.js:329-336 | once a probe returns text, the probes after it cannot change the record |
| PriceChain.ComposedPriceThroughChain | content.js:329-343 | with an empty visible price, a composed symbol-and-decimal price reaches the record as its own text and value |
| PriceProbes.PresentCandidates | content.js:70-77 | `filter(Boolean)`: a string is kept iff it is a non-empty candidate, and none stay iff every candidate is missing or empty |
| PriceProbes.PresentCandidatesAppend | content.js:70-77 | the filter keeps order: the kept candidates of a concatenation are those of its first part followed by those of its second |
| PriceProbes.MetaPrice | content.js:69-84 | empty iff no candidate is present; otherwise it is the first candidate with a number, or the first candidate when none has one |
| PriceProbes.ComposedPrice | content.js:190-192 | trimmed; empty without a whole part; otherwise symbol, whole part and, with a fraction, `.` and the fraction |
| PriceProbes.FirstMatchFrom | content.js:248-250 | the capture of the leftmost position where the key pattern matches, every earlier position failing; none only when no position matches |
| PriceProbes.TwisterPrice | content.js:246-255 | text of at most 200 characters is returned as is; a longer blob gives `$` and the leftmost `"price"` capture when that pattern matches, else `$` and the leftmost `"priceAmount"` capture, and '' iff neither matches |
| PriceProbes.ScanPattern | content.js:271-274 | a match gives the leftmost match's capture with its commas removed, which is a plain decimal or empty; no match gives nothing |
| PriceProbes.ScanScript | content.js:270-276 | one script yields a price iff `"priceAmount"` or `"displayPrice"` matches; the `"priceAmount"` scan wins when it matches, else the `"displayPrice"` scan is taken |
| PriceProbes.ScriptHit | content.js:266-276 | a script shorter than 500 characters never yields a price; a longer one yields exactly its scan, so nothing iff neither pattern matches |
| PriceProbes.ScriptPrice | content.js:259-279 | '' iff no script of at least 500 characters yields a scan; otherwise `$` and the hit of the first script that has one, which is a plain decimal, or empty when the capture was all commas |
| PriceProbes.ScriptPriceFirstQualifying | content.js:265-276 | the first script of at least 500 characters in which either pattern matches decides the result, whatever later scripts hold |
| PriceProbes.PlainDecimalIsNumber | content.js:274 | `Number` of a captured plain decimal is never NaN, so the `isNaN` test never rejects a capture |
| LdPrice.OfferPick | content.js:114-140 | a pick carries the offer's currency, falling back to the product's; `offer.price` with a number wins, else `priceSpecification.price` with a number, else a low/high pair that are both numbers; nothing iff none of the three qualifies |
| LdPrice.DirectPick | content.js:143-148 | a pick iff the product's own price is present with a number, and then it is that price with no currency |
| LdPrice.JsonLdPrice | content.js:86-153 | '' iff no site of the walk yields a pick; otherwise the rendering of the first site's valid pick |
| LdPrice.ScriptsPickIsFirstSite | content.js:89-151 | the nested loops with early returns pick what the first productive site of the flattened walk picks; unparsed blocks are skipped |
| LdPrice.FirstPickAppend | content.js:89-151 | the first pick of a concatenation is that of the first part when it has one |
| PriceRoundTrip.SinglePriceRoundTrip | content.js:38-59 | a neutral prefix and a rendered decimal normalise to themselves, with that decimal's value, no range and available |
| PriceRoundTrip.RangePriceRoundTrip | content.js:38-59 | a rendered range with a dash normalises to itself as a range whose number is the low end |
| PriceRoundTrip.ComposedPriceRoundTrip | content.js:190-192 | the composed price is the symbol and the rendered decimal, and reads back as that decimal's value |
| PriceRoundTrip.LdSingleRoundTrip | content.js:124 | a structured-data price rendered after its currency reads back as the decimal's value |
| PriceRoundTrip.LdRangeRoundTrip | content.js:139 | a `lo - hi` structured-data range reads back as a range whose number is the low end |
| Extractors.FindAsinFrom | content.js:286-287 | the capture of the leftmost `marker[A-Z0-9]{10}` match, and '' iff none matches |
| Extractors.AsinFromUrl | content.js:285-288 | an ASIN or ''; '' iff neither `/dp/` nor `/gp/product/` is followed by ten ASIN characters; with a `/dp/` match the leftmost `/dp/` capture, else the leftmost `/gp/product/` capture |
| Extractors.AsinRoundTrip | content.js:285-288 | the ASIN written after the first `/dp/` of an address is read back |
| Extractors.BrandFromByline | content.js:305-309 | the brand is trimmed and is a contiguous piece of the byline; a byline without any of the three affixes comes back trimmed and otherwise whole |
| Extractors.BrandOfStoreLink | content.js:305-309 | "Visit the NAME Store" yields NAME for every trimmed, non-empty NAME that does not start with "Brand:", including a NAME that itself ends in " Store", since only the last " Store" is removed |
| Extractors.BrandOfLabel | content.js:305-309 | "Brand: NAME" yields NAME for every trimmed, non-empty NAME unless " NAME" ends in " Store": the ` Store$` replace runs before the `^Brand:` one, so "Brand: Acme Store" gives "Acme" |
| Extractors.Labelled | content.js:317-319 | a part is pushed iff the element text is not blank, as tag plus the trimmed text |
| Extractors.VariantLabel | content.js:312-326 | trimmed; the parts joined by a spaced vertical bar when there are parts, else the generic selection text trimmed |
| Extractors.VariantAllThree | content.js:312-326 | with colour, size and style present the label names colour, size and style in that order, each after its tag, separated by spaced vertical bars |
| Extractors.JoinLabelledTrimmed | content.js:326 | the joined parts need no trimming |
| TextParsers.MoneyToNum | popup.js:96-99 | NaN iff the text has no digit; otherwise a non-negative number |
| TextParsers.ParseReviewCount | popup.js:100-103 | no count iff the text has no digit |
| TextParsers.ParseRating | popup.js:104-107 | NaN iff the text has no digit; otherwise non-negative |
| TextParsers.ParseBsr | popup.js:108-111 | a rank is only read from text with a `#` |
| TextParsers.FirstBsrFromSpec | popup.js:110 | nothing is read iff no position matches `#\s*[0-9]+` |
| TextParsers.ReviewCountRoundTrip | popup.js:100-103 | a count written after text without digits is read back exactly |
| TextParsers.BsrRoundTrip | popup.js:108-111 | `#`, blanks and the digits of n, after text without `#`, are read back as n |
| TextParsers.RatingRoundTrip | popup.js:95-107 | a decimal after text without digits is the rating read, and the amount read when there are no commas |
| TextParsers.CommasIgnored | popup.js:95-111 | `moneyToNum`, `parseReviewCount` and `parseBsr` read a text as they read it without its commas |
| TextParsers.GroupedCountRoundTrip | popup.js:100-103 | a count whose digits are split by commas anywhere, after text without digits, is read back exactly |
| TextParsers.GroupedMoneyRoundTrip | popup.js:96-99 | an amount whose digits are split by commas, after text without digits, is read as the decimal |
| TextParsers.GroupedCountExample | popup.js:100-103 | "1,234 ratings" reads 1234 |
| TextParsers.GroupedMoneyExample | popup.js:96-99 | "$1,299.99" reads 1299.99 |
| TextParsers.ParseFloatDecimal | popup.js:218 | `parseFloat` reads a rendered decimal at the head of the text |
| TextParsers.LeadingWordIsNaN | popup.js:218 | text starting with a capital other than `I` is NaN to `parseFloat` |
| TextParsers.TwoRatingReaders | popup.js:104-107 | on "Rated 4.5", `parseFloat` gives NaN while `parseRating` gives 4.5 |
| HtmlEscape.EscChar | popup.js:95 | a special character becomes one of the four entities; any other character stays |
| HtmlEscape.Esc | popup.js:95 | no `<`, `>` or `"` is left; text without specials is unchanged |
| HtmlEscape.EscAppend | popup.js:95 | escaping distributes over concatenation |
| HtmlEscape.UnescapeEsc | popup.js:95 | decoding the entities of the escaped text gives the text back |
| HtmlEscape.EscAmpersands | popup.js:95 | every `&` of the output starts one of the four entities |
| Scores.SeoScore | popup.js:178-215 | exactly five notes and a score in [17, 90], so the clamp never acts |
| Scores.TitleBands | popup.js:184-211 | the title-length band is 5 to 25 points, variety 6, 12 or 20, attributes 6 or 15 |
| Scores.VarietyBand | popup.js:197-202 | 6, 12 or 20 points; all distinct long words earn 20 |
| Scores.AttributeBand | popup.js:204-211 | 15 points iff one of the four attribute patterns matches, else 6 |
| Scores.WordsCover | popup.js:197 | the split words are exactly the visible characters of the text, cut at whitespace |
| Scores.SeoBulletsMonotone | popup.js:192-195 | more bullets never lower the score |
| Scores.SeoBrandBonus | popup.js:189-190 | a brand adds exactly ten points to the score, whatever else the listing has |
| Scores.SeoBrandNote | popup.js:189-190 | with a brand the second note is "Brand detected." |
| Scores.SeoDistinctWords | popup.js:197-200 | a title whose long words all differ gets "Good keyword variety." |
| Scores.Clamp | popup.js:213 | the score is kept in [1, 100] and a value already inside is unchanged |
| Scores.OpportunityScore | popup.js:217-246 | exactly three notes and a score in [26, 93] |
| Scores.BsrBand | popup.js:238-242 | a missing rank is exactly the 8-point band |
| Scores.RatingNumber | popup.js:218 | the `parseFloat` reading with its fallback to 0: a NaN or zero reading becomes 0, so the rating that is scored is never NaN |
| Scores.OpportunityRatingMonotone | popup.js:218-231 | a higher rating never lowers the score |
| Scores.OpportunityBsrMonotone | popup.js:221-242 | a larger rank never raises the score |
| Scores.OpportunityMissingBsr | popup.js:238-242 | a missing rank scores below any present rank |
| Scores.OpportunityReadsLeadingRating | popup.js:218-231 | "Rated 4.5" scores as a low rating; "4.5 out of 5 stars" as a strong one |
| Complaints.FirstAltAt | popup.js:250-263 | a match at a position has positive length; none iff no alternative occurs there, ignoring case |
| Complaints.FirstAltLeftmost | popup.js:250-263 | the match is the first alternative in pattern order that occurs |
| Complaints.CountPositive | popup.js:263-264 | a bucket counts a match iff one of its phrases occurs in the text |
| Complaints.Tally | popup.js:257-269 | one entry per bucket, in declaration order, with its count |
| Complaints.AnalyzeComplaints | popup.js:248-273 | at most two entries, each with a positive count |
| Complaints.Report | popup.js:268-272 | sort by count falling, keep the positive entries, take two: at most two entries, each with a positive count; ComplaintsTopTwo pins which |
| Complaints.ComplaintsTopTwo | popup.js:268-272 | the first entry is the first bucket with the most matches; the second is the first with the most among the rest; each only when positive |
| Complaints.PositivePrefix | popup.js:270-272 | on a list sorted by falling count, keeping the positive entries and taking two gives its first two positive entries |
| Complaints.ComplaintsFaithful | popup.js:257-272 | each entry carries its bucket's true count, and the two buckets differ |
| Complaints.ComplaintsFound | popup.js:261-271 | a bucket is reported only when one of its phrases occurs in the lowered reviews |
| Complaints.NoReviewsNoComplaints | popup.js:257 | no reviews, or reviews that are not an array, report nothing |
| SavedList.ItemKey | popup.js:797 | the saved-item key: the ASIN or `noasin`, `::`, the variant, `::`, the page URL; KeyRoundTrip reads the three parts back and KeyInjective shows that different parts give different keys |
| SavedList.KeyRoundTrip | popup.js:797 | splitting a key at its first two `::` gives back the ASIN (or "noasin"), variant and URL when neither of the first two holds `::` or ends in `:`, which every labelled variant such as "Color: Red" meets |
| SavedList.KeyInjective | popup.js:797 | two keys are equal only for the same ASIN, variant and URL, under the same condition |
| SavedList.KeyAmbiguous | popup.js:797 | a variant ending in `:` can trade that colon with the URL, so the condition cannot be dropped |
| SavedList.MakeItem | popup.js:797-812 | the built entry carries the key of its product and page |
| SavedList.ReplaceKey | popup.js:815 | same length; entries under the key become the item, the others stay |
| SavedList.Save | popup.js:786-815 | rejected iff the plan is free with 10 or more items, even for a known key; a known key is replaced in place; a new key is prepended; a free list never passes 10 |
| SavedList.SaveKeepsKeysUnique | popup.js:814-815 | after a save the keys are still unique and the item is present |
| SavedList.Remove | popup.js:650-654 | no entry under the key is left |
| SavedList.RemoveKeepsOthers | popup.js:653 | exactly the entries under other keys remain |
| SavedList.RemoveAbsent | popup.js:653 | removing an absent key changes nothing |
| SavedList.SaveThenRemove | popup.js:653-815 | saving a new item and removing it gives the list back |
| SavedList.Clear | popup.js:686 | the list becomes empty |
| SavedList.SaveAfterClear | popup.js:686-815 | after clearing, any plan can save again, as a new entry |
| SavedList.CompareSelection | popup.js:508-518 | the guards fire in source order: not Pro, nothing ticked, more than five ticked; the selection is exactly the saved entries whose key is ticked, in list order; not-found iff no saved key is ticked |
| SavedList.CompareAtMostTicked | popup.js:513-517 | with unique keys the compare view shows no more items than were ticked, so at most five |
| ListView.Merge | popup.js:337 | every field the patch holds wins, and every other field is kept |
| ListView.LoadPrefs | popup.js:335-338 | nothing stored gives the defaults |
| ListView.MergeEmpty | popup.js:337 | an empty patch changes nothing |
| ListView.MergeIdempotent | popup.js:666 | applying the same change twice is applying it once |
| ListView.SaveLoadRoundTrip | popup.js:335-342 | stored preferences read back as they were written |
| ListView.UpdatePrefs | popup.js:667-670 | the control handler stores the loaded preferences with the patch spread over them; UpdateThenLoad shows the next load sees exactly the old preferences with the patched fields replaced |
| ListView.UpdateThenLoad | popup.js:667-670 | after a control change, the preferences in force are the old ones with the changed fields replaced |
| ListView.Threshold | popup.js:345-347 | an empty box is off; a box whose text is not a number is off; an active threshold is a number |
| ListView.Keep | popup.js:349-369 | the `filter` callback with its early `return false` tests in source order; KeepIffMeets shows it keeps an item exactly when the item meets every active control |
| ListView.KeepIffMeets | popup.js:349-369 | the callback keeps an item iff it meets every active control: a price when hiding missing prices, no range when hiding ranges, and a parsed rating, count or score on the right side of each active threshold |
| ListView.ApplyFilters | popup.js:344-370 | every kept item meets the controls |
| ListView.FilterKeepsExactly | popup.js:344-370 | an item is in the result iff it is in the input and meets the controls |
| ListView.FilterKeepsOrder | popup.js:349 | filtering a concatenation filters each part, in order |
| ListView.DefaultsHideNothing | popup.js:325-370 | the default preferences keep every item |
| ListView.UnratedItemDropped | popup.js:356-357 | a rating threshold drops an item whose rating text has no number |
| ListView.NonNumericThresholdIgnored | popup.js:345-356 | a rating box holding a non-number filters like an empty one |
| ListView.NotLessIsLe | popup.js:357-363 | between numbers, not below is at least |
| ListView.Sub | popup.js:381-389 | the difference is NaN iff a side is NaN or the two sides are equal infinities |
| ListView.OrderOf | popup.js:384-408 | the `switch` on the sort choice: it falls to the `savedAt_desc` order exactly when the text is none of the six other cases |
| ListView.CmpNum | popup.js:375-382 | `cmpNum(av, bv, 1)`; CmpNumAsc shows it orders -Infinity, the finite values, +Infinity and then NaN, with two NaNs level |
| ListView.Comparator | popup.js:384-408 | the comparator each sort choice passes to `sort`; ComparatorMatchesKey shows each one orders every pair exactly as its key does |
| ListView.ComparatorMatchesKey | popup.js:372-411 | each comparator, as written, orders every pair exactly as its key does: savedAt and opportunity falling, the ascending choices with NaN last, the descending choices with NaN first |
| ListView.CmpNumAsc | popup.js:375-382 | `cmpNum(a, b, 1)` orders -Infinity, finite values, +Infinity, then NaN |
| ListView.CmpNumDesc | popup.js:375-401 | `cmpNum` with swapped arguments orders NaN, +Infinity, finite values falling, then -Infinity |
| ListView.ApplySort | popup.js:372-411 | the result is a permutation of the input |
| ListView.SortOrdersStably | popup.js:372-411 | the result is ordered by the chosen key, and items with equal keys keep their input order |
| ListView.UnparseablePlacement | popup.js:375-402 | under `bsr_asc`, `reviews_asc` and `price_asc` an unparseable value has only unparseable values after it; under `rating_desc` and `price_desc` only unparseable values before it |
| ListView.ListView | popup.js:565-566 | the saved list filtered, then sorted by the chosen order; ListViewContents gives its members and SortOrdersStably its order |
| ListView.ListViewContents | popup.js:565-566 | the list shown holds exactly the saved items that meet the controls |
| ListView.TopPicks | popup.js:413-422 | no picks iff no item is listed |
| ListView.DemandRank | popup.js:422 | the rank falls back to 999999999: a missing or zero rank reads as 999999999, so every rank is positive; TopPicksAreFirstBest uses it for the demand pick |
| ListView.TopPicksAreFirstBest | popup.js:421-422 | the opportunity pick is the first item with the highest score (missing as -1); the demand pick is the first with the lowest rank (missing or 0 as 999999999) |
| ListView.BestOppLeadsOpportunitySort | popup.js:386-421 | the opportunity pick heads the `opportunity_desc` order |
| Usage.Gate | popup.js:704-719 | Pro passes with nothing changed; a new day stores that day and count 1; on the same day a count of 30 or more is refused, otherwise the count goes up by one; a count at most 30 stays at most 30 |
| Usage.Presses | popup.js:710-718 | n presses in a row through the gate let at most n through; FreePressesAllowed gives the exact number |
| Usage.FreePressesAllowed | popup.js:710-718 | n presses on one day let exactly min(n, room left) through: 30 on a fresh day, 30 - count on the stored day |
| Usage.FreeDailyCap | popup.js:710-718 | no more than 30 inspections pass in a day |
| Usage.ProUnlimited | popup.js:708-710 | a Pro user is never stopped |
| StableSort.Sort | popup.js:372-411 | the sorted list is a permutation of the input |
| StableSort.SortSorted | popup.js:372-411 | the sorted list is ordered by the key |
| StableSort.SortStable | popup.js:372-411 | elements with equal keys keep their input order |
| StableSort.SortHead | popup.js:421-422 | the head of the sorted list is the first element with the least key |
| StableSort.SortPeel | popup.js:270-272 | the sorted list is the first least element followed by the sorted rest |
| Lists.FilterMembers | popup.js:349-369 | an element is kept iff it is in the input and passes |
| Lists.FilterAppend | popup.js:349 | filtering keeps order across a concatenation |

## Left out

- DOM access, element visibility and `pickFirst`: each probe is given the strings the page would have yielded.
- `JSON.parse`: the structured-data probe takes the parsed tree. A block that is empty or that does not parse is `None`.
- `chrome.storage`, tabs, messaging, the clipboard and the overlay messages. Stored values and the day are parameters; each handler is a state transition.
- `Date.now()` and `new Date()`: the save time and the day are parameters.
- Rendering: `renderBasicInfo`, the saved-list markup, the compare table and text, the title shortening in the top-pick cards, the accordions and tabs. None of them decides anything the model states.
- The profit calculator, `options.js` and `background.js`. The first is float arithmetic with fee constants; the other two only write default storage values.
- String length counts code points, not UTF-16 units. The two differ only for characters outside the Basic Multilingual Plane, such as emoji. The lengths read are the 200- and 500-character guards of the price probes and, in `seoScore`, the title bands (120, 80 and 50 characters) and the 4-character keyword filter; a title holding such characters can fall in a lower band or keep fewer words in the model than in the browser.
- `toLowerCase` maps ASCII letters, U+0130 and U+212A. Other non-ASCII letters are left unchanged; this affects only how many distinct title words `seoScore` sees.
- Rounding of finite values to doubles. Only overflow to an infinity is modelled.
- ListView.Sub: the difference of two finite numbers is not rounded. Its sign, the only thing `sort` reads, is exact.
- `parseInt` of very long digit runs is read as an exact natural number, not a rounded double.
- `safeText` of values that are not strings, and stored values of the wrong type: every text field is a string (`""` when absent), every stored preference has its own type, and `savedAt` is always a number.
- `Math.round` in the score clamp acts on integer sums, where it is the identity.
- `cmpNum`'s `dir` argument is 1 at every call, so it is dropped.
- TextParsers.ParseBsr: its contract only says that a rank needs a `#`. The exact reading of a rendered rank is stated by `TextParsers.BsrRoundTrip`.
- ListView.NonNumericThresholdIgnored: stated for the rating box only. The other two boxes go through the same `Threshold`.

=== FILE: chain.dfy ===
/** The price fallback chain of the page scraper (content.js:328-343):
    the first non-empty probe result, normalised, and the fields written
    to the product record. */
module PriceChain {
  import opened Wrappers
  import opened Text
  import opened PriceText
  import opened JsNumber
  import PriceRoundTrip

  /** What each probe returned, in the order the chain asks them. */
  datatype ProbeResults = ProbeResults(
    dom: string, composed: string, twister: string,
    jsonLd: string, meta: string, script: string)

  function InOrder(p: ProbeResults): (r: seq<string>)
    ensures |r| == 6
  {
    [p.dom, p.composed, p.twister, p.jsonLd, p.meta, p.script]
  }

  /** `a || b || ... || ''` over strings. */
  function FirstNonEmpty(xs: seq<string>): (r: string)
    ensures r == "" <==> forall i :: 0 <= i < |xs| ==> xs[i] == ""
    ensures r != "" ==> exists k :: 0 <= k < |xs| && xs[k] == r && forall j :: 0 <= j < k ==> xs[j] == ""
  {
    if |xs| == 0 then ""
    else if xs[0] != "" then xs[0]
    else
      var r := FirstNonEmpty(xs[1..]);
      assert forall i :: 1 <= i < |xs| ==> xs[i] == xs[1..][i - 1];
      r
  }

  /** The price fields of the product record. */
  datatype PriceFields = PriceFields(
    priceRaw: string, price: string, priceIsRange: bool,
    priceNumeric: Option<real>, priceUnavailable: bool)

  const PriceNotFound := "Price not found"

  /** The chain and the record fields (content.js:329-343). The display
      text is used when the normaliser leaves one, else the probe's own
      text (which is then all whitespace). */
  function ResolvePrice(p: ProbeResults): (r: PriceFields)
    ensures var raw := FirstNonEmpty(InOrder(p));
      && (raw == "" ==> r == PriceFields("", PriceNotFound, false, None, false))
      && (raw != "" ==> r.price == r.priceRaw && Squeeze(r.priceRaw) == Squeeze(raw))
      && (raw != "" ==> Canonical(r.priceRaw) || r.priceRaw == raw)
      && (r.priceUnavailable ==> r.priceNumeric.None? && !r.priceIsRange)
    ensures r.priceNumeric == NormalizePriceText(FirstNonEmpty(InOrder(p))).numeric
    ensures r.priceIsRange == NormalizePriceText(FirstNonEmpty(InOrder(p))).isRange
    ensures r.priceUnavailable == NormalizePriceText(FirstNonEmpty(InOrder(p))).isUnavailable
    ensures NormalizeSpaces(FirstNonEmpty(InOrder(p))) != "" ==> r.priceRaw == NormalizeSpaces(FirstNonEmpty(InOrder(p)))
    ensures var raw := FirstNonEmpty(InOrder(p));
      raw != "" && NormalizeSpaces(raw) == "" ==> r.priceRaw == raw && r.price == raw
    ensures r.price != ""
  {
    var raw := FirstNonEmpty(InOrder(p));
    assert raw == "" ==> NormalizePriceText(raw) == PriceInfo("", None, false, false) by {
      if raw == "" { NormalizeEmpty(); }
    }
    RecordFields(raw)
  }

  /** `productData`'s price fields for the chain's text `raw`. */
  function RecordFields(raw: string): PriceFields {
    var info := NormalizePriceText(raw);
    var priceRaw := if info.display != "" then info.display else raw;
    var price := if info.display != "" then info.display else if raw != "" then raw else PriceNotFound;
    PriceFields(priceRaw, price, info.isRange, info.numeric, info.isUnavailable)
  }

  /** Once a probe returns text, the probes after it do not matter. */
  lemma FirstProbeDecides(p: ProbeResults, q: ProbeResults, k: nat)
    requires k < 6 && InOrder(p)[..k + 1] == InOrder(q)[..k + 1] && InOrder(p)[k] != ""
    ensures ResolvePrice(p) == ResolvePrice(q)
  {
    FirstNonEmptyPrefix(InOrder(p), k);
    FirstNonEmptyPrefix(InOrder(q), k);
    assert FirstNonEmpty(InOrder(p)) == FirstNonEmpty(InOrder(q));
  }

  lemma {:induction false} FirstNonEmptyPrefix(xs: seq<string>, k: nat)
    requires k < |xs| && xs[k] != ""
    ensures FirstNonEmpty(xs) == FirstNonEmpty(xs[..k + 1])
  {
    if xs[0] == "" {
      assert k > 0;
      assert xs[..k + 1][1..] == xs[1..][..k];
      FirstNonEmptyPrefix(xs[1..], k - 1);
    }
  }

  /** When the visible-price probe finds nothing and the composed probe
      returns a symbol and a decimal (what `ComposedPrice` builds from
      digit texts, by `PriceRoundTrip.ComposedPriceRoundTrip`), the record
      carries that text and the decimal's value. */
  lemma ComposedPriceThroughChain(p: ProbeResults, sym: string, d: Decimal)
    requires p.dom == "" && p.composed == sym + DecimalText(d)
    requires ValidDecimal(d) && PriceRoundTrip.NeutralPrefix(sym)
    requires DecimalValue(d) < DoubleOverflow
    ensures var r := ResolvePrice(p);
      && r.priceRaw == p.composed && r.price == p.composed
      && r.priceNumeric == Some(DecimalValue(d))
      && !r.priceIsRange && !r.priceUnavailable
  {
    PriceRoundTrip.SinglePriceRoundTrip(sym, d);
    assert p.composed != "" by { assert |p.composed| >= |d.whole|; }
    var xs := InOrder(p);
    assert xs[0] == "" && xs[1..][0] == p.composed;
    assert FirstNonEmpty(xs) == FirstNonEmpty(xs[1..]) == p.composed;
  }
}

=== FILE: complaints.dfy ===
/** `analyzeComplaints` (popup.js:248-273): the review texts are joined and
    lower-cased, every bucket counts the matches of its case-insensitive
    alternation, and the two buckets with the most matches are reported,
    most first, ties in declaration order, buckets without matches never. */
module Complaints {
  import opened Wrappers
  import opened Text
  import opened Lists
  import opened StableSort

  datatype Bucket = Quality | Size | Shipping | Instructions | Missing

  /** The buckets in the order the source declares them. */
  const Buckets: seq<Bucket> := [Quality, Size, Shipping, Instructions, Missing]

  function Key(b: Bucket): string {
    match b
    case Quality => "quality"
    case Size => "size"
    case Shipping => "shipping"
    case Instructions => "instructions"
    case Missing => "missing"
  }

  function Label(b: Bucket): string {
    match b
    case Quality => "Quality / breaks"
    case Size => "Size / fit wrong"
    case Shipping => "Shipping / packaging"
    case Instructions => "Instructions / confusing"
    case Missing => "Missing parts"
  }

  /** The alternatives of each bucket's pattern, left to right. */
  function Needles(b: Bucket): (r: seq<string>)
    ensures NonEmptyAlts(r)
  {
    match b
    case Quality => ["broke", "broken", "cheap", "poor quality", "fell apart", "defect", "faulty", "crack"]
    case Size => ["too small", "too big", "smaller", "larger", "fit", "size runs"]
    case Shipping => ["late", "shipping", "arrived", "package", "packaging", "damaged box"]
    case Instructions => ["instructions", "confusing", "hard to use", "difficult", "complicated"]
    case Missing => ["missing", "didn't include", "not included", "no parts", "incomplete"]
  }

  predicate NonEmptyAlts(alts: seq<string>) {
    forall k :: 0 <= k < |alts| ==> |alts[k]| > 0
  }

  // ------------------------------------------------------------ matching

  /** The length of the match of the alternation `alts` at `i`: the first
      alternative, in pattern order, that occurs there. */
  function FirstAltAt(s: string, alts: seq<string>, i: nat): (r: Option<nat>)
    requires i <= |s| && NonEmptyAlts(alts)
    ensures r.Some? ==> 0 < r.value && i + r.value <= |s|
    ensures r.None? <==> forall k :: 0 <= k < |alts| ==> !OccursAtIgnoreCase(s, alts[k], i)
  {
    if |alts| == 0 then None
    else if OccursAtIgnoreCase(s, alts[0], i) then Some(|alts[0]|)
    else
      var r := FirstAltAt(s, alts[1..], i);
      assert forall k :: 1 <= k < |alts| ==> alts[k] == alts[1..][k - 1];
      r
  }

  /** The alternation prefers the leftmost alternative that matches. */
  lemma {:induction false} FirstAltLeftmost(s: string, alts: seq<string>, i: nat) returns (k: nat)
    requires i <= |s| && NonEmptyAlts(alts) && FirstAltAt(s, alts, i).Some?
    ensures k < |alts| && OccursAtIgnoreCase(s, alts[k], i)
    ensures FirstAltAt(s, alts, i).value == |alts[k]|
    ensures forall j :: 0 <= j < k ==> !OccursAtIgnoreCase(s, alts[j], i)
  {
    if OccursAtIgnoreCase(s, alts[0], i) {
      k := 0;
    } else {
      var k' := FirstAltLeftmost(s, alts[1..], i);
      k := k' + 1;
      forall j | 0 <= j < k ensures !OccursAtIgnoreCase(s, alts[j], i) {
        if j > 0 { assert alts[j] == alts[1..][j - 1]; }
      }
    }
  }

  /** `(s.slice(i).match(new RegExp(alts.join('|'), 'gi')) || []).length`:
      after a match the search resumes at its end. */
  function CountFrom(s: string, alts: seq<string>, i: nat): (r: nat)
    requires i <= |s| && NonEmptyAlts(alts)
    ensures r <= |s| - i
    decreases |s| - i
  {
    if i == |s| then 0
    else match FirstAltAt(s, alts, i)
      case Some(n) => 1 + CountFrom(s, alts, i + n)
      case None => CountFrom(s, alts, i + 1)
  }

  /** Some alternative occurs at or after `i`. */
  predicate AnyAltFrom(s: string, alts: seq<string>, i: nat) {
    exists j, k :: i <= j < |s| && 0 <= k < |alts| && OccursAtIgnoreCase(s, alts[k], j)
  }

  /** A bucket counts at least one match iff one of its alternatives occurs. */
  lemma {:induction false} CountPositive(s: string, alts: seq<string>, i: nat)
    requires i <= |s| && NonEmptyAlts(alts)
    ensures CountFrom(s, alts, i) > 0 <==> AnyAltFrom(s, alts, i)
    decreases |s| - i
  {
    if i < |s| {
      match FirstAltAt(s, alts, i)
      case Some(n) =>
        var k := FirstAltLeftmost(s, alts, i);
        assert OccursAtIgnoreCase(s, alts[k], i);
      case None =>
        CountPositive(s, alts, i + 1);
        if AnyAltFrom(s, alts, i) {
          var j, k :| i <= j < |s| && 0 <= k < |alts| && OccursAtIgnoreCase(s, alts[k], j);
          assert j != i;
        }
    }
  }

  // ------------------------------------------------------------- tallies

  datatype Complaint = Complaint(bucket: Bucket, count: nat)

  /** `(Array.isArray(reviews) ? reviews : []).join("\n").toLowerCase()`;
      `None` stands for a value that is not an array. */
  function ReviewText(reviews: Option<seq<string>>): string {
    Lower(Join(reviews.GetOr([]), "\n"))
  }

  function Count(txt: string, b: Bucket): nat {
    CountFrom(txt, Needles(b), 0)
  }

  /** Every bucket with its count, in declaration order. */
  function Tally(txt: string): (r: seq<Complaint>)
    ensures |r| == |Buckets|
    ensures forall k :: 0 <= k < |r| ==> r[k] == Complaint(Buckets[k], Count(txt, Buckets[k]))
  {
    seq(|Buckets|, k requires 0 <= k < |Buckets| => Complaint(Buckets[k], Count(txt, Buckets[k])))
  }

  /** The comparator `(a, c) => c.count - a.count` as a key: more first. */
  function CountKey(c: Complaint): SortKey {
    SortKey(0, -(c.count as real))
  }

  predicate Positive(c: Complaint) {
    c.count > 0
  }

  function AnalyzeComplaints(reviews: Option<seq<string>>): (r: seq<Complaint>)
    ensures |r| <= 2
    ensures forall k :: 0 <= k < |r| ==> r[k].count > 0
  {
    Report(Tally(ReviewText(reviews)))
  }

  /** `.sort(...).filter(x => x.count > 0).slice(0, 2)` on the tallies. */
  function Report(all: seq<Complaint>): (r: seq<Complaint>)
    ensures |r| <= 2
    ensures forall k :: 0 <= k < |r| ==> r[k].count > 0
  {
    Take(Filter(Sort(all, CountKey), Positive), 2)
  }

  // ---------------------------------------------------------- top two

  /** `cs[m]` has the most complaints, and every earlier entry fewer. */
  predicate IsFirstMax(cs: seq<Complaint>, m: nat) {
    && m < |cs|
    && (forall j :: 0 <= j < |cs| ==> cs[j].count <= cs[m].count)
    && (forall j :: 0 <= j < m ==> cs[j].count < cs[m].count)
  }

  /** The reported buckets: the first bucket with the most matches, then
      the first with the most among the others, each only when it has a
      match. */
  lemma ComplaintsTopTwo(reviews: Option<seq<string>>) returns (m1: nat, m2: nat)
    ensures var all := Tally(ReviewText(reviews));
      && IsFirstMax(all, m1)
      && IsFirstMax(RemoveAt(all, m1), m2)
      && var a, b := all[m1], RemoveAt(all, m1)[m2];
         AnalyzeComplaints(reviews) == if a.count == 0 then [] else if b.count == 0 then [a] else [a, b]
  {
    m1, m2 := ReportTopTwo(Tally(ReviewText(reviews)));
  }

  lemma {:induction false} ReportTopTwo(all: seq<Complaint>) returns (m1: nat, m2: nat)
    requires |all| >= 2
    ensures IsFirstMax(all, m1) && IsFirstMax(RemoveAt(all, m1), m2)
    ensures var a, b := all[m1], RemoveAt(all, m1)[m2];
      Report(all) == if a.count == 0 then [] else if b.count == 0 then [a] else [a, b]
  {
    m1, m2 := SortPeelTwo(all, CountKey);
    var rest := RemoveAt(all, m1);
    FirstLeastCountIsFirstMax(all, m1);
    FirstLeastCountIsFirstMax(rest, m2);
    ReportOfSorted(all, all[m1], rest[m2], Sort(RemoveAt(rest, m2), CountKey));
  }

  /** The first least count key is the first greatest count. */
  lemma FirstLeastCountIsFirstMax(cs: seq<Complaint>, m: nat)
    requires IsFirstMin(cs, CountKey, m)
    ensures IsFirstMax(cs, m)
  {
  }

  /** The report read off the sorted list once its first two entries are
      known. */
  lemma ReportOfSorted(all: seq<Complaint>, a: Complaint, b: Complaint, tail: seq<Complaint>)
    requires Sort(all, CountKey) == [a, b] + tail
    ensures Report(all) == if a.count == 0 then [] else if b.count == 0 then [a] else [a, b]
  {
    SortSorted(all, CountKey);
    PositivePrefix(a, b, tail);
  }

  /** Keeping the positive entries of a list sorted by decreasing count and
      taking two gives its first two entries, as far as they are positive. */
  lemma PositivePrefix(a: Complaint, b: Complaint, tail: seq<Complaint>)
    requires SortedBy([a, b] + tail, CountKey)
    ensures Take(Filter([a, b] + tail, Positive), 2)
         == if a.count == 0 then [] else if b.count == 0 then [a] else [a, b]
  {
    var s := [a, b] + tail;
    assert s == [a] + ([b] + tail);
    FilterAppend([a], [b] + tail, Positive);
    FilterAppend([b], tail, Positive);
    assert forall j :: 0 <= j < |tail| ==> tail[j].count <= b.count <= a.count by {
      forall j | 0 <= j < |tail| ensures tail[j].count <= b.count <= a.count {
        assert s[j + 2] == tail[j] && KeyLe(CountKey(s[1]), CountKey(s[j + 2]));
        assert KeyLe(CountKey(s[0]), CountKey(s[1]));
      }
    }
    if b.count == 0 {
      FilterNone(tail, Positive);
    }
  }

  /** Each reported entry carries its bucket's true count, and the two
      reported buckets differ. */
  lemma ComplaintsFaithful(reviews: Option<seq<string>>)
    ensures var r := AnalyzeComplaints(reviews); var txt := ReviewText(reviews);
      && (forall k :: 0 <= k < |r| ==> r[k].count == Count(txt, r[k].bucket))
      && (|r| == 2 ==> r[0].bucket != r[1].bucket)
  {
    var txt := ReviewText(reviews);
    ReportFaithful(txt);
  }

  lemma ReportFaithful(txt: string)
    ensures var r := Report(Tally(txt));
      && (forall k :: 0 <= k < |r| ==> r[k].count == Count(txt, r[k].bucket))
      && (|r| == 2 ==> r[0].bucket != r[1].bucket)
  {
    var all := Tally(txt);
    assert forall i, j :: 0 <= i < j < |Buckets| ==> Buckets[i] != Buckets[j];
    ReportMembers(all);
    assert forall x :: x in all ==> x.count == Count(txt, x.bucket);
  }

  /** No two entries share a bucket. */
  predicate DistinctBuckets(cs: seq<Complaint>) {
    forall i, j :: 0 <= i < j < |cs| ==> cs[i].bucket != cs[j].bucket
  }

  /** The report is drawn from the tallies, two different buckets at most. */
  lemma ReportMembers(all: seq<Complaint>)
    requires |all| >= 2 && DistinctBuckets(all)
    ensures var r := Report(all);
      && (forall k :: 0 <= k < |r| ==> r[k] in all)
      && (|r| == 2 ==> r[0].bucket != r[1].bucket)
  {
    var m1, m2 := ReportTopTwo(all);
    var j := if m2 < m1 then m2 else m2 + 1;
    assert RemoveAt(all, m1)[m2] == all[j] && j != m1;
  }

  /** A bucket is reported only when one of its phrases occurs in the
      lower-cased reviews. */
  lemma ComplaintsFound(reviews: Option<seq<string>>)
    ensures var r := AnalyzeComplaints(reviews); var txt := ReviewText(reviews);
      forall k :: 0 <= k < |r| ==> AnyAltFrom(txt, Needles(r[k].bucket), 0)
  {
    var r := AnalyzeComplaints(reviews);
    var txt := ReviewText(reviews);
    ComplaintsFaithful(reviews);
    forall k | 0 <= k < |r| ensures AnyAltFrom(txt, Needles(r[k].bucket), 0) {
      CountPositive(txt, Needles(r[k].bucket), 0);
    }
  }

  /** No reviews, or reviews that are not an array, report nothing. */
  lemma NoReviewsNoComplaints()
    ensures AnalyzeComplaints(None) == []
    ensures AnalyzeComplaints(Some([])) == []
  {
    assert ReviewText(None) == "" && ReviewText(Some([])) == "";
    var m1, m2 := ComplaintsTopTwo(None);
    assert Tally("")[m1].count == 0;
  }
}

=== FILE: escape.dfy ===
/** `esc` (popup.js:95): the four HTML-special characters `<`, `>`, `&`
    and `"` replaced by their entities, every other character kept. */
module HtmlEscape {
  import opened Text

  predicate IsSpecial(c: char) {
    c == '<' || c == '>' || c == '&' || c == '"'
  }

  const Entities: seq<string> := ["&lt;", "&gt;", "&amp;", "&quot;"]

  function EscChar(c: char): (r: string)
    ensures |r| >= 1
    ensures IsSpecial(c) <==> r in Entities
    ensures !IsSpecial(c) ==> r == [c]
  {
    match c
    case '<' => "&lt;"
    case '>' => "&gt;"
    case '&' => "&amp;"
    case '"' => "&quot;"
    case _ => [c]
  }

  function Esc(s: string): (r: string)
    ensures |r| >= |s|
    ensures '<' !in r && '>' !in r && '"' !in r
    ensures (forall i :: 0 <= i < |s| ==> !IsSpecial(s[i])) ==> r == s
  {
    if |s| == 0 then ""
    else
      var r := EscChar(s[0]) + Esc(s[1..]);
      assert '<' !in EscChar(s[0]) && '>' !in EscChar(s[0]) && '"' !in EscChar(s[0]);
      r
  }

  /** Escaping distributes over concatenation. */
  lemma {:induction false} EscAppend(a: string, b: string)
    ensures Esc(a + b) == Esc(a) + Esc(b)
    decreases |a|
  {
    if |a| == 0 {
      assert a + b == b;
    } else {
      assert (a + b)[0] == a[0] && (a + b)[1..] == a[1..] + b;
      EscAppend(a[1..], b);
      assert EscChar(a[0]) + (Esc(a[1..]) + Esc(b)) == (EscChar(a[0]) + Esc(a[1..])) + Esc(b);
    }
  }

  /** The decoder a browser applies to the four entities when it parses the
      escaped text back; any other character stands for itself. */
  function Unescape(s: string): string
    decreases |s|
  {
    if |s| == 0 then ""
    else if OccursAt(s, "&lt;", 0) then "<" + Unescape(s[4..])
    else if OccursAt(s, "&gt;", 0) then ">" + Unescape(s[4..])
    else if OccursAt(s, "&amp;", 0) then "&" + Unescape(s[5..])
    else if OccursAt(s, "&quot;", 0) then "\"" + Unescape(s[6..])
    else [s[0]] + Unescape(s[1..])
  }

  lemma UnescapeStep(c: char, rest: string)
    ensures Unescape(EscChar(c) + rest) == [c] + Unescape(rest)
  {
    if IsSpecial(c) {
      UnescapeEntity(c, rest);
    } else {
      var s := [c] + rest;
      assert !OccursAt(s, "&lt;", 0) && !OccursAt(s, "&gt;", 0) && !OccursAt(s, "&amp;", 0) && !OccursAt(s, "&quot;", 0)
        by { assert s[0] == c; }
      assert s[1..] == rest;
    }
  }

  /** An entity is decoded to its character and the decoder resumes after it. */
  lemma UnescapeEntity(c: char, rest: string)
    requires IsSpecial(c)
    ensures Unescape(EscChar(c) + rest) == [c] + Unescape(rest)
  {
    var e := EscChar(c);
    var s := e + rest;
    assert s[..|e|] == e;
    assert s[|e|..] == rest;
    if c == '<' {
      assert OccursAt(s, "&lt;", 0);
    } else if c == '>' {
      assert !OccursAt(s, "&lt;", 0) by { assert s[1] == 'g'; }
      assert OccursAt(s, "&gt;", 0);
    } else if c == '&' {
      assert !OccursAt(s, "&lt;", 0) && !OccursAt(s, "&gt;", 0) by { assert s[1] == 'a'; }
      assert OccursAt(s, "&amp;", 0);
    } else {
      assert !OccursAt(s, "&lt;", 0) && !OccursAt(s, "&gt;", 0) && !OccursAt(s, "&amp;", 0) by { assert s[1] == 'q'; }
      assert OccursAt(s, "&quot;", 0);
    }
  }

  /** Escaping loses nothing: decoding the entities gives the text back. */
  lemma {:induction false} UnescapeEsc(s: string)
    ensures Unescape(Esc(s)) == s
  {
    if |s| > 0 {
      UnescapeEsc(s[1..]);
      assert Esc(s) == EscChar(s[0]) + Esc(s[1..]);
      UnescapeStep(s[0], Esc(s[1..]));
      assert s == [s[0]] + s[1..];
    }
  }

  /** Every `&` of the output starts one of the four entities, so the
      output contains no stray character references. */
  predicate AmpersandsAreEntities(r: string) {
    forall i :: 0 <= i < |r| && r[i] == '&' ==>
      exists k :: 0 <= k < |Entities| && i + |Entities[k]| <= |r| && r[i..i + |Entities[k]|] == Entities[k]
  }

  lemma {:induction false} EscAmpersands(s: string)
    ensures AmpersandsAreEntities(Esc(s))
  {
    if |s| > 0 {
      EscAmpersands(s[1..]);
      var e := EscChar(s[0]);
      var rest := Esc(s[1..]);
      forall i | 0 <= i < |e + rest| && (e + rest)[i] == '&'
        ensures exists k :: 0 <= k < |Entities| && i + |Entities[k]| <= |e + rest|
                  && (e + rest)[i..i + |Entities[k]|] == Entities[k]
      {
        var k := EntityAt(s[0], rest, i);
      }
    }
  }

  /** The entity that starts at an `&` of `EscChar(c) + rest`, where `rest`
      already has only entity ampersands. */
  lemma EntityAt(c: char, rest: string, i: nat) returns (k: nat)
    requires AmpersandsAreEntities(rest)
    requires i < |EscChar(c) + rest| && (EscChar(c) + rest)[i] == '&'
    ensures k < |Entities| && i + |Entities[k]| <= |EscChar(c) + rest|
    ensures (EscChar(c) + rest)[i..i + |Entities[k]|] == Entities[k]
  {
    if i < |EscChar(c)| {
      k := EntityAtHead(c, rest, i);
    } else {
      k := EntityInRest(EscChar(c), rest, i);
    }
  }

  /** An `&` inside the escape of one character starts that escape. */
  lemma EntityAtHead(c: char, rest: string, i: nat) returns (k: nat)
    requires i < |EscChar(c)| && (EscChar(c) + rest)[i] == '&'
    ensures k < |Entities| && i + |Entities[k]| <= |EscChar(c) + rest|
    ensures (EscChar(c) + rest)[i..i + |Entities[k]|] == Entities[k]
  {
    var e := EscChar(c);
    assert IsSpecial(c);
    k :| 0 <= k < |Entities| && e == Entities[k];
    assert i == 0;
    assert (e + rest)[..|e|] == e;
  }

  /** An `&` past a prefix `e` is one of `rest`'s, which start entities. */
  lemma EntityInRest(e: string, rest: string, i: nat) returns (k: nat)
    requires AmpersandsAreEntities(rest)
    requires |e| <= i < |e + rest| && (e + rest)[i] == '&'
    ensures k < |Entities| && i + |Entities[k]| <= |e + rest|
    ensures (e + rest)[i..i + |Entities[k]|] == Entities[k]
  {
    assert rest[i - |e|] == '&';
    k :| 0 <= k < |Entities| && i - |e| + |Entities[k]| <= |rest|
         && rest[i - |e|..i - |e| + |Entities[k]|] == Entities[k];
    assert (e + rest)[i..i + |Entities[k]|] == rest[i - |e|..i - |e| + |Entities[k]|];
  }
}

=== FILE: extract.dfy ===
/** The small field extractors of the page scraper: the ASIN from the
    page address (content.js:285-288), the brand from the byline
    (content.js:301-309) and the selected-variant tag
    (content.js:312-326). Element texts arrive as strings; the scraper's
    `text` helper trims them, and the model applies that trim itself. */
module Extractors {
  import opened Text

  // ================================================================ ASIN

  /** `[A-Z0-9]`, case-sensitive (the patterns have no `i` flag). */
  predicate IsAsinChar(c: char) { ('A' <= c <= 'Z') || IsDigit(c) }

  const AsinLength: nat := 10

  predicate IsAsin(a: string) {
    |a| == AsinLength && forall i :: 0 <= i < |a| ==> IsAsinChar(a[i])
  }

  const DpMarker := "/dp/"
  const ProductMarker := "/gp/product/"

  /** `marker` followed by ten ASIN characters at `i`. */
  predicate AsinMatchAt(url: string, marker: string, i: nat) {
    && OccursAt(url, marker, i)
    && i + |marker| + AsinLength <= |url|
    && IsAsin(url[i + |marker|..i + |marker| + AsinLength])
  }

  /** The capture of the leftmost match of `marker([A-Z0-9]{10})` at or
      after `i`, or "" when there is none. */
  function FindAsinFrom(url: string, marker: string, i: nat): (r: string)
    requires i <= |url|
    ensures r == "" <==> forall j :: i <= j <= |url| ==> !AsinMatchAt(url, marker, j)
    ensures r != "" ==> exists j :: (i <= j <= |url| && AsinMatchAt(url, marker, j)
      && (forall k :: i <= k < j ==> !AsinMatchAt(url, marker, k))
      && r == url[j + |marker|..j + |marker| + AsinLength])
    decreases |url| - i
  {
    if AsinMatchAt(url, marker, i) then url[i + |marker|..i + |marker| + AsinLength]
    else if i == |url| then ""
    else FindAsinFrom(url, marker, i + 1)
  }

  /** The ASIN field: the `/dp/` pattern first, then `/gp/product/`. */
  function AsinFromUrl(url: string): (r: string)
    ensures r == "" || IsAsin(r)
    ensures r == "" <==>
      forall j :: 0 <= j <= |url| ==> !AsinMatchAt(url, DpMarker, j) && !AsinMatchAt(url, ProductMarker, j)
    ensures (exists j :: 0 <= j <= |url| && AsinMatchAt(url, DpMarker, j)) ==> Contains(url, DpMarker + r)
    ensures (exists j :: 0 <= j <= |url| && AsinMatchAt(url, DpMarker, j)) ==> r == FindAsinFrom(url, DpMarker, 0)
    ensures (forall j :: 0 <= j <= |url| ==> !AsinMatchAt(url, DpMarker, j)) ==> r == FindAsinFrom(url, ProductMarker, 0)
  {
    var dp := FindAsinFrom(url, DpMarker, 0);
    if dp != "" then
      var j :| 0 <= j <= |url| && AsinMatchAt(url, DpMarker, j) && dp == url[j + 4..j + 4 + AsinLength];
      assert url[j..j + 4 + AsinLength] == DpMarker + dp;
      assert OccursAt(url, DpMarker + dp, j);
      dp
    else
      var gp := FindAsinFrom(url, ProductMarker, 0);
      assert gp != "" ==> IsAsin(gp);
      gp
  }

  /** In an address `pre + "/dp/" + a + rest` whose `pre` holds no `/dp/`,
      the ASIN read is `a`. */
  lemma AsinRoundTrip(pre: string, a: string, rest: string)
    requires IsAsin(a) && !Contains(pre, DpMarker)
    ensures AsinFromUrl(pre + DpMarker + a + rest) == a
  {
    var url := pre + DpMarker + a + rest;
    var p := |pre|;
    assert AsinMatchAt(url, DpMarker, p) by {
      assert url[p..p + 4] == DpMarker;
      assert url[p + 4..p + 4 + AsinLength] == a;
    }
    forall k | 0 <= k < p ensures !AsinMatchAt(url, DpMarker, k) {
      if k + 4 <= p {
        assert url[k..k + 4] == pre[k..k + 4];
        assert !OccursAt(pre, DpMarker, k);
      } else if k == p - 3 {
        assert url[k + 4] == 'd';
      } else if k == p - 2 {
        assert url[k..k + 4][2] == url[p] == '/';
      } else {
        assert url[k..k + 4][1] == url[p] == '/';
      }
    }
    var r := FindAsinFrom(url, DpMarker, 0);
    assert r != "";
    var j :| 0 <= j <= |url| && AsinMatchAt(url, DpMarker, j)
      && (forall k :: 0 <= k < j ==> !AsinMatchAt(url, DpMarker, k))
      && r == url[j + 4..j + 4 + AsinLength];
    assert j == p;
    assert r == a;
  }

  // =============================================================== brand

  /** `r` is a contiguous piece of `s`. */
  predicate IsSliceOf(r: string, s: string) {
    exists i, j :: 0 <= i <= j <= |s| && r == s[i..j]
  }

  lemma SliceOfSlice(a: string, b: string, c: string)
    requires IsSliceOf(a, b) && IsSliceOf(b, c)
    ensures IsSliceOf(a, c)
  {
    var i, j :| 0 <= i <= j <= |b| && a == b[i..j];
    var k, l :| 0 <= k <= l <= |c| && b == c[k..l];
    assert |a| == j - i;
    forall n | 0 <= n < j - i ensures a[n] == c[k + i + n] {
      assert a[n] == b[i + n];
      assert b[i + n] == c[k..l][i + n] == c[k + i + n];
    }
    assert a == c[k + i..k + j];
  }

  lemma TrimIsSlice(s: string)
    ensures IsSliceOf(Trim(s), s)
  {
    var t := TrimStart(s);
    var r := TrimEnd(t);
    assert r == s[|s| - |t|..|s| - |t| + |r|];
  }

  lemma TrimStartIsSlice(s: string)
    ensures IsSliceOf(TrimStart(s), s)
  {
    var t := TrimStart(s);
    assert t == s[|s| - |t|..|s|];
  }

  /** `s.replace(/^p/i, '')`. */
  function StripPrefixIgnoreCase(s: string, p: string): (r: string)
    ensures StartsWithIgnoreCase(s, p) ==> r == s[|p|..]
    ensures !StartsWithIgnoreCase(s, p) ==> r == s
  {
    if StartsWithIgnoreCase(s, p) then s[|p|..] else s
  }

  /** `s.replace(/p$/i, '')`. */
  function StripSuffixIgnoreCase(s: string, p: string): (r: string)
    ensures EndsWithIgnoreCase(s, p) ==> r == s[..|s| - |p|]
    ensures !EndsWithIgnoreCase(s, p) ==> r == s
  {
    if EndsWithIgnoreCase(s, p) then s[..|s| - |p|] else s
  }

  // `s.replace(/^Brand:\s*/i, '')`.
  function StripBrandLabel(s: string): (r: string)
    ensures StartsWithIgnoreCase(s, "Brand:") ==> r == TrimStart(s[6..])
    ensures !StartsWithIgnoreCase(s, "Brand:") ==> r == s
  {
    if StartsWithIgnoreCase(s, "Brand:") then TrimStart(s[6..]) else s
  }

  /** Each cleanup step keeps a contiguous piece of its input. */
  lemma BrandStepsAreSlices(t: string)
    ensures IsSliceOf(StripPrefixIgnoreCase(t, "Visit the "), t)
    ensures IsSliceOf(StripSuffixIgnoreCase(t, " Store"), t)
    ensures IsSliceOf(StripBrandLabel(t), t)
  {
    assert t == t[0..|t|];
    if StartsWithIgnoreCase(t, "Visit the ") { assert t[10..] == t[10..|t|]; }
    if EndsWithIgnoreCase(t, " Store") { assert t[..|t| - 6] == t[0..|t| - 6]; }
    if StartsWithIgnoreCase(t, "Brand:") {
      assert t[6..] == t[6..|t|];
      TrimStartIsSlice(t[6..]);
      SliceOfSlice(StripBrandLabel(t), t[6..], t);
    }
  }

  /** The brand field: the byline text with a leading "Visit the ", a
      trailing " Store" and a leading "Brand:" tag removed, trimmed. */
  function BrandFromByline(byline: string): (r: string)
    ensures IsTrimmed(r)
    ensures IsSliceOf(r, byline)
    ensures (!StartsWithIgnoreCase(Trim(byline), "Visit the ") && !EndsWithIgnoreCase(Trim(byline), " Store")
             && !StartsWithIgnoreCase(Trim(byline), "Brand:")) ==> r == Trim(byline)
  {
    var t := Trim(byline);
    var a := StripPrefixIgnoreCase(t, "Visit the ");
    var b := StripSuffixIgnoreCase(a, " Store");
    var c := StripBrandLabel(b);
    var r := Trim(c);
    TrimIsSlice(byline);
    BrandStepsAreSlices(t);
    BrandStepsAreSlices(a);
    BrandStepsAreSlices(b);
    TrimIsSlice(c);
    SliceOfSlice(a, t, byline);
    SliceOfSlice(b, a, byline);
    SliceOfSlice(c, b, byline);
    SliceOfSlice(r, c, byline);
    r
  }

  /** A store link "Visit the NAME Store" yields NAME; only the last
      " Store" goes, so a NAME such as "Acme Store" is kept whole. */
  lemma BrandOfStoreLink(name: string)
    requires IsTrimmed(name) && |name| > 0
    requires !StartsWithIgnoreCase(name, "Brand:")
    ensures BrandFromByline("Visit the " + name + " Store") == name
  {
    var s := "Visit the " + name + " Store";
    assert IsTrimmed(s) by { assert s[0] == 'V' && s[|s| - 1] == 'e'; }
    assert StartsWithIgnoreCase(s, "Visit the ") by { assert s[..10] == "Visit the "; }
    var a := s[10..];
    assert a == name + " Store";
    assert EndsWithIgnoreCase(a, " Store") by { assert a[|a| - 6..] == " Store"; }
    assert a[..|a| - 6] == name;
  }

  /** "Brand: NAME" ends in " Store" exactly when " NAME" does. */
  lemma LabelStoreSuffix(name: string)
    requires !EndsWithIgnoreCase(" " + name, " Store")
    ensures !EndsWithIgnoreCase("Brand: " + name, " Store")
  {
    var s := "Brand: " + name;
    var n1 := " " + name;
    assert s == "Brand:" + n1;
    if |n1| >= 6 {
      assert s[|s| - 6..] == n1[|n1| - 6..];
    } else {
      var k := |s| - 6;
      assert 1 <= k <= 5;
      assert s[k] == "Brand:"[k];
      assert FoldChar(s[k]) != ' ';
      assert s[|s| - 6..][0] == s[k];
    }
  }

  /** A labelled byline "Brand: NAME" yields NAME, unless " NAME" itself
      ends in " Store" (then that suffix goes first). */
  lemma {:induction false} BrandOfLabel(name: string)
    requires IsTrimmed(name) && |name| > 0 && !EndsWithIgnoreCase(" " + name, " Store")
    ensures BrandFromByline("Brand: " + name) == name
  {
    var s := "Brand: " + name;
    LabelShape(name);
    LabelStoreSuffix(name);
    LabelStripped(name);
    assert StripPrefixIgnoreCase(s, "Visit the ") == s;
    assert StripSuffixIgnoreCase(s, " Store") == s;
    assert Trim(name) == name;
  }

  /** Dropping the label and the blank after it leaves the name. */
  lemma LabelStripped(name: string)
    requires IsTrimmed(name) && |name| > 0
    requires StartsWithIgnoreCase("Brand: " + name, "Brand:")
    ensures StripBrandLabel("Brand: " + name) == name
  {
    assert ("Brand: " + name)[6..] == " " + name;
    assert TrimStart(" " + name) == name;
  }

  /** "Brand: NAME" is trimmed, starts with the label and not with the
      store-link prefix. */
  lemma LabelShape(name: string)
    requires IsTrimmed(name) && |name| > 0
    ensures var s := "Brand: " + name;
      && Trim(s) == s && StartsWithIgnoreCase(s, "Brand:") && !StartsWithIgnoreCase(s, "Visit the ")
  {
    var s := "Brand: " + name;
    assert IsTrimmed(s) by {
      assert s[0] == 'B';
      assert s[|s| - 1] == name[|name| - 1];
    }
    assert !StartsWithIgnoreCase(s, "Visit the ") by {
      if |s| >= 10 { assert s[..10][0] == 'B'; }
    }
    assert StartsWithIgnoreCase(s, "Brand:") by { assert s[..6] == "Brand:"; }
  }

  // ============================================================= variant

  /** The labelled parts of the selected variant, in the order color, size,
      style, for those whose element text is non-empty. */
  function VariantParts(color: string, size: string, style: string): (r: seq<string>)
    ensures |r| <= 3
    ensures forall x :: x in r ==> |x| > 0
  {
    Labelled("Color: ", color) + Labelled("Size: ", size) + Labelled("Style: ", style)
  }

  /** The one-element list `[tag + text(el)]`, or none when the text is empty. */
  function Labelled(tag: string, text: string): (r: seq<string>)
    ensures |r| <= 1
    ensures |r| == 1 <==> Trim(text) != ""
    ensures |r| == 1 ==> r[0] == tag + Trim(text)
  {
    if Trim(text) != "" then [tag + Trim(text)] else []
  }

  /** The selected-variant field: the labelled parts joined by " | ", else
      the generic selection text, trimmed. */
  function VariantLabel(color: string, size: string, style: string, generic: string): (r: string)
    ensures IsTrimmed(r)
    ensures |VariantParts(color, size, style)| == 0 ==> r == Trim(generic)
    ensures |VariantParts(color, size, style)| > 0 ==> r == Join(VariantParts(color, size, style), " | ")
  {
    var bits := VariantParts(color, size, style);
    var joined := Join(bits, " | ");
    if |joined| > 0 then
      JoinLabelledTrimmed(color, size, style);
      Trim(joined)
    else
      assert |bits| == 0 by { if |bits| > 0 { JoinNonEmpty(bits, " | "); } }
      Trim(generic)
  }

  lemma JoinNonEmpty(parts: seq<string>, sep: string)
    requires |parts| > 0 && |parts[0]| > 0
    ensures |Join(parts, sep)| > 0
  {
  }

  /** The joined labels are already trimmed: they start with a tag and
      end with a trimmed, non-empty element text. */
  lemma JoinLabelledTrimmed(color: string, size: string, style: string)
    requires |VariantParts(color, size, style)| > 0
    ensures IsTrimmed(Join(VariantParts(color, size, style), " | "))
  {
    var bits := VariantParts(color, size, style);
    JoinEnds(bits, " | ");
    PartsEnds(color, size, style);
  }

  /** The first part starts with a tag letter; the last ends in a
      non-blank character. */
  lemma PartsEnds(color: string, size: string, style: string)
    requires |VariantParts(color, size, style)| > 0
    ensures var bits := VariantParts(color, size, style); var last := bits[|bits| - 1];
      && !IsSpace(bits[0][0]) && !IsSpace(last[|last| - 1])
  {
    var a, b, c := Labelled("Color: ", color), Labelled("Size: ", size), Labelled("Style: ", style);
    LabelledUnpadded("Color: ", color);
    LabelledUnpadded("Size: ", size);
    LabelledUnpadded("Style: ", style);
    var bits := a + b + c;
    assert forall x :: x in bits ==> Unpadded(x);
    assert bits[0] in bits && bits[|bits| - 1] in bits;
  }

  /** Neither end of `p` is blank. */
  predicate Unpadded(p: string) {
    |p| > 0 && !IsSpace(p[0]) && !IsSpace(p[|p| - 1])
  }

  lemma LabelledUnpadded(tag: string, text: string)
    requires |tag| > 0 && !IsSpace(tag[0])
    ensures forall x :: x in Labelled(tag, text) ==> Unpadded(x)
  {
    if Trim(text) != "" {
      LabelEnd(tag, text);
      assert (tag + Trim(text))[0] == tag[0];
    }
  }

  lemma LabelEnd(tag: string, text: string)
    requires Trim(text) != ""
    ensures var l := tag + Trim(text); !IsSpace(l[|l| - 1])
  {
    var t := Trim(text);
    assert (tag + t)[|tag + t| - 1] == t[|t| - 1];
  }

  lemma {:induction false} JoinEnds(parts: seq<string>, sep: string)
    requires |parts| > 0 && forall x :: x in parts ==> |x| > 0
    ensures var j := Join(parts, sep);
      |j| > 0 && j[0] == parts[0][0] && j[|j| - 1] == parts[|parts| - 1][|parts[|parts| - 1]| - 1]
  {
    assert parts[0] in parts && parts[|parts| - 1] in parts;
    if |parts| > 1 {
      var rest := parts[1..];
      assert forall x :: x in rest ==> x in parts;
      JoinEnds(rest, sep);
      var j, jr := Join(parts, sep), Join(rest, sep);
      assert j == parts[0] + sep + jr;
      assert j[|j| - 1] == jr[|jr| - 1];
      assert rest[|rest| - 1] == parts[|parts| - 1];
    }
  }

  /** With all three element texts present the tag names them in order. */
  lemma VariantAllThree(color: string, size: string, style: string)
    requires IsTrimmed(color) && IsTrimmed(size) && IsTrimmed(style)
    requires color != "" && size != "" && style != ""
    ensures VariantLabel(color, size, style, "")
         == "Color: " + color + " | Size: " + size + " | Style: " + style
  {
    var c, z, y := "Color: " + color, "Size: " + size, "Style: " + style;
    AllThreeParts(color, size, style);
    JoinThree(c, z, y, " | ");
    LabelGlue(c, " | ", "Size: ", size);
    LabelGlue(c + " | " + z, " | ", "Style: ", style);
    SeparatorGlue();
  }

  /** Gluing a separator and a labelled value onto a text. */
  lemma LabelGlue(a: string, sep: string, tag: string, v: string)
    ensures a + sep + (tag + v) == a + (sep + tag) + v
  {
    assert a + sep + (tag + v) == (a + (sep + tag)) + v;
  }

  lemma SeparatorGlue()
    ensures " | " + "Size: " == " | Size: " && " | " + "Style: " == " | Style: "
  {
  }

  lemma JoinThree(a: string, b: string, c: string, sep: string)
    ensures Join([a, b, c], sep) == a + sep + b + sep + c
  {
    var bits := [a, b, c];
    assert bits[1..] == [b, c];
    assert bits[1..][1..] == [c];
    calc {
      Join(bits, sep);
      a + sep + Join([b, c], sep);
      a + sep + (b + sep + c);
      a + sep + b + sep + c;
    }
  }

  lemma AllThreeParts(color: string, size: string, style: string)
    requires IsTrimmed(color) && IsTrimmed(size) && IsTrimmed(style)
    requires color != "" && size != "" && style != ""
    ensures VariantParts(color, size, style) == ["Color: " + color, "Size: " + size, "Style: " + style]
  {
    assert Trim(color) == color && Trim(size) == size && Trim(style) == style;
  }
}

=== FILE: jsnumber.dfy ===
/** JavaScript numbers as the extension reads them from text: the global
    `parseFloat`, the `Number(...)` conversion, and the unsigned decimal
    runs matched by `/([0-9]+(\.[0-9]+)?)/`.  Values are exact decimals;
    only overflow to an infinity is carried over from IEEE doubles. */
module JsNumber {
  import opened Text
  import opened Wrappers

  /** A JavaScript number: not-a-number, a finite value, or an infinity. */
  datatype JsNum = NaN | Finite(v: real) | Infinite(positive: bool) {
    predicate IsNaN() { NaN? }

    /** Truthiness: `0` and `NaN` are falsy. */
    predicate Truthy() { !NaN? && this != Finite(0.0) }
  }

  /** 2^1024 - 2^970: the smallest magnitude that rounds to an infinity. */
  const DoubleOverflow: real := 179769313486231580793728971405303415079934132710037826936173778980444968292764750946649017977587207096330286416692887910946555547851940402630657488671505820681908902000708383676273854845817711531764475730270069855571366959622842914819860834936475292719074168444365510704342711559699508093042880177904174497792.0

  /** A mathematical value as a JavaScript number: magnitudes at or beyond
      the overflow bound become infinities. */
  function ToDouble(x: real): (r: JsNum)
    ensures !r.NaN?
    ensures -DoubleOverflow < x < DoubleOverflow <==> r == Finite(x)
    ensures r.Infinite? ==> (r.positive <==> x > 0.0)
  {
    if x >= DoubleOverflow then Infinite(true)
    else if x <= -DoubleOverflow then Infinite(false)
    else Finite(x)
  }

  /** `a < b` on numbers (false whenever either side is NaN). */
  predicate Less(a: JsNum, b: JsNum) {
    match (a, b)
    case (Finite(x), Finite(y)) => x < y
    case (Finite(_), Infinite(p)) => p
    case (Infinite(p), Finite(_)) => !p
    case (Infinite(p), Infinite(q)) => !p && q
    case _ => false
  }

  /** `a <= b` on numbers (false whenever either side is NaN). */
  predicate NumLe(a: JsNum, b: JsNum) {
    match (a, b)
    case (Finite(x), Finite(y)) => x <= y
    case (Finite(_), Infinite(q)) => q
    case (Infinite(p), Finite(_)) => !p
    case (Infinite(p), Infinite(q)) => !p || q
    case _ => false
  }

  function Pow10Real(e: int): (r: real)
    ensures r > 0.0
  {
    if e >= 0 then Pow10(e) as real else 1.0 / Pow10(-e) as real
  }

  // ------------------------------------------------------ digit scanning

  /** End of the maximal digit run starting at `i`. */
  function DigitRunEnd(s: string, i: nat): (e: nat)
    requires i <= |s|
    ensures i <= e <= |s|
    ensures AllDigits(s[i..e])
    ensures e == |s| || !IsDigit(s[e])
    decreases |s| - i
  {
    if i < |s| && IsDigit(s[i]) then
      var e := DigitRunEnd(s, i + 1);
      assert s[i..e] == [s[i]] + s[i + 1..e];
      e
    else i
  }

  // ------------------------------------------- /([0-9]+(\.[0-9]+)?)/g

  /** One unsigned decimal: a non-empty whole part and a fraction that is
      empty when the text has no decimal point. */
  datatype Decimal = Decimal(whole: string, frac: string)

  predicate ValidDecimal(d: Decimal) {
    |d.whole| >= 1 && AllDigits(d.whole) && AllDigits(d.frac)
  }

  function DecimalText(d: Decimal): string {
    d.whole + (if |d.frac| == 0 then "" else "." + d.frac)
  }

  function DecimalValue(d: Decimal): (r: real)
    requires ValidDecimal(d)
    ensures r >= 0.0
  {
    MantissaValue(d.whole, d.frac)
  }

  /** The value of the digits `whole.frac`. */
  function MantissaValue(whole: string, frac: string): (r: real)
    requires AllDigits(whole) && AllDigits(frac)
    ensures r >= 0.0
  {
    DigitsValue(whole) as real + Fraction(DigitsValue(frac), Pow10(|frac|))
  }

  function Fraction(num: nat, den: nat): (r: real)
    requires den > 0
    ensures r >= 0.0
    ensures num < den ==> r < 1.0
  {
    var r := num as real / den as real;
    assert r * den as real == num as real;
    r
  }

  /** The match of `[0-9]+(\.[0-9]+)?` at position `i`, where `s[i]` is a
      digit: the digit run, then a decimal point and digits only when a
      digit follows the point. */
  function RunAt(s: string, i: nat): (d: Decimal)
    requires i < |s| && IsDigit(s[i])
    ensures ValidDecimal(d)
    ensures i + |DecimalText(d)| <= |s|
  {
    var e := DigitRunEnd(s, i);
    if e + 1 < |s| && s[e] == '.' && IsDigit(s[e + 1]) then
      var f := DigitRunEnd(s, e + 1);
      Decimal(s[i..e], s[e + 1..f])
    else Decimal(s[i..e], "")
  }

  /** The run read at `i` is the text found there. */
  lemma RunAtText(s: string, i: nat)
    requires i < |s| && IsDigit(s[i])
    ensures var d := RunAt(s, i); s[i..i + |DecimalText(d)|] == DecimalText(d)
  {
    var e := DigitRunEnd(s, i);
    if e + 1 < |s| && s[e] == '.' && IsDigit(s[e + 1]) {
      var f := DigitRunEnd(s, e + 1);
      assert s[i..f] == s[i..e] + "." + s[e + 1..f];
    }
  }

  /** Every match of the global pattern in `s[i..]`, left to right. */
  function NumberRunsFrom(s: string, i: nat): (r: seq<Decimal>)
    requires i <= |s|
    ensures forall k :: 0 <= k < |r| ==> ValidDecimal(r[k])
    ensures |r| == 0 <==> forall j :: i <= j < |s| ==> !IsDigit(s[j])
    decreases |s| - i
  {
    if i == |s| then []
    else if IsDigit(s[i]) then
      var d := RunAt(s, i);
      [d] + NumberRunsFrom(s, i + |DecimalText(d)|)
    else NumberRunsFrom(s, i + 1)
  }

  /** `s.match(/([0-9]+(\.[0-9]+)?)/g) || []`. */
  function NumberRuns(s: string): seq<Decimal> {
    NumberRunsFrom(s, 0)
  }

  /** The first match of `/([0-9]+(\.[0-9]+)?)/`, if any. */
  function FirstNumber(s: string): Option<Decimal> {
    var runs := NumberRuns(s);
    if |runs| == 0 then None else Some(runs[0])
  }

  /** The first element of the run list is the run at the first digit. */
  lemma {:induction false} FirstRunAtFirstDigit(s: string, i: nat, p: nat)
    requires i <= p < |s| && IsDigit(s[p])
    requires forall j :: i <= j < p ==> !IsDigit(s[j])
    ensures |NumberRunsFrom(s, i)| >= 1
    ensures NumberRunsFrom(s, i)[0] == RunAt(s, p)
    decreases p - i
  {
    if i < p {
      FirstRunAtFirstDigit(s, i + 1, p);
    }
  }

  lemma {:induction false} DigitRunEndIs(s: string, i: nat, e: nat)
    requires i <= e <= |s|
    requires forall k :: i <= k < e ==> IsDigit(s[k])
    requires e == |s| || !IsDigit(s[e])
    ensures DigitRunEnd(s, i) == e
    decreases e - i
  {
    if i < e {
      DigitRunEndIs(s, i + 1, e);
    }
  }

  /** The run the scanner reads where a rendered decimal starts is that
      decimal, when no digit or point follows it. */
  lemma {:induction false} RunAtDecimal(s: string, i: nat, d: Decimal)
    requires ValidDecimal(d)
    requires OccursAt(s, DecimalText(d), i)
    requires i + |DecimalText(d)| == |s|
      || (!IsDigit(s[i + |DecimalText(d)|]) && s[i + |DecimalText(d)|] != '.')
    ensures RunAt(s, i) == d
  {
    if |d.frac| == 0 {
      DigitsAtIs(s, i, d.whole, DecimalText(d));
      RunAtWhole(s, i, d.whole);
    } else {
      RunAtPointed(s, i, d);
    }
  }

  /** The case of `RunAtDecimal` with a fraction part. */
  lemma {:induction false} RunAtPointed(s: string, i: nat, d: Decimal)
    requires ValidDecimal(d) && |d.frac| > 0
    requires OccursAt(s, d.whole + ("." + d.frac), i)
    requires i + |d.whole| + 1 + |d.frac| == |s| || !IsDigit(s[i + |d.whole| + 1 + |d.frac|])
    ensures RunAt(s, i) == d
  {
    DigitsAtIs(s, i, d.whole, d.whole + ("." + d.frac));
    PointAt(s, i, d.whole, d.frac);
    FractionRunEnd(s, i + |d.whole| + 1, d.frac);
    RunAtFraction(s, i, d);
  }

  /** A digit string followed by a non-digit is one whole run. */
  lemma FractionRunEnd(s: string, j: nat, f: string)
    requires AllDigits(f) && j + |f| <= |s| && s[j..j + |f|] == f
    requires j + |f| == |s| || !IsDigit(s[j + |f|])
    ensures DigitRunEnd(s, j) == j + |f|
  {
    forall k | j <= k < j + |f| ensures IsDigit(s[k]) {
      assert s[k] == f[k - j];
    }
    DigitRunEndIs(s, j, j + |f|);
  }

  /** Where `a.b` occurs at `i`, the point is at `i + |a|` and `b` follows it. */
  lemma PointAt(s: string, i: nat, a: string, b: string)
    requires OccursAt(s, a + ("." + b), i)
    ensures i + |a| < |s| && s[i + |a|] == '.'
    ensures s[i + |a| + 1..i + |a| + 1 + |b|] == b
  {
    var u := s[i..i + |a| + 1 + |b|];
    assert u[|a|] == '.';
    assert u[|a| + 1..] == b;
  }

  lemma RunAtWhole(s: string, i: nat, whole: string)
    requires i < |s| && IsDigit(s[i]) && AllDigits(whole)
    requires DigitRunEnd(s, i) == i + |whole| && s[i..i + |whole|] == whole
    requires i + |whole| == |s| || s[i + |whole|] != '.'
    ensures RunAt(s, i) == Decimal(whole, "")
  {
  }

  lemma RunAtFraction(s: string, i: nat, d: Decimal)
    requires ValidDecimal(d) && |d.frac| > 0
    requires i + |d.whole| + 1 < |s| && s[i + |d.whole|] == '.'
    requires DigitRunEnd(s, i) == i + |d.whole| && s[i..i + |d.whole|] == d.whole
    requires DigitRunEnd(s, i + |d.whole| + 1) == i + |d.whole| + 1 + |d.frac|
    requires s[i + |d.whole| + 1..i + |d.whole| + 1 + |d.frac|] == d.frac
    ensures RunAt(s, i) == d
  {
    assert IsDigit(s[i + |d.whole| + 1]) by { assert d.frac[0] == s[i + |d.whole| + 1]; }
  }

  lemma DigitsAtIs(s: string, i: nat, ds: string, t: string)
    requires AllDigits(ds) && |ds| <= |t| && t[..|ds|] == ds
    requires OccursAt(s, t, i)
    requires |ds| < |t| ==> !IsDigit(t[|ds|])
    requires |ds| == |t| ==> i + |t| == |s| || !IsDigit(s[i + |t|])
    ensures DigitRunEnd(s, i) == i + |ds|
    ensures s[i..i + |ds|] == ds
  {
    var e := i + |ds|;
    assert s[i..i + |t|] == t;
    assert forall k :: i <= k < e ==> IsDigit(s[k]) by {
      forall k | i <= k < e ensures IsDigit(s[k]) { assert s[k] == t[k - i] == ds[k - i]; }
    }
    if |ds| < |t| {
      assert s[e] == t[|ds|];
    }
    DigitRunEndIs(s, i, e);
    assert s[i..e] == t[..|ds|];
  }

  /** Characters without a digit contribute no runs. */
  lemma {:induction false} SkipNonDigits(s: string, i: nat, p: nat)
    requires i <= p <= |s|
    requires forall j :: i <= j < p ==> !IsDigit(s[j])
    ensures NumberRunsFrom(s, i) == NumberRunsFrom(s, p)
    decreases p - i
  {
    if i < p {
      SkipNonDigits(s, i + 1, p);
    }
  }

  /** A digit at or after `i` gives at least one run. */
  lemma RunsNonEmpty(s: string, i: nat, p: nat)
    requires i <= p < |s| && IsDigit(s[p])
    ensures |NumberRunsFrom(s, i)| > 0
  {
  }

  lemma DecimalTextShape(d: Decimal)
    requires ValidDecimal(d)
    ensures var t := DecimalText(d);
      && |t| > 0 && IsDigit(t[0]) && IsDigit(t[|t| - 1])
      && forall i :: 0 <= i < |t| ==> IsDigit(t[i]) || t[i] == '.'
  {
    var t := DecimalText(d);
    assert t[0] == d.whole[0];
    forall i | 0 <= i < |t| ensures IsDigit(t[i]) || t[i] == '.' {
      if i < |d.whole| { assert t[i] == d.whole[i]; }
      else if i > |d.whole| { assert t[i] == d.frac[i - |d.whole| - 1]; }
    }
    if |d.frac| > 0 { assert t[|t| - 1] == d.frac[|d.frac| - 1]; }
  }

  // ------------------------------------------------------------ parseFloat

  /** Exponent part `[eE][+-]?[0-9]+` at `i`: its end and value, or `(i, 0)`
      when there is no complete exponent there. */
  function ScanExponent(s: string, i: nat): (r: (nat, int))
    requires i <= |s|
    ensures i <= r.0 <= |s|
    ensures r.0 == i ==> r.1 == 0
  {
    if i < |s| && (s[i] == 'e' || s[i] == 'E') then
      var j := if i + 1 < |s| && (s[i + 1] == '+' || s[i + 1] == '-') then i + 2 else i + 1;
      var e := DigitRunEnd(s, j);
      if e == j then (i, 0)
      else
        var mag: int := DigitsValue(s[j..e]);
        (e, if s[j - 1] == '-' then -mag else mag)
    else (i, 0)
  }

  /** The longest prefix of `s[i..]` that is an unsigned decimal literal
      other than `Infinity` (`12`, `12.`, `.5`, `1.5e3`): its end and value. */
  function ScanUnsignedDecimal(s: string, i: nat): (r: Option<(nat, real)>)
    requires i <= |s|
    ensures r.Some? ==> i < r.value.0 <= |s|
  {
    var e1 := DigitRunEnd(s, i);
    if e1 < |s| && s[e1] == '.' then
      var e2 := DigitRunEnd(s, e1 + 1);
      if e1 == i && e2 == e1 + 1 then None
      else
        var x := ScanExponent(s, e2);
        Some((x.0, Scaled(MantissaValue(s[i..e1], s[e1 + 1..e2]), x.1)))
    else if e1 == i then None
    else
      var x := ScanExponent(s, e1);
      Some((x.0, Scaled(MantissaValue(s[i..e1], ""), x.1)))
  }

  /** `m × 10^e`. */
  function Scaled(m: real, e: int): (r: real)
    ensures e == 0 ==> r == m
  {
    if e == 0 then m else m * Pow10Real(e)
  }

  /** Sign at the head of `s`: whether it is negative and where the
      unsigned part starts. */
  function SignPrefix(s: string): (r: (bool, nat))
    ensures r.1 <= |s| && r.1 <= 1
  {
    if |s| > 0 && s[0] == '-' then (true, 1)
    else if |s| > 0 && s[0] == '+' then (false, 1)
    else (false, 0)
  }

  /** The global `parseFloat`: leading whitespace skipped, then the longest
      prefix that is a signed decimal literal or `Infinity`. */
  function ParseFloat(s: string): (r: JsNum)
    ensures r.NaN? <==>
      var t := TrimStart(s);
      var sp := SignPrefix(t);
      !OccursAt(t, "Infinity", sp.1) && ScanUnsignedDecimal(t, sp.1).None?
  {
    var t := TrimStart(s);
    var sp := SignPrefix(t);
    if OccursAt(t, "Infinity", sp.1) then Infinite(!sp.0)
    else match ScanUnsignedDecimal(t, sp.1)
      case None => NaN
      case Some(p) => ToDouble(if sp.0 then -p.1 else p.1)
  }

  /** Text whose first character is not a blank, a sign or the `I` of
      `Infinity` goes straight to the decimal scanner. */
  lemma ParseFloatPlain(s: string)
    requires |s| > 0 && !IsSpace(s[0]) && s[0] != '-' && s[0] != '+' && s[0] != 'I'
    ensures ParseFloat(s) == match ScanUnsignedDecimal(s, 0)
      case None => NaN
      case Some(p) => ToDouble(p.1)
  {
    assert TrimStart(s) == s;
    assert SignPrefix(s) == (false, 0);
    assert !OccursAt(s, "Infinity", 0) by { assert s[0] != 'I'; }
  }

  // ------------------------------------------------------------ Number()

  function HexDigitValue(c: char): Option<nat> {
    if '0' <= c <= '9' then Some(c as int - '0' as int)
    else if 'a' <= c <= 'f' then Some(c as int - 'a' as int + 10)
    else if 'A' <= c <= 'F' then Some(c as int - 'A' as int + 10)
    else None
  }

  /** The value of a digit string in `base` (2, 8 or 16), or None when a
      character is not a digit of that base. */
  function RadixValue(s: string, base: nat): Option<nat>
    requires base >= 2
  {
    if |s| == 0 then Some(0)
    else
      match (RadixValue(s[..|s| - 1], base), HexDigitValue(s[|s| - 1]))
      case (Some(v), Some(d)) => if d < base then Some(v * base + d) else None
      case _ => None
  }

  function RadixOf(c: char): nat {
    if c == 'x' || c == 'X' then 16
    else if c == 'o' || c == 'O' then 8
    else if c == 'b' || c == 'B' then 2
    else 0
  }

  /** `Number(s)` for a string: surrounding whitespace ignored, the empty
      string is 0, and otherwise the whole text must be a signed decimal
      literal, `Infinity`, or an unsigned `0x`/`0o`/`0b` literal. */
  function StringToNumber(s: string): (r: JsNum)
    ensures |Trim(s)| == 0 ==> r == Finite(0.0)
  {
    var t := Trim(s);
    if |t| == 0 then Finite(0.0)
    else if |t| >= 2 && t[0] == '0' && RadixOf(t[1]) != 0 then
      if |t| == 2 then NaN
      else
        match RadixValue(t[2..], RadixOf(t[1]))
        case None => NaN
        case Some(v) => ToDouble(v as real)
    else
      var sp := SignPrefix(t);
      if t[sp.1..] == "Infinity" then Infinite(!sp.0)
      else match ScanUnsignedDecimal(t, sp.1)
        case Some(p) =>
          if p.0 == |t| then ToDouble(if sp.0 then -p.1 else p.1) else NaN
        case None => NaN
  }
}

=== FILE: json.dfy ===
/** Already-parsed JSON values, and the three JavaScript operations the
    structured-data probe applies to them: property lookup, truthiness and
    `String(...)`.  A number carries the text `String(n)` gives it. */
module Json {
  import opened Wrappers
  import opened Text

  datatype Json =
    | JNull
    | JBool(b: bool)
    | JNumber(text: string)
    | JString(s: string)
    | JArray(elems: seq<Json>)
    | JObject(members: seq<(string, Json)>)

  /** The value bound to `key` in a member list; a key bound twice keeps
      its last value, as `JSON.parse` does. */
  function LastBinding(members: seq<(string, Json)>, key: string): (r: Option<Json>)
    ensures r.Some? <==> exists i :: 0 <= i < |members| && members[i].0 == key
    ensures r.Some? ==> r.value in (set i | 0 <= i < |members| :: members[i].1)
  {
    if |members| == 0 then None
    else if members[|members| - 1].0 == key then Some(members[|members| - 1].1)
    else LastBinding(members[..|members| - 1], key)
  }

  /** `v[key]`: None stands for `undefined`.  Only objects have the
      properties read here. */
  function Get(v: Json, key: string): Option<Json> {
    match v
    case JObject(m) => LastBinding(m, key)
    case _ => None
  }

  /** `x != null` for a looked-up property (neither undefined nor null). */
  predicate Present(o: Option<Json>) {
    o.Some? && o.value != JNull
  }

  predicate Truthy(v: Json) {
    match v
    case JNull => false
    case JBool(b) => b
    case JNumber(t) => t != "0"
    case JString(s) => |s| > 0
    case JArray(_) => true
    case JObject(_) => true
  }

  predicate TruthyOpt(o: Option<Json>) {
    o.Some? && Truthy(o.value)
  }

  /** `String(v)`; arrays join their elements with commas, writing null
      elements as empty text. */
  function ToStr(v: Json): string
    decreases v, 1
  {
    match v
    case JNull => "null"
    case JBool(b) => if b then "true" else "false"
    case JNumber(t) => t
    case JString(s) => s
    case JArray(es) => ElemsToStr(v, es)
    case JObject(_) => "[object Object]"
  }

  function ElemsToStr(parent: Json, es: seq<Json>): string
    requires forall i :: 0 <= i < |es| ==> es[i] < parent
    decreases parent, 0, |es|
  {
    if |es| == 0 then ""
    else
      var head := if es[0] == JNull then "" else ToStr(es[0]);
      if |es| == 1 then head else head + "," + ElemsToStr(parent, es[1..])
  }
}

=== FILE: ldprice.dfy ===
/** The structured-data price probe `jsonLdPrice` (content.js:86-153): a
    walk over already-parsed `application/ld+json` blocks, their `@graph`
    containers and their offers, returning the first acceptable price. */
module LdPrice {
  import opened Wrappers
  import opened Text
  import opened JsNumber
  import opened PriceText
  import opened Json

  /** True iff the normaliser finds a number in `p`. */
  predicate HasNumeric(p: string) {
    NormalizePriceText(p).numeric.Some?
  }

  /** What an offer or product yields: one price, or a low/high pair; the
      currency is the rendered `priceCurrency` when one is truthy. */
  datatype LdPick =
    | SinglePick(currency: Option<string>, text: string)
    | RangePick(currency: Option<string>, lo: string, hi: string)

  /** The only picks the probe accepts: a single price the normaliser reads
      a number from, or a pair whose both ends `Number(...)` accepts. */
  predicate ValidPick(p: LdPick) {
    match p
    case SinglePick(_, t) => HasNumeric(t)
    case RangePick(_, lo, hi) => !StringToNumber(lo).IsNaN() && !StringToNumber(hi).IsNaN()
  }

  function WithCurrency(currency: Option<string>, t: string): string {
    match currency
    case Some(c) => c + " " + t
    case None => t
  }

  function RenderPick(p: LdPick): string {
    match p
    case SinglePick(c, t) => WithCurrency(c, t)
    case RangePick(c, lo, hi) => WithCurrency(c, lo + " - " + hi)
  }

  /** `offer.priceCurrency || obj.priceCurrency || ''`, rendered; None for
      the empty default. */
  function Currency(offer: Json, owner: Json): Option<string> {
    var own := Get(offer, "priceCurrency");
    var inherited := Get(owner, "priceCurrency");
    if TruthyOpt(own) then Some(ToStr(own.value))
    else if TruthyOpt(inherited) then Some(ToStr(inherited.value))
    else None
  }

  /** `offer.priceSpecification?.price`. */
  function SpecPrice(offer: Json): Option<Json> {
    match Get(offer, "priceSpecification")
    case Some(ps) => Get(ps, "price")
    case None => None
  }

  /** A value that is present and in which the normaliser finds a number. */
  predicate NumericValue(v: Option<Json>) {
    Present(v) && HasNumeric(ToStr(v.value))
  }

  /** A `lowPrice`/`highPrice` pair, both present and both numbers. */
  predicate NumericPair(lo: Option<Json>, hi: Option<Json>) {
    Present(lo) && Present(hi)
    && !StringToNumber(ToStr(lo.value)).IsNaN()
    && !StringToNumber(ToStr(hi.value)).IsNaN()
  }

  /** One offer (content.js:114-140): `price`, then
      `priceSpecification.price`, then a `lowPrice`/`highPrice` pair. */
  function OfferPick(offer: Json, owner: Json): (r: Option<LdPick>)
    ensures r.Some? ==> ValidPick(r.value) && r.value.currency == Currency(offer, owner)
    ensures NumericValue(Get(offer, "price")) ==>
      r == Some(SinglePick(Currency(offer, owner), ToStr(Get(offer, "price").value)))
    ensures !NumericValue(Get(offer, "price")) && NumericValue(SpecPrice(offer)) ==>
      r == Some(SinglePick(Currency(offer, owner), ToStr(SpecPrice(offer).value)))
    ensures (!NumericValue(Get(offer, "price")) && !NumericValue(SpecPrice(offer))
             && NumericPair(Get(offer, "lowPrice"), Get(offer, "highPrice"))) ==>
      r == Some(RangePick(Currency(offer, owner),
                          ToStr(Get(offer, "lowPrice").value), ToStr(Get(offer, "highPrice").value)))
    ensures r.None? <==>
      !NumericValue(Get(offer, "price")) && !NumericValue(SpecPrice(offer))
      && !NumericPair(Get(offer, "lowPrice"), Get(offer, "highPrice"))
  {
    var cur := Currency(offer, owner);
    var price := Get(offer, "price");
    var spec := SpecPrice(offer);
    var lo := Get(offer, "lowPrice");
    var hi := Get(offer, "highPrice");
    if NumericValue(price) then Some(SinglePick(cur, ToStr(price.value)))
    else if NumericValue(spec) then Some(SinglePick(cur, ToStr(spec.value)))
    else if NumericPair(lo, hi) then Some(RangePick(cur, ToStr(lo.value), ToStr(hi.value)))
    else None
  }

  /** The product's own `price`, tried after all its offers, without a
      currency (content.js:144-148). */
  function DirectPick(owner: Json): (r: Option<LdPick>)
    ensures r.Some? ==> ValidPick(r.value) && r.value.currency == None
    ensures r.Some? <==> NumericValue(Get(owner, "price"))
    ensures r.Some? ==> r.value == SinglePick(None, ToStr(Get(owner, "price").value))
  {
    var price := Get(owner, "price");
    if NumericValue(price) then Some(SinglePick(None, ToStr(price.value)))
    else None
  }

  /** `Array.isArray(offers) ? offers : (offers ? [offers] : [])`. */
  function OffersOf(owner: Json): seq<Json> {
    match Get(owner, "offers")
    case Some(JArray(es)) => es
    case Some(o) => if Truthy(o) then [o] else []
    case None => []
  }

  /** `Array.isArray(node['@graph']) ? node['@graph'] : [node]`. */
  function GraphOrSelf(node: Json): seq<Json> {
    match Get(node, "@graph")
    case Some(JArray(g)) => g
    case _ => [node]
  }

  /** `Array.isArray(data) ? data : [data]`. */
  function TopNodes(data: Json): seq<Json> {
    match data
    case JArray(es) => es
    case _ => [data]
  }

  // ------------------------------------------------ the nested loops

  function OffersPick(offers: seq<Json>, owner: Json): (r: Option<LdPick>)
    ensures r.Some? ==> ValidPick(r.value)
  {
    if |offers| == 0 then None
    else if !Truthy(offers[0]) then OffersPick(offers[1..], owner)
    else match OfferPick(offers[0], owner)
      case Some(p) => Some(p)
      case None => OffersPick(offers[1..], owner)
  }

  function OwnerPick(owner: Json): (r: Option<LdPick>)
    ensures r.Some? ==> ValidPick(r.value)
  {
    if !Truthy(owner) then None
    else match OffersPick(OffersOf(owner), owner)
      case Some(p) => Some(p)
      case None => DirectPick(owner)
  }

  function OwnersPick(owners: seq<Json>): (r: Option<LdPick>)
    ensures r.Some? ==> ValidPick(r.value)
  {
    if |owners| == 0 then None
    else match OwnerPick(owners[0])
      case Some(p) => Some(p)
      case None => OwnersPick(owners[1..])
  }

  function NodesPick(nodes: seq<Json>): (r: Option<LdPick>)
    ensures r.Some? ==> ValidPick(r.value)
  {
    if |nodes| == 0 then None
    else if !Truthy(nodes[0]) then NodesPick(nodes[1..])
    else match OwnersPick(GraphOrSelf(nodes[0]))
      case Some(p) => Some(p)
      case None => NodesPick(nodes[1..])
  }

  /** The walk over script blocks; None stands for a block that was empty
      or that `JSON.parse` rejected, both of which are skipped. */
  function ScriptsPick(scripts: seq<Option<Json>>): (r: Option<LdPick>)
    ensures r.Some? ==> ValidPick(r.value)
  {
    if |scripts| == 0 then None
    else match scripts[0]
      case None => ScriptsPick(scripts[1..])
      case Some(data) =>
        match NodesPick(TopNodes(data))
        case Some(p) => Some(p)
        case None => ScriptsPick(scripts[1..])
  }

  // ----------------------------------- the same walk, flattened

  /** A place in the data where the probe looks for a price. */
  datatype Site = OfferSite(offer: Json, owner: Json) | DirectSite(owner: Json)

  function SitePick(site: Site): Option<LdPick> {
    match site
    case OfferSite(o, w) => OfferPick(o, w)
    case DirectSite(w) => DirectPick(w)
  }

  /** The first site that yields a pick. */
  function FirstPick(sites: seq<Site>): Option<LdPick> {
    if |sites| == 0 then None
    else match SitePick(sites[0])
      case Some(p) => Some(p)
      case None => FirstPick(sites[1..])
  }

  function OfferSites(offers: seq<Json>, owner: Json): seq<Site> {
    if |offers| == 0 then []
    else (if Truthy(offers[0]) then [OfferSite(offers[0], owner)] else []) + OfferSites(offers[1..], owner)
  }

  function OwnerSites(owner: Json): seq<Site> {
    if Truthy(owner) then OfferSites(OffersOf(owner), owner) + [DirectSite(owner)] else []
  }

  function OwnersSites(owners: seq<Json>): seq<Site> {
    if |owners| == 0 then [] else OwnerSites(owners[0]) + OwnersSites(owners[1..])
  }

  function NodesSites(nodes: seq<Json>): seq<Site> {
    if |nodes| == 0 then []
    else (if Truthy(nodes[0]) then OwnersSites(GraphOrSelf(nodes[0])) else []) + NodesSites(nodes[1..])
  }

  /** Every site of every parsed block, in document order. */
  function Sites(scripts: seq<Option<Json>>): seq<Site> {
    if |scripts| == 0 then []
    else (match scripts[0] case None => [] case Some(d) => NodesSites(TopNodes(d))) + Sites(scripts[1..])
  }

  lemma {:induction false} FirstPickAppend(a: seq<Site>, b: seq<Site>)
    ensures FirstPick(a + b) == (if FirstPick(a).Some? then FirstPick(a) else FirstPick(b))
    decreases |a|
  {
    if |a| > 0 {
      assert (a + b)[0] == a[0];
      assert (a + b)[1..] == a[1..] + b;
      FirstPickAppend(a[1..], b);
    } else {
      assert a + b == b;
    }
  }

  lemma {:induction false} OffersPickIsFirstSite(offers: seq<Json>, owner: Json)
    ensures OffersPick(offers, owner) == FirstPick(OfferSites(offers, owner))
    decreases |offers|
  {
    if |offers| > 0 {
      var head := if Truthy(offers[0]) then [OfferSite(offers[0], owner)] else [];
      FirstPickAppend(head, OfferSites(offers[1..], owner));
      OffersPickIsFirstSite(offers[1..], owner);
    }
  }

  lemma OwnerPickIsFirstSite(owner: Json)
    ensures OwnerPick(owner) == FirstPick(OwnerSites(owner))
  {
    if Truthy(owner) {
      OffersPickIsFirstSite(OffersOf(owner), owner);
      FirstPickAppend(OfferSites(OffersOf(owner), owner), [DirectSite(owner)]);
    }
  }

  lemma {:induction false} OwnersPickIsFirstSite(owners: seq<Json>)
    ensures OwnersPick(owners) == FirstPick(OwnersSites(owners))
    decreases |owners|
  {
    if |owners| > 0 {
      OwnerPickIsFirstSite(owners[0]);
      FirstPickAppend(OwnerSites(owners[0]), OwnersSites(owners[1..]));
      OwnersPickIsFirstSite(owners[1..]);
    }
  }

  lemma {:induction false} NodesPickIsFirstSite(nodes: seq<Json>)
    ensures NodesPick(nodes) == FirstPick(NodesSites(nodes))
    decreases |nodes|
  {
    if |nodes| > 0 {
      var head := if Truthy(nodes[0]) then OwnersSites(GraphOrSelf(nodes[0])) else [];
      if Truthy(nodes[0]) {
        OwnersPickIsFirstSite(GraphOrSelf(nodes[0]));
      }
      FirstPickAppend(head, NodesSites(nodes[1..]));
      NodesPickIsFirstSite(nodes[1..]);
    }
  }

  /** The nested loops with early returns pick exactly what the first
      productive site of the flattened walk picks. */
  lemma {:induction false} ScriptsPickIsFirstSite(scripts: seq<Option<Json>>)
    ensures ScriptsPick(scripts) == FirstPick(Sites(scripts))
    decreases |scripts|
  {
    if |scripts| > 0 {
      var head := match scripts[0] case None => [] case Some(d) => NodesSites(TopNodes(d));
      if scripts[0].Some? {
        NodesPickIsFirstSite(TopNodes(scripts[0].value));
      }
      FirstPickAppend(head, Sites(scripts[1..]));
      ScriptsPickIsFirstSite(scripts[1..]);
    }
  }

  /** The normaliser finds no number in the empty text. */
  lemma NumericNonEmpty(t: string)
    requires HasNumeric(t)
    ensures t != ""
  {
    if t == "" {
      NormalizeEmpty();
    }
  }

  /** A rendered valid pick is never empty. */
  lemma RenderedPickNonEmpty(p: LdPick)
    requires ValidPick(p)
    ensures RenderPick(p) != ""
  {
    match p
    case SinglePick(c, t) =>
      NumericNonEmpty(t);
      CurrencyKeeps(c, t);
    case RangePick(c, lo, hi) =>
      CurrencyKeeps(c, lo + " - " + hi);
  }

  /** The currency only adds to the text. */
  lemma CurrencyKeeps(c: Option<string>, t: string)
    ensures |WithCurrency(c, t)| >= |t|
  {
  }

  /** `jsonLdPrice` (content.js:86-153): the rendering of the first pick
      of the flattened walk, or '' when no site yields one. */
  function JsonLdPrice(scripts: seq<Option<Json>>): (r: string)
    ensures r == "" <==> FirstPick(Sites(scripts)).None?
    ensures r != "" ==> FirstPick(Sites(scripts)).Some? && ValidPick(FirstPick(Sites(scripts)).value)
    ensures r != "" ==> r == RenderPick(FirstPick(Sites(scripts)).value)
  {
    ScriptsPickIsFirstSite(scripts);
    match ScriptsPick(scripts)
    case Some(p) => RenderedPickNonEmpty(p); RenderPick(p)
    case None => ""
  }
}

=== FILE: lists.dfy ===
/** `Array.prototype.filter` and the facts about it the popup's list logic
    relies on: it keeps exactly the elements that pass, in their order. */
module Lists {

  function Filter<T>(xs: seq<T>, p: T -> bool): (r: seq<T>)
    ensures |r| <= |xs|
    ensures forall i :: 0 <= i < |r| ==> p(r[i])
  {
    if |xs| == 0 then []
    else (if p(xs[0]) then [xs[0]] else []) + Filter(xs[1..], p)
  }

  /** An element is kept iff it is in the input and passes. */
  lemma {:induction false} FilterMembers<T>(xs: seq<T>, p: T -> bool)
    ensures forall x :: x in Filter(xs, p) <==> x in xs && p(x)
  {
    if |xs| > 0 {
      FilterMembers(xs[1..], p);
      assert xs == [xs[0]] + xs[1..];
    }
  }

  /** Filtering a concatenation filters each part and keeps them in order:
      the result is an order-preserving subsequence of the input. */
  lemma {:induction false} FilterAppend<T>(a: seq<T>, b: seq<T>, p: T -> bool)
    ensures Filter(a + b, p) == Filter(a, p) + Filter(b, p)
    decreases |a|
  {
    if |a| == 0 {
      assert a + b == b;
    } else {
      assert (a + b)[0] == a[0] && (a + b)[1..] == a[1..] + b;
      FilterAppend(a[1..], b, p);
      var h: seq<T> := if p(a[0]) then [a[0]] else [];
      assert h + (Filter(a[1..], p) + Filter(b, p)) == (h + Filter(a[1..], p)) + Filter(b, p);
    }
  }

  /** When everything passes, nothing is dropped. */
  lemma {:induction false} FilterAll<T>(xs: seq<T>, p: T -> bool)
    requires forall i :: 0 <= i < |xs| ==> p(xs[i])
    ensures Filter(xs, p) == xs
  {
    if |xs| > 0 {
      FilterAll(xs[1..], p);
      assert xs == [xs[0]] + xs[1..];
    }
  }

  /** When nothing passes, everything is dropped. */
  lemma {:induction false} FilterNone<T>(xs: seq<T>, p: T -> bool)
    requires forall i :: 0 <= i < |xs| ==> !p(xs[i])
    ensures Filter(xs, p) == []
  {
    if |xs| > 0 {
      FilterNone(xs[1..], p);
    }
  }

  /** Predicates that agree on the elements filter alike. */
  lemma {:induction false} FilterSame<T>(xs: seq<T>, p: T -> bool, q: T -> bool)
    requires forall i :: 0 <= i < |xs| ==> p(xs[i]) == q(xs[i])
    ensures Filter(xs, p) == Filter(xs, q)
  {
    if |xs| > 0 {
      FilterSame(xs[1..], p, q);
    }
  }

  /** `xs.slice(0, n)`. */
  function Take<T>(xs: seq<T>, n: nat): (r: seq<T>)
    ensures |r| == if |xs| < n then |xs| else n
    ensures forall i :: 0 <= i < |r| ==> r[i] == xs[i]
  {
    if |xs| <= n then xs else xs[..n]
  }

  /** `new Set(xs).size`. */
  function DistinctCount<T(==)>(xs: seq<T>): (r: nat)
    ensures r <= |xs|
  {
    SetSizeAtMostLength(xs);
    |set x | x in xs|
  }

  lemma {:induction false} SetSizeAtMostLength<T>(xs: seq<T>)
    ensures |set x | x in xs| <= |xs|
  {
    if |xs| > 0 {
      SetSizeAtMostLength(xs[1..]);
      assert (set x | x in xs) == {xs[0]} + (set x | x in xs[1..]);
    }
  }

  /** A subset is no larger than its superset. */
  lemma SubsetSize<T>(a: set<T>, b: set<T>)
    requires a <= b
    ensures |a| <= |b|
  {
    assert b == (b - a) + a;
  }
}

=== FILE: listview.dfy ===
/** The saved-list view of the popup: the stored list preferences merged
    over their defaults (popup.js:325-342, 665-669), the filters
    (popup.js:344-370), the sort orders with their placement of
    unparseable values (popup.js:372-411) and the two top picks
    (popup.js:413-422). */
module ListView {
  import opened Wrappers
  import opened Text
  import opened JsNumber
  import opened Lists
  import opened StableSort
  import opened TextParsers
  import opened SavedList

  // ----------------------------------------------------------------- prefs

  /** The list preferences. The three thresholds are the trimmed texts of
      their input boxes, `""` when empty. */
  datatype Prefs = Prefs(
    sort: string,
    compact: bool,
    minRating: string,
    maxReviews: string,
    minOpp: string,
    hideNoPrice: bool,
    hideRange: bool)

  const DefaultPrefs := Prefs("savedAt_desc", false, "", "", "", false, false)

  /** An object holding some of the preference fields: the stored
      `listPrefs`, or the change one control makes. */
  datatype PrefsPatch = PrefsPatch(
    sort: Option<string>,
    compact: Option<bool>,
    minRating: Option<string>,
    maxReviews: Option<string>,
    minOpp: Option<string>,
    hideNoPrice: Option<bool>,
    hideRange: Option<bool>)

  const EmptyPatch := PrefsPatch(None, None, None, None, None, None, None)

  /** `{ ...p, ...patch }`: every field the patch holds wins. */
  function Merge(p: Prefs, patch: PrefsPatch): (r: Prefs)
    ensures patch.sort.Some? ==> r.sort == patch.sort.value
    ensures patch.sort.None? ==> r.sort == p.sort
    ensures patch.compact.Some? ==> r.compact == patch.compact.value
    ensures patch.compact.None? ==> r.compact == p.compact
    ensures patch.minRating.Some? ==> r.minRating == patch.minRating.value
    ensures patch.minRating.None? ==> r.minRating == p.minRating
    ensures patch.maxReviews.Some? ==> r.maxReviews == patch.maxReviews.value
    ensures patch.maxReviews.None? ==> r.maxReviews == p.maxReviews
    ensures patch.minOpp.Some? ==> r.minOpp == patch.minOpp.value
    ensures patch.minOpp.None? ==> r.minOpp == p.minOpp
    ensures patch.hideNoPrice.Some? ==> r.hideNoPrice == patch.hideNoPrice.value
    ensures patch.hideNoPrice.None? ==> r.hideNoPrice == p.hideNoPrice
    ensures patch.hideRange.Some? ==> r.hideRange == patch.hideRange.value
    ensures patch.hideRange.None? ==> r.hideRange == p.hideRange
  {
    Prefs(
      patch.sort.GetOr(p.sort),
      patch.compact.GetOr(p.compact),
      patch.minRating.GetOr(p.minRating),
      patch.maxReviews.GetOr(p.maxReviews),
      patch.minOpp.GetOr(p.minOpp),
      patch.hideNoPrice.GetOr(p.hideNoPrice),
      patch.hideRange.GetOr(p.hideRange))
  }

  /** All fields of `p`, as `savePrefs` stores them. */
  function ToPatch(p: Prefs): PrefsPatch {
    PrefsPatch(Some(p.sort), Some(p.compact), Some(p.minRating), Some(p.maxReviews),
               Some(p.minOpp), Some(p.hideNoPrice), Some(p.hideRange))
  }

  /** `loadPrefs`: the stored object (missing when never saved) over the
      defaults. */
  function LoadPrefs(stored: Option<PrefsPatch>): (r: Prefs)
    ensures stored.None? ==> r == DefaultPrefs
  {
    Merge(DefaultPrefs, stored.GetOr(EmptyPatch))
  }

  /** The control handler: reload, apply the change, store the result. */
  function UpdatePrefs(stored: Option<PrefsPatch>, patch: PrefsPatch): (r: PrefsPatch) {
    ToPatch(Merge(LoadPrefs(stored), patch))
  }

  /** An empty object changes nothing. */
  lemma MergeEmpty(p: Prefs)
    ensures Merge(p, EmptyPatch) == p
  {
  }

  /** Applying the same change twice is applying it once. */
  lemma MergeIdempotent(p: Prefs, patch: PrefsPatch)
    ensures Merge(Merge(p, patch), patch) == Merge(p, patch)
  {
  }

  /** Stored preferences read back as they were written. */
  lemma SaveLoadRoundTrip(p: Prefs)
    ensures LoadPrefs(Some(ToPatch(p))) == p
  {
  }

  /** After a control change, the preferences in force are the previous
      ones with exactly the changed fields replaced. */
  lemma UpdateThenLoad(stored: Option<PrefsPatch>, patch: PrefsPatch)
    ensures LoadPrefs(Some(UpdatePrefs(stored, patch))) == Merge(LoadPrefs(stored), patch)
  {
    SaveLoadRoundTrip(Merge(LoadPrefs(stored), patch));
  }

  // --------------------------------------------------------------- filters

  /** A threshold box: `""` is off; otherwise `Number(text)`, and a text
      that is not a number turns the filter off too. */
  function Threshold(text: string): (r: Option<JsNum>)
    ensures text == "" ==> r.None?
    ensures r.Some? ==> !r.value.NaN?
  {
    if text == "" then None
    else
      var n := StringToNumber(text);
      if n.NaN? then None else Some(n)
  }

  /** No price: the text is empty or mentions "price not found" in any
      letter case. */
  predicate NoPrice(it: SavedItem) {
    it.price == "" || Contains(Lower(it.price), "price not found")
  }

  /** The opportunity score as a number, NaN when it is not one. */
  function OppNum(it: SavedItem): JsNum {
    match it.opportunityScore
    case None => NaN
    case Some(v) => Finite(v as real)
  }

  /** A parsed count as a number, NaN when nothing was parsed. */
  function CountNum(n: Option<nat>): JsNum {
    match n
    case None => NaN
    case Some(v) => Finite(v as real)
  }

  /** Between numbers, "not below" is "at least". */
  lemma NotLessIsLe(a: JsNum, b: JsNum)
    requires !a.NaN? && !b.NaN?
    ensures !Less(a, b) <==> NumLe(b, a)
  {
  }

  /** The filter callback, one early `return false` per test. */
  predicate Keep(prefs: Prefs, it: SavedItem) {
    var minR := Threshold(prefs.minRating);
    var maxRev := Threshold(prefs.maxReviews);
    var minOpp := Threshold(prefs.minOpp);
    var r := ParseRating(it.rating);
    var rev := CountNum(ParseReviewCount(it.reviewCountText));
    var opp := OppNum(it);
    if prefs.hideNoPrice && NoPrice(it) then false
    else if prefs.hideRange && it.priceIsRange then false
    else if minR.Some? && (r.NaN? || Less(r, minR.value)) then false
    else if maxRev.Some? && (rev.NaN? || Less(maxRev.value, rev)) then false
    else if minOpp.Some? && (opp.NaN? || Less(opp, minOpp.value)) then false
    else true
  }

  /** What an item must satisfy to stay in the list, one clause per
      control: each active threshold needs a parsed value on its right
      side, and a threshold that is off or not a number asks nothing. */
  predicate Meets(prefs: Prefs, it: SavedItem) {
    && (prefs.hideNoPrice ==> it.price != "" && !Contains(Lower(it.price), "price not found"))
    && (prefs.hideRange ==> !it.priceIsRange)
    && (Threshold(prefs.minRating).Some? ==>
          NumLe(Threshold(prefs.minRating).value, ParseRating(it.rating)))
    && (Threshold(prefs.maxReviews).Some? ==>
          ParseReviewCount(it.reviewCountText).Some?
          && NumLe(Finite(ParseReviewCount(it.reviewCountText).value as real), Threshold(prefs.maxReviews).value))
    && (Threshold(prefs.minOpp).Some? ==>
          it.opportunityScore.Some?
          && NumLe(Threshold(prefs.minOpp).value, Finite(it.opportunityScore.value as real)))
  }

  lemma KeepIffMeets(prefs: Prefs, it: SavedItem)
    ensures Keep(prefs, it) <==> Meets(prefs, it)
  {
    var r := ParseRating(it.rating);
    var rev := CountNum(ParseReviewCount(it.reviewCountText));
    var opp := OppNum(it);
    if Threshold(prefs.minRating).Some? && !r.NaN? {
      NotLessIsLe(r, Threshold(prefs.minRating).value);
    }
    if Threshold(prefs.maxReviews).Some? && !rev.NaN? {
      NotLessIsLe(Threshold(prefs.maxReviews).value, rev);
    }
    if Threshold(prefs.minOpp).Some? && !opp.NaN? {
      NotLessIsLe(opp, Threshold(prefs.minOpp).value);
    }
  }

  /** `applyFilters`. */
  function ApplyFilters(items: seq<SavedItem>, prefs: Prefs): (r: seq<SavedItem>)
    ensures |r| <= |items|
    ensures forall i :: 0 <= i < |r| ==> Meets(prefs, r[i])
  {
    var r := Filter(items, it => Keep(prefs, it));
    forall i | 0 <= i < |r| ensures Meets(prefs, r[i]) {
      KeepIffMeets(prefs, r[i]);
    }
    r
  }

  /** An item stays exactly when it meets every active control. */
  lemma FilterKeepsExactly(items: seq<SavedItem>, prefs: Prefs, it: SavedItem)
    ensures it in ApplyFilters(items, prefs) <==> it in items && Meets(prefs, it)
  {
    FilterMembers(items, it => Keep(prefs, it));
    KeepIffMeets(prefs, it);
  }

  /** Filtering keeps input order: the filtered list of a concatenation is
      the filtered parts, in order. */
  lemma FilterKeepsOrder(a: seq<SavedItem>, b: seq<SavedItem>, prefs: Prefs)
    ensures ApplyFilters(a + b, prefs) == ApplyFilters(a, prefs) + ApplyFilters(b, prefs)
  {
    FilterAppend(a, b, it => Keep(prefs, it));
  }

  /** With the default preferences nothing is hidden. */
  lemma DefaultsHideNothing(items: seq<SavedItem>)
    ensures ApplyFilters(items, DefaultPrefs) == items
  {
    FilterAll(items, it => Keep(DefaultPrefs, it));
  }

  /** A rating threshold drops an item whose rating text has no number
      ("No rating"). */
  lemma UnratedItemDropped(it: SavedItem, prefs: Prefs)
    requires !HasDigit(it.rating) && Threshold(prefs.minRating).Some?
    ensures !Keep(prefs, it)
  {
  }

  /** A threshold box whose text is not a number filters like an empty
      one (shown for the rating box; the other two are read alike). */
  lemma NonNumericThresholdIgnored(prefs: Prefs, it: SavedItem, t: string)
    requires StringToNumber(t).NaN?
    ensures Keep(prefs.(minRating := t), it) == Keep(prefs.(minRating := ""), it)
  {
    assert Threshold(t).None? && Threshold("").None?;
  }

  // ------------------------------------------------------------------ sort

  /** The seven sort choices; any other text sorts like `savedAt_desc`. */
  datatype Order =
    | SavedAtDesc | OpportunityDesc | BsrAsc | ReviewsAsc | RatingDesc | PriceAsc | PriceDesc

  /** The sort choices with a `case` of their own besides `savedAt_desc`. */
  const OwnCases: seq<string> :=
    ["opportunity_desc", "bsr_asc", "reviews_asc", "rating_desc", "price_asc", "price_desc"]

  /** The `switch` of `applySort`: unknown text takes the `default` branch. */
  function OrderOf(sortKey: string): (r: Order)
    ensures r == SavedAtDesc <==> sortKey !in OwnCases
  {
    if sortKey == "opportunity_desc" then OpportunityDesc
    else if sortKey == "bsr_asc" then BsrAsc
    else if sortKey == "reviews_asc" then ReviewsAsc
    else if sortKey == "rating_desc" then RatingDesc
    else if sortKey == "price_asc" then PriceAsc
    else if sortKey == "price_desc" then PriceDesc
    else SavedAtDesc
  }

  /** `a - b` on numbers. Rounding of a finite difference is not modelled;
      it keeps the sign, which is all a comparator result is read for. */
  function Sub(a: JsNum, b: JsNum): (r: JsNum)
    ensures r.NaN? <==> a.NaN? || b.NaN? || (a.Infinite? && b.Infinite? && a.positive == b.positive)
  {
    match (a, b)
    case (Finite(x), Finite(y)) => ToDouble(x - y)
    case (Finite(_), Infinite(q)) => Infinite(!q)
    case (Infinite(p), Finite(_)) => Infinite(p)
    case (Infinite(p), Infinite(q)) => if p == q then NaN else Infinite(p)
    case _ => NaN
  }

  /** How `sort` reads a comparator result: below zero puts the first
      argument first, above zero the second, zero and NaN keep them. */
  function Sign(c: JsNum): (r: int)
    ensures -1 <= r <= 1
  {
    match c
    case NaN => 0
    case Infinite(p) => if p then 1 else -1
    case Finite(x) => if x < 0.0 then -1 else if x > 0.0 then 1 else 0
  }

  /** `cmpNum(av, bv, 1)`: an unparseable value goes after a parseable
      one, two unparseable values tie. Every call site passes `dir = 1`. */
  function CmpNum(av: JsNum, bv: JsNum): JsNum {
    if av.NaN? && bv.NaN? then Finite(0.0)
    else if av.NaN? then Finite(1.0)
    else if bv.NaN? then Finite(-1.0)
    else Sub(av, bv)
  }

  /** `opportunityScore ?? -1`. */
  function OppOr(it: SavedItem): int {
    it.opportunityScore.GetOr(-1)
  }

  /** The comparator each sort choice passes to `sort`, as written. */
  function Comparator(o: Order, a: SavedItem, b: SavedItem): JsNum {
    match o
    case SavedAtDesc => Sub(Finite(b.savedAt as real), Finite(a.savedAt as real))
    case OpportunityDesc => Sub(Finite(OppOr(b) as real), Finite(OppOr(a) as real))
    case BsrAsc => CmpNum(CountNum(ParseBsr(a.bsr)), CountNum(ParseBsr(b.bsr)))
    case ReviewsAsc =>
      CmpNum(CountNum(ParseReviewCount(a.reviewCountText)), CountNum(ParseReviewCount(b.reviewCountText)))
    case RatingDesc => CmpNum(ParseRating(b.rating), ParseRating(a.rating))
    case PriceAsc => CmpNum(MoneyToNum(a.price), MoneyToNum(b.price))
    case PriceDesc => CmpNum(MoneyToNum(b.price), MoneyToNum(a.price))
  }

  /** Ascending numeric key: -Infinity, the finite values, +Infinity, and
      NaN last. */
  function AscKey(v: JsNum): SortKey {
    match v
    case Infinite(p) => if p then SortKey(1, 0.0) else SortKey(-1, 0.0)
    case Finite(x) => SortKey(0, x)
    case NaN => SortKey(2, 0.0)
  }

  /** Descending numeric key: NaN first, then +Infinity, the finite values
      from the largest down, and -Infinity. */
  function DescKey(v: JsNum): SortKey {
    match v
    case NaN => SortKey(0, 0.0)
    case Infinite(p) => if p then SortKey(1, 0.0) else SortKey(3, 0.0)
    case Finite(x) => SortKey(2, -x)
  }

  /** The number each sort choice orders by. */
  function Reading(o: Order, it: SavedItem): JsNum {
    match o
    case SavedAtDesc => Finite(it.savedAt as real)
    case OpportunityDesc => Finite(OppOr(it) as real)
    case BsrAsc => CountNum(ParseBsr(it.bsr))
    case ReviewsAsc => CountNum(ParseReviewCount(it.reviewCountText))
    case RatingDesc => ParseRating(it.rating)
    case PriceAsc | PriceDesc => MoneyToNum(it.price)
  }

  predicate Ascending(o: Order) {
    o == BsrAsc || o == ReviewsAsc || o == PriceAsc
  }

  function OrderKey(o: Order, it: SavedItem): SortKey {
    if Ascending(o) then AscKey(Reading(o, it)) else DescKey(Reading(o, it))
  }

  /** -1, 0 or 1 as `a` is below, level with or above `b`. */
  function KeyCompare(a: SortKey, b: SortKey): (r: int)
    ensures r == 0 <==> a == b
    ensures r < 0 <==> KeyLe(a, b) && a != b
  {
    if a == b then 0 else if KeyLe(a, b) then -1 else 1
  }

  /** The comparator as written orders every pair exactly as the key does,
      including the infinities and NaN, so `sort` with it is the stable
      sort by the key. */
  lemma ComparatorMatchesKey(o: Order, a: SavedItem, b: SavedItem)
    ensures Sign(Comparator(o, a, b)) == KeyCompare(OrderKey(o, a), OrderKey(o, b))
  {
    match o
    case SavedAtDesc =>
      SubSign(Finite(b.savedAt as real), Finite(a.savedAt as real));
    case OpportunityDesc =>
      SubSign(Finite(OppOr(b) as real), Finite(OppOr(a) as real));
    case BsrAsc =>
      CmpNumAsc(CountNum(ParseBsr(a.bsr)), CountNum(ParseBsr(b.bsr)));
    case ReviewsAsc =>
      CmpNumAsc(CountNum(ParseReviewCount(a.reviewCountText)), CountNum(ParseReviewCount(b.reviewCountText)));
    case RatingDesc =>
      CmpNumDesc(ParseRating(a.rating), ParseRating(b.rating));
    case PriceAsc =>
      CmpNumAsc(MoneyToNum(a.price), MoneyToNum(b.price));
    case PriceDesc =>
      CmpNumDesc(MoneyToNum(a.price), MoneyToNum(b.price));
  }

  /** The sign of a difference of finite values is their order. */
  lemma SubSign(x: JsNum, y: JsNum)
    requires x.Finite? && y.Finite?
    ensures Sign(Sub(x, y)) == KeyCompare(DescKey(y), DescKey(x))
  {
  }

  lemma CmpNumAsc(a: JsNum, b: JsNum)
    ensures Sign(CmpNum(a, b)) == KeyCompare(AscKey(a), AscKey(b))
  {
  }

  /** Swapping the arguments turns `cmpNum` into a descending comparator
      that puts NaN first. */
  lemma CmpNumDesc(a: JsNum, b: JsNum)
    ensures Sign(CmpNum(b, a)) == KeyCompare(DescKey(a), DescKey(b))
  {
  }

  /** `applySort`: a sorted copy. */
  function ApplySort(items: seq<SavedItem>, sortKey: string): (r: seq<SavedItem>)
    ensures multiset(r) == multiset(items)
  {
    var o := OrderOf(sortKey);
    Sort(items, it => OrderKey(o, it))
  }

  /** The copy is ordered by the chosen key, and items the key ties keep
      their input order. */
  lemma SortOrdersStably(items: seq<SavedItem>, sortKey: string, k: SortKey)
    ensures SortedBy(ApplySort(items, sortKey), it => OrderKey(OrderOf(sortKey), it))
    ensures KeyClass(ApplySort(items, sortKey), it => OrderKey(OrderOf(sortKey), it), k)
         == KeyClass(items, it => OrderKey(OrderOf(sortKey), it), k)
  {
    var key := it => OrderKey(OrderOf(sortKey), it);
    SortSorted(items, key);
    SortStable(items, key, k);
  }

  /** Placement of unparseable values: after every parseable one under
      the ascending choices, before every parseable one under
      `rating_desc` and `price_desc`. */
  lemma UnparseablePlacement(items: seq<SavedItem>, sortKey: string, i: nat, j: nat)
    requires i < j < |ApplySort(items, sortKey)|
    ensures var o := OrderOf(sortKey);
            var r := ApplySort(items, sortKey);
            Ascending(o) && Reading(o, r[i]).NaN? ==> Reading(o, r[j]).NaN?
    ensures var o := OrderOf(sortKey);
            var r := ApplySort(items, sortKey);
            (o == RatingDesc || o == PriceDesc) && Reading(o, r[j]).NaN? ==> Reading(o, r[i]).NaN?
  {
    SortSorted(items, it => OrderKey(OrderOf(sortKey), it));
  }

  /** What the popup lists: the filtered items in the chosen order
      (popup.js:565-566), which are exactly the items that meet the
      controls, each as often as it was saved. */
  function ListView(saved: seq<SavedItem>, prefs: Prefs): (r: seq<SavedItem>) {
    ApplySort(ApplyFilters(saved, prefs), prefs.sort)
  }

  lemma ListViewContents(saved: seq<SavedItem>, prefs: Prefs)
    ensures forall it :: it in ListView(saved, prefs) <==> it in saved && Meets(prefs, it)
  {
    var f := ApplyFilters(saved, prefs);
    assert forall it :: it in ListView(saved, prefs) <==> it in f by {
      assert multiset(ListView(saved, prefs)) == multiset(f);
      forall it ensures it in ListView(saved, prefs) <==> it in f {
        assert it in ListView(saved, prefs) <==> it in multiset(ListView(saved, prefs));
        assert it in f <==> it in multiset(f);
      }
    }
    forall it ensures it in f <==> it in saved && Meets(prefs, it) {
      FilterKeepsExactly(saved, prefs, it);
    }
  }

  // ------------------------------------------------------------- top picks

  /** Demand rank: the best-seller rank, with no rank or a rank of 0
      counted as 999999999 (`parseBsr(bsr) || 999999999`). */
  function DemandRank(it: SavedItem): (r: nat)
    ensures r > 0
  {
    match ParseBsr(it.bsr)
    case None => 999999999
    case Some(n) => if n == 0 then 999999999 else n
  }

  function OppKey(it: SavedItem): SortKey {
    SortKey(0, -(OppOr(it) as real))
  }

  function DemandKey(it: SavedItem): SortKey {
    SortKey(0, DemandRank(it) as real)
  }

  /** `bestOpp` and `bestDemand`, or nothing when no item is listed. */
  function TopPicks(items: seq<SavedItem>): (r: Option<(SavedItem, SavedItem)>)
    ensures r.None? <==> |items| == 0
  {
    if |items| == 0 then None
    else Some((Sort(items, OppKey)[0], Sort(items, DemandKey)[0]))
  }

  /** The best-opportunity pick is the first item with the highest score
      (a missing score counting as -1); the best-demand pick is the first
      item with the lowest demand rank. */
  lemma TopPicksAreFirstBest(items: seq<SavedItem>) returns (mo: nat, md: nat)
    requires |items| > 0
    ensures mo < |items| && md < |items|
    ensures TopPicks(items) == Some((items[mo], items[md]))
    ensures forall j :: 0 <= j < |items| ==> OppOr(items[j]) <= OppOr(items[mo])
    ensures forall j :: 0 <= j < mo ==> OppOr(items[j]) < OppOr(items[mo])
    ensures forall j :: 0 <= j < |items| ==> DemandRank(items[md]) <= DemandRank(items[j])
    ensures forall j :: 0 <= j < md ==> DemandRank(items[md]) < DemandRank(items[j])
  {
    mo := SortHead(items, OppKey);
    md := SortHead(items, DemandKey);
  }

  /** The opportunity pick is the head of the `opportunity_desc` order. */
  lemma BestOppLeadsOpportunitySort(items: seq<SavedItem>)
    requires |items| > 0
    ensures TopPicks(items).value.0 == ApplySort(items, "opportunity_desc")[0]
  {
    SortSameOrder(items, it => OrderKey(OrderOf("opportunity_desc"), it), OppKey);
  }
}

=== FILE: parsers.dfy ===
/** The text-to-number helpers of the popup (popup.js:96-111). Each one
    reads the first match of a literal pattern; `parseFloat`/`parseInt` of
    the captured digits is the digits' exact value (rounded to a double
    only by overflow, see `JsNumber.ToDouble`). `NaN` results are `NaN`
    for the two float parsers and `None` for the two integer ones. */
module TextParsers {
  import opened Wrappers
  import opened Text
  import opened JsNumber

  predicate HasDigit(s: string) {
    exists i :: 0 <= i < |s| && IsDigit(s[i])
  }

  lemma RemoveCommaKeepsDigits(s: string)
    ensures HasDigit(RemoveChar(s, ',')) <==> HasDigit(s)
  {
    var r := RemoveChar(s, ',');
    RemoveCharKeeps(s, ',');
    if HasDigit(s) {
      var i :| 0 <= i < |s| && IsDigit(s[i]);
      assert s[i] in s;
      assert s[i] in r;
      var k :| 0 <= k < |r| && r[k] == s[i];
    }
    if HasDigit(r) {
      var i :| 0 <= i < |r| && IsDigit(r[i]);
      assert r[i] in r;
      var k :| 0 <= k < |s| && s[k] == r[i];
    }
  }

  /** `parseFloat` of the first `[0-9]+(\.[0-9]+)?` match, or NaN. */
  function FirstRunNumber(s: string): (r: JsNum)
    ensures r.NaN? <==> !HasDigit(s)
    ensures r.Finite? ==> r.v >= 0.0
    ensures r.Infinite? ==> r.positive
  {
    match FirstNumber(s)
    case None => NaN
    case Some(d) => ToDouble(DecimalValue(d))
  }

  /** `moneyToNum` (popup.js:96-99): thousands separators dropped first. */
  function MoneyToNum(s: string): (r: JsNum)
    ensures r.NaN? <==> !HasDigit(s)
    ensures r.Finite? ==> r.v >= 0.0
  {
    RemoveCommaKeepsDigits(s);
    FirstRunNumber(RemoveChar(s, ','))
  }

  /** `parseRating` (popup.js:104-107): the first number anywhere in the
      text, separators NOT dropped. */
  function ParseRating(t: string): (r: JsNum)
    ensures r.NaN? <==> !HasDigit(t)
    ensures r.Finite? ==> r.v >= 0.0
  {
    FirstRunNumber(t)
  }

  /** The value of the maximal digit run at the first digit at or after `i`. */
  function FirstIntegerFrom(s: string, i: nat): (r: Option<nat>)
    requires i <= |s|
    ensures r.None? <==> forall j :: i <= j < |s| ==> !IsDigit(s[j])
    decreases |s| - i
  {
    if i == |s| then None
    else if IsDigit(s[i]) then Some(DigitsValue(s[i..DigitRunEnd(s, i)]))
    else FirstIntegerFrom(s, i + 1)
  }

  /** `parseReviewCount` (popup.js:100-103): the first `[0-9]+` after
      dropping separators, so "1,234 ratings" reads 1234. */
  function ParseReviewCount(t: string): (r: Option<nat>)
    ensures r.None? <==> !HasDigit(t)
  {
    RemoveCommaKeepsDigits(t);
    FirstIntegerFrom(RemoveChar(t, ','), 0)
  }

  /** `#\s*([0-9]+)` at `i`: the captured value. */
  function BsrAt(s: string, i: nat): (r: Option<nat>)
    requires i <= |s|
  {
    if i < |s| && s[i] == '#' then
      var j := SkipSpaces(s, i + 1);
      if j < |s| && IsDigit(s[j]) then Some(DigitsValue(s[j..DigitRunEnd(s, j)])) else None
    else None
  }

  /** The leftmost match of `#\s*([0-9]+)` at or after `i`. */
  function FirstBsrFrom(s: string, i: nat): (r: Option<nat>)
    requires i <= |s|
    decreases |s| - i
  {
    if BsrAt(s, i).Some? then BsrAt(s, i)
    else if i == |s| then None
    else FirstBsrFrom(s, i + 1)
  }

  /** `FirstBsrFrom` finds nothing iff nothing matches. */
  lemma {:induction false} FirstBsrFromSpec(s: string, i: nat)
    requires i <= |s|
    ensures FirstBsrFrom(s, i).None? <==> forall j :: i <= j <= |s| ==> BsrAt(s, j).None?
    decreases |s| - i
  {
    if BsrAt(s, i).None? && i < |s| {
      FirstBsrFromSpec(s, i + 1);
    }
  }

  /** Where the leftmost match starts. */
  lemma {:induction false} FirstBsrPosition(s: string, i: nat) returns (j: nat)
    requires i <= |s| && FirstBsrFrom(s, i).Some?
    ensures i <= j <= |s| && BsrAt(s, j) == FirstBsrFrom(s, i)
    ensures forall k :: i <= k < j ==> BsrAt(s, k).None?
    decreases |s| - i
  {
    if BsrAt(s, i).Some? {
      j := i;
    } else {
      j := FirstBsrPosition(s, i + 1);
    }
  }

  /** `parseBsr` (popup.js:108-111): the number after the first `#` that
      is followed (after optional whitespace) by digits, separators
      dropped first. */
  function ParseBsr(t: string): (r: Option<nat>)
    ensures r.Some? ==> '#' in t
  {
    var s := RemoveChar(t, ',');
    var r := FirstBsrFrom(s, 0);
    assert r.Some? ==> '#' in s by {
      if r.Some? {
        var j := FirstBsrPosition(s, 0);
        assert s[j] in s;
      }
    }
    RemoveCharKeeps(t, ',');
    r
  }

  // ------------------------------------------------------------ round trips

  /** A text with no digit before `i` reads its first integer at the
      first digit after it. */
  lemma {:induction false} FirstIntegerSkip(s: string, i: nat, p: nat)
    requires i <= p <= |s|
    requires forall j :: i <= j < p ==> !IsDigit(s[j])
    ensures FirstIntegerFrom(s, i) == FirstIntegerFrom(s, p)
    decreases p - i
  {
    if i < p {
      FirstIntegerSkip(s, i + 1, p);
    }
  }

  /** The digits of `n` at `i`, ended by a non-digit or the end of `s`,
      are read back as `n`. */
  lemma {:induction false} DigitsAt(s: string, i: nat, n: nat)
    requires OccursAt(s, NatToDigits(n), i)
    requires i + |NatToDigits(n)| == |s| || !IsDigit(s[i + |NatToDigits(n)|])
    ensures IsDigit(s[i])
    ensures DigitsValue(s[i..DigitRunEnd(s, i)]) == n
  {
    var t := NatToDigits(n);
    var e := i + |t|;
    assert s[i..e] == t;
    assert forall k :: i <= k < e ==> IsDigit(s[k]) by {
      forall k | i <= k < e ensures IsDigit(s[k]) { assert s[k] == t[k - i]; }
    }
    DigitRunEndIs(s, i, e);
  }

  /** A review count rendered with `String(n)` after text without digits
      is read back exactly. */
  lemma ReviewCountRoundTrip(pre: string, n: nat, post: string)
    requires !HasDigit(pre) && ',' !in pre && ',' !in post
    requires |post| == 0 || !IsDigit(post[0])
    ensures ParseReviewCount(pre + NatToDigits(n) + post) == Some(n)
  {
    var t := NatToDigits(n);
    var s := pre + t + post;
    assert ',' !in t by { assert forall k :: 0 <= k < |t| ==> IsDigit(t[k]); }
    assert ',' !in s;
    assert RemoveChar(s, ',') == s;
    assert s[|pre|..|pre| + |t|] == t;
    assert |pre| + |t| < |s| ==> s[|pre| + |t|] == post[0];
    DigitsAt(s, |pre|, n);
    assert forall j :: 0 <= j < |pre| ==> s[j] == pre[j];
    FirstIntegerSkip(s, 0, |pre|);
  }

  /** `#`, optional whitespace and the digits of `n` after text without a
      `#` are read back as the rank `n`. */
  lemma BsrRoundTrip(pre: string, gap: string, n: nat, post: string)
    requires '#' !in pre && ',' !in pre && ',' !in post
    requires forall k :: 0 <= k < |gap| ==> IsSpace(gap[k])
    requires |post| == 0 || !IsDigit(post[0])
    ensures ParseBsr(pre + "#" + gap + NatToDigits(n) + post) == Some(n)
  {
    var t := NatToDigits(n);
    var s := pre + "#" + gap + t + post;
    NoCommaInBsrText(pre, gap, t, post);
    assert RemoveChar(s, ',') == s;
    BsrAtRendered(s, pre, gap, n, post);
    assert forall j :: 0 <= j < |pre| ==> BsrAt(s, j).None? by {
      forall j | 0 <= j < |pre| ensures BsrAt(s, j).None? { assert s[j] == pre[j]; }
    }
    FirstBsrSkip(s, 0, |pre|);
  }

  lemma NoCommaInBsrText(pre: string, gap: string, t: string, post: string)
    requires ',' !in pre && ',' !in post && AllDigits(t)
    requires forall k :: 0 <= k < |gap| ==> IsSpace(gap[k])
    ensures ',' !in pre + "#" + gap + t + post
  {
    assert ',' !in t by { assert forall k :: 0 <= k < |t| ==> IsDigit(t[k]); }
    assert ',' !in gap by { assert forall k :: 0 <= k < |gap| ==> gap[k] != ','; }
  }

  lemma BsrAtRendered(s: string, pre: string, gap: string, n: nat, post: string)
    requires s == pre + "#" + gap + NatToDigits(n) + post
    requires forall k :: 0 <= k < |gap| ==> IsSpace(gap[k])
    requires |post| == 0 || !IsDigit(post[0])
    ensures BsrAt(s, |pre|) == Some(n)
  {
    BsrLayout(pre, gap, NatToDigits(n), post);
    BsrAtDigits(s, |pre|, |pre| + 1 + |gap|, n);
  }

  /** A `#`, blanks up to `q`, and the digits of `n` at `q` match with value `n`. */
  lemma {:induction false} BsrAtDigits(s: string, p: nat, q: nat, n: nat)
    requires p < q <= |s| && s[p] == '#'
    requires forall k :: p + 1 <= k < q ==> IsSpace(s[k])
    requires OccursAt(s, NatToDigits(n), q)
    requires q + |NatToDigits(n)| == |s| || !IsDigit(s[q + |NatToDigits(n)|])
    ensures BsrAt(s, p) == Some(n)
  {
    DigitsAt(s, q, n);
    SkipSpacesIs(s, p + 1, q);
  }

  /** Where each piece of `pre + "#" + gap + t + post` sits. */
  lemma BsrLayout(pre: string, gap: string, t: string, post: string)
    requires forall k :: 0 <= k < |gap| ==> IsSpace(gap[k])
    ensures var s := pre + "#" + gap + t + post; var q := |pre| + 1 + |gap|;
      && |s| == q + |t| + |post| && s[|pre|] == '#'
      && (forall k :: |pre| + 1 <= k < q ==> IsSpace(s[k]))
      && s[q..q + |t|] == t
      && (q + |t| < |s| ==> s[q + |t|] == post[0])
  {
    var s := pre + "#" + gap + t + post;
    var p := |pre|;
    var q := p + 1 + |gap|;
    forall k | p + 1 <= k < q ensures IsSpace(s[k]) { assert s[k] == gap[k - p - 1]; }
  }

  lemma {:induction false} SkipSpacesIs(s: string, i: nat, q: nat)
    requires i <= q < |s| && !IsSpace(s[q])
    requires forall k :: i <= k < q ==> IsSpace(s[k])
    ensures SkipSpaces(s, i) == q
    decreases q - i
  {
    if i < q {
      SkipSpacesIs(s, i + 1, q);
    }
  }

  lemma {:induction false} FirstBsrSkip(s: string, i: nat, p: nat)
    requires i <= p <= |s|
    requires forall j :: i <= j < p ==> BsrAt(s, j).None?
    ensures FirstBsrFrom(s, i) == FirstBsrFrom(s, p)
    decreases p - i
  {
    if i < p {
      assert BsrAt(s, i).None?;
      assert FirstBsrFrom(s, i) == FirstBsrFrom(s, i + 1);
      FirstBsrSkip(s, i + 1, p);
    }
  }

  /** A decimal after text without digits is the rating `parseRating`
      reads (and, with no separators, the amount `moneyToNum` reads). */
  lemma RatingRoundTrip(pre: string, d: Decimal, post: string)
    requires ValidDecimal(d) && !HasDigit(pre)
    requires |post| == 0 || (!IsDigit(post[0]) && post[0] != '.')
    ensures ParseRating(pre + DecimalText(d) + post) == ToDouble(DecimalValue(d))
    ensures ',' !in pre + post ==>
      MoneyToNum(pre + DecimalText(d) + post) == ToDouble(DecimalValue(d))
  {
    var t := DecimalText(d);
    var s := pre + t + post;
    DecimalTextShape(d);
    assert s[|pre|..|pre| + |t|] == t;
    assert |pre| + |t| < |s| ==> s[|pre| + |t|] == post[0];
    RunAtDecimal(s, |pre|, d);
    assert forall j :: 0 <= j < |pre| ==> s[j] == pre[j];
    FirstRunAtFirstDigit(s, 0, |pre|);
    if ',' !in pre + post {
      assert ',' !in t by { assert forall k :: 0 <= k < |t| ==> t[k] != ','; }
      assert forall k :: 0 <= k < |s| ==> s[k] != ',' by {
        forall k | 0 <= k < |s| ensures s[k] != ',' {
          if k < |pre| { assert s[k] == (pre + post)[k]; }
          else if k >= |pre| + |t| { assert s[k] == (pre + post)[k - |t|]; }
          else { assert s[k] == t[k - |pre|]; }
        }
      }
      assert RemoveChar(s, ',') == s;
    }
  }

  /** Thousands separators make no difference to the two readers that drop
      them: the text reads as it would without its commas. */
  lemma CommasIgnored(s: string)
    ensures MoneyToNum(s) == MoneyToNum(RemoveChar(s, ','))
    ensures ParseReviewCount(s) == ParseReviewCount(RemoveChar(s, ','))
    ensures ParseBsr(s) == ParseBsr(RemoveChar(s, ','))
  {
    assert RemoveChar(RemoveChar(s, ','), ',') == RemoveChar(s, ',');
  }

  /** Removing the commas of `pre + mid + post` piece by piece. */
  lemma RemoveCommas3(pre: string, mid: string, post: string)
    ensures RemoveChar(pre + mid + post, ',')
      == RemoveChar(pre, ',') + RemoveChar(mid, ',') + RemoveChar(post, ',')
  {
    RemoveCharAppend(pre + mid, post, ',');
    RemoveCharAppend(pre, mid, ',');
  }

  /** A count written with digit-group commas anywhere among its digits
      ("1,234") after text without digits is read back exactly; commas in
      the surrounding text do not matter either. */
  lemma GroupedCountRoundTrip(pre: string, mid: string, n: nat, post: string)
    requires !HasDigit(pre) && RemoveChar(mid, ',') == NatToDigits(n)
    requires var p := RemoveChar(post, ','); |p| == 0 || !IsDigit(p[0])
    ensures ParseReviewCount(pre + mid + post) == Some(n)
  {
    var s := pre + mid + post;
    var pre' := RemoveChar(pre, ',');
    var post' := RemoveChar(post, ',');
    RemoveCommas3(pre, mid, post);
    RemoveCommaKeepsDigits(pre);
    ReviewCountRoundTrip(pre', n, post');
    CommasIgnored(s);
  }

  /** An amount written with digit-group commas in its whole part
      ("$1,299.99") after text without digits is read as the decimal. */
  lemma GroupedMoneyRoundTrip(pre: string, mid: string, d: Decimal, post: string)
    requires ValidDecimal(d) && !HasDigit(pre) && RemoveChar(mid, ',') == DecimalText(d)
    requires var p := RemoveChar(post, ','); |p| == 0 || (!IsDigit(p[0]) && p[0] != '.')
    ensures MoneyToNum(pre + mid + post) == ToDouble(DecimalValue(d))
  {
    var s := pre + mid + post;
    var pre' := RemoveChar(pre, ',');
    var post' := RemoveChar(post, ',');
    RemoveCommas3(pre, mid, post);
    RemoveCommaKeepsDigits(pre);
    assert ',' !in pre' + post';
    RatingRoundTrip(pre', d, post');
    CommasIgnored(s);
  }

  /** The reading the source's comment gives as its example. */
  lemma GroupedCountExample()
    ensures ParseReviewCount("1,234 ratings") == Some(1234)
  {
    RenderedSmallNat();
    DropComma("1", "234");
    NoCommaIn(" ratings");
    CountText();
    GroupedCountRoundTrip("", "1" + "," + "234", 1234, " ratings");
  }

  lemma CountText()
    ensures "1,234 ratings" == "" + ("1" + "," + "234") + " ratings"
  {
  }

  lemma MoneyText()
    ensures "1" + "299.99" == "1299.99"
    ensures "$1,299.99" == "$" + ("1" + "," + "299.99") + ""
  {
  }

  lemma RenderedSmallNat()
    ensures NatToDigits(1234) == "1" + "234"
  {
    assert NatToDigits(1) == "1";
    assert NatToDigits(12) == "12";
    assert NatToDigits(123) == "123";
  }

  lemma NoCommaIn(s: string)
    requires forall i :: 0 <= i < |s| ==> s[i] != ','
    ensures RemoveChar(s, ',') == s
  {
    assert ',' !in s;
  }

  /** One separator between two comma-free parts is dropped. */
  lemma DropComma(a: string, b: string)
    requires ',' !in a && ',' !in b
    ensures RemoveChar(a + "," + b, ',') == a + b
  {
    var ac := a + ",";
    RemoveCharAppend(a, ",", ',');
    CommaDropped();
    assert RemoveChar(ac, ',') == a;
    RemoveCharAppend(ac, b, ',');
    assert RemoveChar(ac + b, ',') == a + b;
  }

  lemma CommaDropped()
    ensures RemoveChar(",", ',') == ""
  {
    assert ","[1..] == "";
  }

  /** A price with a thousands separator is read whole. */
  lemma GroupedMoneyExample()
    ensures MoneyToNum("$1,299.99") == Finite(1299.99)
  {
    var d := Decimal("1299", "99");
    ExampleDecimal();
    DropComma("1", "299.99");
    MoneyText();
    GroupedMoneyRoundTrip("$", "1" + "," + "299.99", d, "");
  }

  lemma DigitsOf1299()
    ensures DigitsValue("1299") == 1299
  {
    assert DigitsValue("1") == 1;
    assert DigitsValue("12") == 12 by { assert "12"[..1] == "1"; }
    assert DigitsValue("129") == 129 by { assert "129"[..2] == "12"; }
    assert "1299"[..3] == "129";
  }

  lemma ExampleDecimal()
    ensures ValidDecimal(Decimal("1299", "99"))
    ensures DecimalText(Decimal("1299", "99")) == "1299.99"
    ensures DecimalValue(Decimal("1299", "99")) == 1299.99
  {
    DigitsOf1299();
    assert DigitsValue("99") == 99 by { assert "99"[..1] == "9"; }
  }

  /** `parseFloat` reads a rendered decimal at the head of the text, as long
      as nothing that could extend the literal follows it. */
  lemma ParseFloatDecimal(d: Decimal, post: string)
    requires ValidDecimal(d)
    requires |post| == 0 || (!IsDigit(post[0]) && post[0] != '.' && post[0] != 'e' && post[0] != 'E')
    ensures ParseFloat(DecimalText(d) + post) == ToDouble(DecimalValue(d))
  {
    var t := DecimalText(d);
    var s := t + post;
    DecimalTextShape(d);
    assert s[0] == t[0];
    assert s[..|t|] == t;
    assert |t| < |s| ==> s[|t|] == post[0];
    ScanRendered(s, d);
    ParseFloatPlain(s);
  }

  /** The decimal-literal scanner reads a rendered decimal back. */
  lemma ScanRendered(s: string, d: Decimal)
    requires ValidDecimal(d)
    requires |DecimalText(d)| <= |s| && s[..|DecimalText(d)|] == DecimalText(d)
    requires |DecimalText(d)| == |s|
      || (!IsDigit(s[|DecimalText(d)|]) && s[|DecimalText(d)|] != '.'
          && s[|DecimalText(d)|] != 'e' && s[|DecimalText(d)|] != 'E')
    ensures ScanUnsignedDecimal(s, 0) == Some((|DecimalText(d)|, DecimalValue(d)))
  {
    var t := DecimalText(d);
    var w := |d.whole|;
    assert s[..w] == d.whole by { assert t[..w] == d.whole; }
    if |d.frac| == 0 {
      ScanRenderedWhole(s, d);
    } else {
      ScanRenderedFraction(s, d);
    }
  }

  lemma ScanRenderedWhole(s: string, d: Decimal)
    requires ValidDecimal(d) && |d.frac| == 0
    requires |d.whole| <= |s| && s[..|d.whole|] == d.whole
    requires |d.whole| == |s|
      || (!IsDigit(s[|d.whole|]) && s[|d.whole|] != '.' && s[|d.whole|] != 'e' && s[|d.whole|] != 'E')
    ensures ScanUnsignedDecimal(s, 0) == Some((|d.whole|, DecimalValue(d)))
  {
    var w := |d.whole|;
    assert forall k :: 0 <= k < w ==> IsDigit(s[k]) by {
      forall k | 0 <= k < w ensures IsDigit(s[k]) { assert s[k] == d.whole[k]; }
    }
    DigitRunEndIs(s, 0, w);
    assert s[0..w] == d.whole;
    ScanWhole(s, d.whole);
    assert d == Decimal(d.whole, "");
  }

  lemma ScanRenderedFraction(s: string, d: Decimal)
    requires ValidDecimal(d) && |d.frac| >= 1
    requires |DecimalText(d)| <= |s| && s[..|DecimalText(d)|] == DecimalText(d)
    requires s[..|d.whole|] == d.whole
    requires |DecimalText(d)| == |s|
      || (!IsDigit(s[|DecimalText(d)|]) && s[|DecimalText(d)|] != 'e' && s[|DecimalText(d)|] != 'E')
    ensures ScanUnsignedDecimal(s, 0) == Some((|DecimalText(d)|, DecimalValue(d)))
  {
    var t := DecimalText(d);
    var w := |d.whole|;
    assert forall k :: 0 <= k < w ==> IsDigit(s[k]) by {
      forall k | 0 <= k < w ensures IsDigit(s[k]) { assert s[k] == d.whole[k]; }
    }
    assert s[w] == t[w] == '.';
    DigitRunEndIs(s, 0, w);
    assert t[w + 1..] == d.frac;
    assert s[w + 1..|t|] == d.frac;
    assert s[0..w] == d.whole;
    ScanWithFraction(s, d);
    assert DecimalValue(d) == MantissaValue(d.whole, d.frac);
  }

  lemma ScanWhole(s: string, whole: string)
    requires |whole| >= 1 && AllDigits(whole)
    requires |whole| <= |s| && DigitRunEnd(s, 0) == |whole| && s[0..|whole|] == whole
    requires |whole| == |s| || (s[|whole|] != '.' && s[|whole|] != 'e' && s[|whole|] != 'E')
    ensures ScanUnsignedDecimal(s, 0) == Some((|whole|, DecimalValue(Decimal(whole, ""))))
  {
    var w := |whole|;
    assert !(w < |s| && s[w] == '.');
    assert w != 0;
    assert ScanExponent(s, w) == (w, 0);
    var m := MantissaValue(s[0..w], "");
    assert m == MantissaValue(whole, "");
    assert ScanUnsignedDecimal(s, 0) == Some((w, Scaled(m, 0)));
    assert DecimalValue(Decimal(whole, "")) == m;
  }

  lemma {:induction false} ScanWithFraction(s: string, d: Decimal)
    requires ValidDecimal(d) && |d.frac| >= 1
    requires |d.whole| + 1 + |d.frac| <= |s| && DigitRunEnd(s, 0) == |d.whole|
    requires s[0..|d.whole|] == d.whole && s[|d.whole|] == '.'
    requires s[|d.whole| + 1..|d.whole| + 1 + |d.frac|] == d.frac
    requires |d.whole| + 1 + |d.frac| == |s|
      || (!IsDigit(s[|d.whole| + 1 + |d.frac|]) && s[|d.whole| + 1 + |d.frac|] != 'e'
          && s[|d.whole| + 1 + |d.frac|] != 'E')
    ensures ScanUnsignedDecimal(s, 0) == Some((|d.whole| + 1 + |d.frac|, MantissaValue(d.whole, d.frac)))
  {
    FractionTail(s, |d.whole| + 1, d.frac);
    ScanFractionShape(s, d.whole, d.frac);
  }

  /** A fraction's digits end their run, and no exponent follows them. */
  lemma FractionTail(s: string, j: nat, f: string)
    requires AllDigits(f) && j + |f| <= |s| && s[j..j + |f|] == f
    requires j + |f| == |s| || (!IsDigit(s[j + |f|]) && s[j + |f|] != 'e' && s[j + |f|] != 'E')
    ensures DigitRunEnd(s, j) == j + |f|
    ensures ScanExponent(s, j + |f|) == (j + |f|, 0)
  {
    FractionRunEnd(s, j, f);
    NoExponentAt(s, j + |f|);
  }

  /** No exponent is read where no `e` or `E` stands. */
  lemma NoExponentAt(s: string, i: nat)
    requires i <= |s| && (i == |s| || (s[i] != 'e' && s[i] != 'E'))
    ensures ScanExponent(s, i) == (i, 0)
  {
  }

  /** The scanner on `digits . digits` with no exponent after it. */
  lemma ScanFractionShape(s: string, whole: string, frac: string)
    requires |frac| >= 1 && |whole| + 1 + |frac| <= |s| && s[|whole|] == '.'
    requires s[0..|whole|] == whole && s[|whole| + 1..|whole| + 1 + |frac|] == frac
    requires DigitRunEnd(s, 0) == |whole| && DigitRunEnd(s, |whole| + 1) == |whole| + 1 + |frac|
    requires ScanExponent(s, |whole| + 1 + |frac|) == (|whole| + 1 + |frac|, 0)
    ensures ScanUnsignedDecimal(s, 0) == Some((|whole| + 1 + |frac|, MantissaValue(whole, frac)))
  {
  }

  /** Why the popup keeps two rating readers: `parseFloat` only reads a
      number at the head of the text, `parseRating` the first one anywhere. */
  lemma TwoRatingReaders()
    ensures ParseFloat("Rated 4.5") == NaN
    ensures ParseRating("Rated 4.5") == Finite(4.5)
  {
    LeadingWordIsNaN("Rated 4.5");
    RatedText();
  }

  /** Text that starts with a letter other than `I` is not a number to
      `parseFloat`. */
  lemma LeadingWordIsNaN(s: string)
    requires |s| > 0 && 'A' <= s[0] <= 'Z' && s[0] != 'I'
    ensures ParseFloat(s) == NaN
  {
    ParseFloatPlain(s);
    assert ScanUnsignedDecimal(s, 0).None? by { assert DigitRunEnd(s, 0) == 0; }
  }

  lemma RatedText()
    ensures ParseRating("Rated 4.5") == Finite(4.5)
  {
    var d := Decimal("4", "5");
    assert DecimalText(d) == "4.5";
    assert "Rated 4.5" == "Rated " + DecimalText(d) + "";
    var p := "Rated ";
    assert !HasDigit(p) by {
      assert forall i :: 0 <= i < |p| ==> !IsDigit(p[i]);
    }
    RatingRoundTrip(p, d, "");
    FourPointFive();
  }

  lemma FourPointFive()
    ensures DecimalValue(Decimal("4", "5")) == 4.5
    ensures ToDouble(4.5) == Finite(4.5)
  {
    assert DigitsValue("4") == 4;
    assert DigitsValue("5") == 5;
    assert MantissaValue("4", "5") == 4.5;
  }
}

=== FILE: pricetext.dfy ===
/** Price-text normalisation of the content script (content.js:36-64):
    whitespace collapsing, the unavailable-phrase test, and the extraction
    of a numeric value and a range flag from free text. */
module PriceText {
  import opened Wrappers
  import opened Text
  import opened JsNumber

  // ------------------------------------------------------ normalizeSpaces

  /** Every whitespace character is a plain space and none follows another. */
  predicate SingleSpaced(s: string) {
    forall i :: 0 <= i < |s| && IsSpace(s[i]) ==>
      s[i] == ' ' && (i + 1 == |s| || !IsSpace(s[i + 1]))
  }

  /** The shape `normalizeSpaces` produces: single spaces between visible
      text, none at either end. */
  predicate Canonical(s: string) {
    IsTrimmed(s) && SingleSpaced(s)
  }

  /** `s.replace(/\s+/g, ' ')`: every maximal whitespace run becomes one space. */
  function CollapseSpaces(s: string): (r: string)
    ensures SingleSpaced(r)
    ensures |r| > 0 && IsSpace(r[0]) ==> |s| > 0 && IsSpace(s[0])
    decreases |s|
  {
    if |s| == 0 then ""
    else if IsSpace(s[0]) then
      var rest := TrimStart(s);
      assert |rest| < |s|;
      " " + CollapseSpaces(rest)
    else [s[0]] + CollapseSpaces(s[1..])
  }

  /** Text that is already single-spaced is left alone. */
  lemma {:induction false} CollapseSingleSpaced(s: string)
    requires SingleSpaced(s)
    ensures CollapseSpaces(s) == s
    decreases |s|
  {
    if |s| > 0 {
      if IsSpace(s[0]) {
        assert |s| > 1 ==> !IsSpace(s[1]);
        assert TrimStart(s) == s[1..];
      }
      CollapseSingleSpaced(s[1..]);
    }
  }

  /** Collapsing keeps every visible character, in order. */
  lemma {:induction false} CollapseKeepsContent(s: string)
    ensures Squeeze(CollapseSpaces(s)) == Squeeze(s)
    decreases |s|
  {
    if |s| > 0 {
      if IsSpace(s[0]) {
        var rest := TrimStart(s);
        SqueezeTrimStart(s);
        CollapseKeepsContent(rest);
        SqueezeAppend(" ", CollapseSpaces(rest));
      } else {
        CollapseKeepsContent(s[1..]);
        SqueezeAppend([s[0]], CollapseSpaces(s[1..]));
      }
    }
  }

  lemma SingleSpacedSlice(s: string, a: nat, b: nat)
    requires a <= b <= |s| && SingleSpaced(s)
    ensures SingleSpaced(s[a..b])
  {
    var t := s[a..b];
    forall i | 0 <= i < |t| && IsSpace(t[i])
      ensures t[i] == ' ' && (i + 1 == |t| || !IsSpace(t[i + 1]))
    {
      assert t[i] == s[a + i];
      if i + 1 < |t| {
        assert t[i + 1] == s[a + i + 1];
      }
    }
  }

  /** `normalizeSpaces` (content.js:36): collapse whitespace runs, then trim. */
  function NormalizeSpaces(s: string): (r: string)
    ensures Canonical(r)
    ensures Canonical(s) ==> r == s
    ensures Squeeze(r) == Squeeze(s)
  {
    var c := CollapseSpaces(s);
    TrimKeepsSingleSpaced(c);
    SqueezeTrim(c);
    CollapseKeepsContent(s);
    assert Canonical(s) ==> c == s by {
      if Canonical(s) { CollapseSingleSpaced(s); }
    }
    Trim(c)
  }

  lemma TrimKeepsSingleSpaced(c: string)
    requires SingleSpaced(c)
    ensures SingleSpaced(Trim(c))
  {
    var t := TrimStart(c);
    var r := TrimEnd(t);
    assert r == c[|c| - |t|..][..|r|];
    assert r == c[|c| - |t|..|c| - |t| + |r|];
    SingleSpacedSlice(c, |c| - |t|, |c| - |t| + |r|);
  }

  lemma NormalizeSpacesIdempotent(s: string)
    ensures NormalizeSpaces(NormalizeSpaces(s)) == NormalizeSpaces(s)
  {
  }

  // ----------------------------------------------------- allowedIncludes

  /** `allowedIncludes` (content.js:61-64): whether ANY needle occurs. */
  function AllowedIncludes(str: string, needles: seq<string>): (r: bool)
    ensures r <==> exists k :: 0 <= k < |needles| && Contains(str, needles[k])
  {
    if |needles| == 0 then false
    else Contains(str, needles[0]) || AllowedIncludes(str, needles[1..])
  }

  /** The phrases whose presence marks a price as not shown on the page. */
  const UnavailablePhrases: seq<string> :=
    ["price in cart", "see price", "add to cart", "currently unavailable"]

  // -------------------------------------------------- normalizePriceText

  /** The result record of `normalizePriceText`; `numeric` is None for
      JavaScript's `null`. */
  datatype PriceInfo = PriceInfo(display: string, numeric: Option<real>, isRange: bool, isUnavailable: bool)

  /** The unsigned decimal runs the normaliser sees: those of the text with
      its thousands separators removed. */
  function PriceRuns(s: string): seq<Decimal> {
    NumberRuns(RemoveChar(s, ','))
  }

  /** `s.includes('-') || s.includes('–')`. */
  predicate HasRangeDash(s: string) {
    '-' in s || '\U{2013}' in s
  }

  /** `normalizePriceText` (content.js:38-59). The full characterisation
      of the fields is `NormalizePriceTextSpec`. */
  function NormalizePriceText(raw: string): (r: PriceInfo)
    ensures r.display == NormalizeSpaces(raw)
    ensures r.isUnavailable ==> r.numeric == None && !r.isRange
  {
    ClassifyPrice(NormalizeSpaces(raw))
  }

  /** The fields computed from the space-normalised text `s`. */
  function ClassifyPrice(s: string): (r: PriceInfo)
    ensures r.display == s
    ensures r.isUnavailable ==> r.numeric == None && !r.isRange
  {
    var lowered := Lower(s);
    if Contains(lowered, "price in cart")
       || AllowedIncludes(lowered, ["see price", "add to cart"])
       || Contains(lowered, "currently unavailable")
    then
      assert |s| > 0 by {
        UnavailableTest(lowered);
        var k :| 0 <= k < |UnavailablePhrases| && Contains(lowered, UnavailablePhrases[k]);
        ContainsNeedsLength(lowered, UnavailablePhrases[k]);
      }
      PriceInfo(if |s| > 0 then s else "See price in cart", None, false, true)
    else
      var nums := PriceRuns(s);
      if |nums| == 0 then PriceInfo(s, None, false, false)
      else
        var first := ToDouble(DecimalValue(nums[0]));
        var isRange := |nums| >= 2 && (Contains(s, "-") || Contains(s, "\U{2013}"));
        PriceInfo(s, if first.Finite? then Some(first.v) else None, isRange, false)
  }

  /** What each field of the normaliser's result means: unavailable iff
      the lowered text has one of the phrases; otherwise the number is the
      value of the first run (when a double can hold it), and a range is
      two or more runs and a dash. */
  lemma NormalizePriceTextSpec(raw: string)
    ensures var r := NormalizePriceText(raw);
      && (r.isUnavailable <==> IsUnavailableText(Lower(r.display)))
      && (!r.isUnavailable ==>
            && (|PriceRuns(r.display)| == 0 ==> r.numeric == None)
            && (|PriceRuns(r.display)| > 0 ==>
                  var v := DecimalValue(PriceRuns(r.display)[0]);
                  r.numeric == (if v < DoubleOverflow then Some(v) else None)))
      && (r.isRange <==> !r.isUnavailable && |PriceRuns(r.display)| >= 2 && HasRangeDash(r.display))
  {
    var s := NormalizeSpaces(raw);
    UnavailableTest(Lower(s));
    ContainsOneChar(s, '-');
    ContainsOneChar(s, '\U{2013}');
  }

  lemma ContainsOneChar(s: string, c: char)
    ensures Contains(s, [c]) <==> c in s
  {
    if c in s {
      var i :| 0 <= i < |s| && s[i] == c;
      assert OccursAt(s, [c], i);
    }
    if Contains(s, [c]) {
      var i: nat :| i <= |s| && OccursAt(s, [c], i);
      assert s[i] == s[i..i + 1][0];
    }
  }

  /** The phrase test the source writes as two `includes` and an
      `allowedIncludes` is one disjunction over all four phrases. */
  predicate IsUnavailableText(lowered: string) {
    exists k :: 0 <= k < |UnavailablePhrases| && Contains(lowered, UnavailablePhrases[k])
  }

  lemma UnavailableTest(lowered: string)
    ensures (Contains(lowered, "price in cart")
             || AllowedIncludes(lowered, ["see price", "add to cart"])
             || Contains(lowered, "currently unavailable"))
            <==> IsUnavailableText(lowered)
  {
    var two := ["see price", "add to cart"];
    assert two[0] == UnavailablePhrases[1] && two[1] == UnavailablePhrases[2];
    if Contains(lowered, "price in cart") {
      assert Contains(lowered, UnavailablePhrases[0]);
    }
    if Contains(lowered, "currently unavailable") {
      assert Contains(lowered, UnavailablePhrases[3]);
    }
    if AllowedIncludes(lowered, two) {
      var k :| 0 <= k < |two| && Contains(lowered, two[k]);
      assert Contains(lowered, UnavailablePhrases[k + 1]);
    }
    if IsUnavailableText(lowered) {
      var k :| 0 <= k < |UnavailablePhrases| && Contains(lowered, UnavailablePhrases[k]);
      if k == 1 || k == 2 {
        assert Contains(lowered, two[k - 1]);
      }
    }
  }

  lemma ContainsNeedsLength(s: string, needle: string)
    requires Contains(s, needle)
    ensures |needle| <= |s|
  {
  }

  /** The empty text is an available price without a number. */
  lemma NormalizeEmpty()
    ensures NormalizePriceText("") == PriceInfo("", None, false, false)
  {
    assert NormalizeSpaces("") == "";
    assert Lower("") == "";
    if IsUnavailableText("") {
      var k :| 0 <= k < |UnavailablePhrases| && Contains("", UnavailablePhrases[k]);
      ContainsNeedsLength("", UnavailablePhrases[k]);
    }
    assert RemoveChar("", ',') == "";
    assert PriceRuns("") == [];
    NormalizePriceTextSpec("");
  }

  /** Normalising the display text again changes nothing: the display is
      already in normal form and every other field is computed from it. */
  lemma NormalizePriceTextIdempotent(raw: string)
    ensures NormalizePriceText(NormalizePriceText(raw).display) == NormalizePriceText(raw)
  {
    NormalizeSpacesIdempotent(raw);
    assert NormalizePriceText(raw) == ClassifyPrice(NormalizeSpaces(raw));
  }
}

=== FILE: probes.dfy ===
/** The text-level halves of the page price probes (content.js:69-84,
    155-193, 231-279): meta-tag candidates, the composed
    symbol/whole/fraction price, and the bounded scans of a variant-widget
    blob and of inline scripts for a few literal key patterns. */
module PriceProbes {
  import opened Wrappers
  import opened Text
  import opened JsNumber
  import opened PriceText
  import LdPrice

  // ============================================================ metaPrice

  /** `[...].filter(Boolean)` over attribute values (None for `null`). */
  function PresentCandidates(cands: seq<Option<string>>): (r: seq<string>)
    ensures forall i :: 0 <= i < |r| ==> |r[i]| > 0
    ensures |r| == 0 <==> forall i :: 0 <= i < |cands| ==> cands[i].None? || |cands[i].value| == 0
    ensures |r| <= |cands|
    ensures forall x :: x in r <==> x != "" && Some(x) in cands
  {
    if |cands| == 0 then []
    else
      var head := if cands[0].Some? && |cands[0].value| > 0 then [cands[0].value] else [];
      assert cands == [cands[0]] + cands[1..];
      head + PresentCandidates(cands[1..])
  }

  /** The filter keeps order: the candidates of a concatenation are those
      of the first part followed by those of the second. */
  lemma {:induction false} PresentCandidatesAppend(a: seq<Option<string>>, b: seq<Option<string>>)
    ensures PresentCandidates(a + b) == PresentCandidates(a) + PresentCandidates(b)
  {
    if |a| > 0 {
      assert (a + b)[0] == a[0] && (a + b)[1..] == a[1..] + b;
      PresentCandidatesAppend(a[1..], b);
    } else {
      assert a + b == b;
    }
  }

  /** Index of the first element satisfying `p`, or `|xs|` when none does. */
  function FirstIndexWhere<T>(xs: seq<T>, p: T -> bool): (k: nat)
    ensures k <= |xs|
    ensures forall j :: 0 <= j < k ==> !p(xs[j])
    ensures k < |xs| ==> p(xs[k])
  {
    if |xs| == 0 then 0
    else if p(xs[0]) then 0
    else
      var k := FirstIndexWhere(xs[1..], p);
      assert forall j :: 1 <= j <= k ==> xs[j] == xs[1..][j - 1];
      1 + k
  }

  /** `metaPrice` (content.js:69-84): the first present candidate with a
      number, else the first present candidate, else the empty string. */
  function MetaPrice(cands: seq<Option<string>>): (r: string)
    ensures r == "" <==> |PresentCandidates(cands)| == 0
    ensures |PresentCandidates(cands)| > 0 ==> MetaPick(PresentCandidates(cands), r)
  {
    var ps := PresentCandidates(cands);
    var k := FirstIndexWhere(ps, LdPrice.HasNumeric);
    if k < |ps| then
      assert MetaPickAt(ps, k) && |ps[k]| > 0;
      ps[k]
    else if |ps| > 0 then
      assert MetaPickAt(ps, 0) && |ps[0]| > 0;
      ps[0]
    else ""
  }

  /** `ps[k]` is the candidate `metaPrice` settles on: no earlier one has a
      number, and it has one itself unless none does. */
  predicate MetaPickAt(ps: seq<string>, k: nat) {
    && k < |ps|
    && (forall j :: 0 <= j < k ==> !LdPrice.HasNumeric(ps[j]))
    && (LdPrice.HasNumeric(ps[k]) || (k == 0 && forall j :: 0 <= j < |ps| ==> !LdPrice.HasNumeric(ps[j])))
  }

  predicate MetaPick(ps: seq<string>, r: string) {
    exists k: nat | k < |ps| :: MetaPickAt(ps, k) && ps[k] == r
  }

  // ======================================================== composedPrice

  /** `composedPrice` (content.js:190-192): symbol, whole part and, when
      there is one, a decimal point and the fraction, trimmed. */
  function ComposedPrice(whole: string, frac: string, sym: string): (r: string)
    ensures IsTrimmed(r)
    ensures |whole| == 0 ==> r == ""
    ensures |whole| > 0 ==> Squeeze(r) == Squeeze(sym + whole + (if |frac| > 0 then "." + frac else ""))
  {
    if |whole| > 0 && |frac| > 0 then
      assert sym + whole + "." + frac == sym + whole + ("." + frac);
      SqueezeTrim(sym + whole + "." + frac);
      Trim(sym + whole + "." + frac)
    else if |whole| > 0 then
      assert sym + whole + "" == sym + whole;
      SqueezeTrim(sym + whole);
      Trim(sym + whole)
    else ""
  }

  // ================================================ literal key patterns

  /** Position of the first non-whitespace character at or after `i`. */
  predicate IsDigitOrComma(c: char) { IsDigit(c) || c == ',' }

  /** End of the maximal `[0-9,]` run starting at `i`. */
  function DigitCommaRunEnd(s: string, i: nat): (e: nat)
    requires i <= |s|
    ensures i <= e <= |s|
    ensures forall k :: i <= k < e ==> IsDigitOrComma(s[k])
    ensures e == |s| || !IsDigitOrComma(s[e])
    decreases |s| - i
  {
    if i < |s| && IsDigitOrComma(s[i]) then DigitCommaRunEnd(s, i + 1) else i
  }

  /** The text `"key"\s*:\s*` (key in any letter case) at `i`: the position
      after it. */
  function KeyColonAt(s: string, i: nat, key: string): (r: Option<nat>)
    requires i <= |s|
    ensures r.Some? ==> OccursAtIgnoreCase(s, "\"" + key + "\"", i)
    ensures r.Some? ==> i + |key| + 3 <= r.value <= |s|
  {
    if !OccursAtIgnoreCase(s, "\"" + key + "\"", i) then None
    else
      var j := SkipSpaces(s, i + |key| + 2);
      if j < |s| && s[j] == ':' then Some(SkipSpaces(s, j + 1)) else None
  }

  /** The literal patterns the two scans use. */
  datatype KeyPattern =
    | PriceKey          // /"price"\s*:\s*"?\$?([0-9,]+(\.[0-9]+)?)"?/i
    | PriceAmountKey    // /"priceAmount"\s*:\s*([0-9]+(\.[0-9]+)?)/i
    | DisplayPriceKey   // /"displayPrice"\s*:\s*"\$?([0-9,]+(\.[0-9]+)?)"/i

  /** The first capture group of the patterns: an integer part (with
      thousands separators for two of them) and an optional fraction. */
  datatype Capture = Capture(intPart: string, frac: string)

  predicate ValidCapture(c: Capture) {
    && |c.intPart| > 0
    && (forall k :: 0 <= k < |c.intPart| ==> IsDigitOrComma(c.intPart[k]))
    && AllDigits(c.frac)
  }

  function CaptureText(c: Capture): string {
    c.intPart + (if |c.frac| == 0 then "" else "." + c.frac)
  }

  /** `[0-9,]+(\.[0-9]+)?` at `k`: the capture and the position after it. */
  function GroupedNumberAt(s: string, k: nat): (r: Option<(Capture, nat)>)
    requires k <= |s|
    ensures r.Some? ==> ValidCapture(r.value.0)
    ensures r.Some? ==> k < r.value.1 <= |s| && s[k..r.value.1] == CaptureText(r.value.0)
  {
    var e := DigitCommaRunEnd(s, k);
    if e == k then None
    else if e + 1 < |s| && s[e] == '.' && IsDigit(s[e + 1]) then
      var f := DigitRunEnd(s, e + 1);
      assert s[k..f] == s[k..e] + "." + s[e + 1..f];
      Some((Capture(s[k..e], s[e + 1..f]), f))
    else Some((Capture(s[k..e], ""), e))
  }

  /** The capture of `pat` when the pattern matches at `i`. */
  function MatchAt(s: string, i: nat, pat: KeyPattern): (r: Option<Capture>)
    requires i <= |s|
    ensures r.Some? ==> ValidCapture(r.value)
    ensures r.Some? && pat.PriceAmountKey? ==> AllDigits(r.value.intPart)
  {
    match pat
    case PriceKey =>
      (match KeyColonAt(s, i, "price")
       case None => None
       case Some(k0) =>
         var k1 := if k0 < |s| && s[k0] == '"' then k0 + 1 else k0;
         var k2 := if k1 < |s| && s[k1] == '$' then k1 + 1 else k1;
         match GroupedNumberAt(s, k2)
         case None => None
         case Some(g) => Some(g.0))
    case PriceAmountKey =>
      (match KeyColonAt(s, i, "priceAmount")
       case None => None
       case Some(k) =>
         if k < |s| && IsDigit(s[k]) then
           var d := RunAt(s, k);
           Some(Capture(d.whole, d.frac))
         else None)
    case DisplayPriceKey =>
      (match KeyColonAt(s, i, "displayPrice")
       case None => None
       case Some(k0) =>
         if !(k0 < |s| && s[k0] == '"') then None
         else
           var k1 := if k0 + 1 < |s| && s[k0 + 1] == '$' then k0 + 2 else k0 + 1;
           match GroupedNumberAt(s, k1)
           case None => None
           case Some(g) => if g.1 < |s| && s[g.1] == '"' then Some(g.0) else None)
  }

  /** The first `Some` among `f(i), f(i + 1), ..., f(n)`. */
  function FirstSomeFrom<T>(f: nat -> Option<T>, i: nat, n: nat): (r: Option<T>)
    requires i <= n
    ensures r.Some? ==> exists j :: i <= j <= n && f(j) == r && (forall k :: i <= k < j ==> f(k).None?)
    ensures r.None? ==> forall j :: i <= j <= n ==> f(j).None?
    decreases n - i
  {
    if f(i).Some? then f(i)
    else if i == n then None
    else FirstSomeFrom(f, i + 1, n)
  }

  /** `MatchAt` at every position of `s`, nothing past its end. */
  function Matches(s: string, pat: KeyPattern): nat -> Option<Capture> {
    (j: nat) => if j <= |s| then MatchAt(s, j, pat) else None
  }

  /** `s.match(re)` for a pattern without the global flag: the capture of
      the leftmost match at or after `i`. */
  function FirstMatchFrom(s: string, i: nat, pat: KeyPattern): (r: Option<Capture>)
    requires i <= |s|
    ensures r.Some? ==> exists j :: i <= j <= |s| && Matches(s, pat)(j) == r
                                   && (forall k :: i <= k < j ==> Matches(s, pat)(k).None?)
    ensures r.None? ==> forall j :: i <= j <= |s| ==> Matches(s, pat)(j).None?
  {
    FirstSomeFrom(Matches(s, pat), i, |s|)
  }

  function FirstMatch(s: string, pat: KeyPattern): (r: Option<Capture>)
    ensures r.Some? ==> ValidCapture(r.value)
  {
    var r := FirstMatchFrom(s, 0, pat);
    assert r.Some? ==> exists j :: 0 <= j <= |s| && MatchAt(s, j, pat) == r;
    r
  }

  // ========================================================= twisterPrice

  /** Length above which the variant-widget text is treated as a data blob. */
  const TwisterBlobLength: nat := 200

  /** `twisterPrice` (content.js:246-255), given the widget text: short
      text is the price itself; a long blob yields `$` and the first
      `"price"` capture, else the first `"priceAmount"` capture, else ''. */
  function TwisterPrice(t: string): (r: string)
    ensures |t| <= TwisterBlobLength ==> r == t
    ensures |t| > TwisterBlobLength && FirstMatch(t, PriceKey).Some? ==>
      r == "$" + CaptureText(FirstMatch(t, PriceKey).value)
    ensures |t| > TwisterBlobLength && FirstMatch(t, PriceKey).None? && FirstMatch(t, PriceAmountKey).Some? ==>
      r == "$" + CaptureText(FirstMatch(t, PriceAmountKey).value)
    ensures |t| > TwisterBlobLength ==>
      (r == "" <==> FirstMatch(t, PriceKey).None? && FirstMatch(t, PriceAmountKey).None?)
    ensures |t| > TwisterBlobLength && r != "" ==>
      exists c :: ValidCapture(c) && r == "$" + CaptureText(c)
  {
    if |t| > TwisterBlobLength then
      match FirstMatch(t, PriceKey)
      case Some(m) => "$" + CaptureText(m)
      case None =>
        match FirstMatch(t, PriceAmountKey)
        case Some(m2) => "$" + CaptureText(m2)
        case None => ""
    else t
  }

  // ========================================================== scriptPrice

  /** Scripts shorter than this are never scanned. */
  const MinScriptLength: nat := 500

  /** Digits, optionally followed by a point and at least one digit; the
      integer part may be empty (`.5`). */
  predicate IsPlainDecimal(t: string) {
    || (|t| > 0 && AllDigits(t))
    || exists k :: 0 <= k < |t| - 1 && t[k] == '.' && AllDigits(t[..k]) && AllDigits(t[k + 1..])
  }

  /** Removing the separators from a `[0-9,]*` text leaves its digits. */
  lemma RemoveCommasDigits(s: string)
    requires forall k :: 0 <= k < |s| ==> IsDigitOrComma(s[k])
    ensures AllDigits(RemoveChar(s, ','))
  {
    var r := RemoveChar(s, ',');
    RemoveCharKeeps(s, ',');
    forall k | 0 <= k < |r| ensures IsDigit(r[k]) {
      var x := r[k];
      assert x in r;
      var j :| 0 <= j < |s| && s[j] == x;
    }
  }

  /** A capture without its thousands separators is digits with an
      optional fraction, or empty when the integer part was all commas
      and there is no fraction. */
  lemma CaptureWithoutCommas(c: Capture)
    requires ValidCapture(c)
    ensures var t := RemoveChar(CaptureText(c), ',');
      IsPlainDecimal(t) || (t == "" && |c.frac| == 0)
  {
    var a := RemoveChar(c.intPart, ',');
    RemoveCommasDigits(c.intPart);
    if |c.frac| > 0 {
      RemoveCharAppend(c.intPart, "." + c.frac, ',');
      assert ',' !in "." + c.frac by {
        assert forall k :: 0 <= k < |c.frac| ==> IsDigit(c.frac[k]);
      }
      var t := a + "." + c.frac;
      assert RemoveChar(CaptureText(c), ',') == t;
      assert t[..|a|] == a && t[|a| + 1..] == c.frac;
      assert t[|a|] == '.';
    } else {
      assert CaptureText(c) == c.intPart;
    }
  }

  /** `Number` of a plain decimal is never NaN. */
  lemma {:induction false} PlainDecimalIsNumber(t: string)
    requires IsPlainDecimal(t)
    ensures !StringToNumber(t).IsNaN()
  {
    PlainDecimalEnds(t);
    PlainDecimalScans(t);
    assert IsTrimmed(t);
    ScannedIsNumber(t);
  }

  /** A trimmed text the decimal scanner reads to its end, starting with
      a digit or the point, is a number to `Number`. */
  lemma ScannedIsNumber(t: string)
    requires IsTrimmed(t) && |t| > 0 && (IsDigit(t[0]) || t[0] == '.')
    requires |t| >= 2 ==> IsDigit(t[1]) || t[1] == '.'
    requires ScanUnsignedDecimal(t, 0).Some? && ScanUnsignedDecimal(t, 0).value.0 == |t|
    ensures !StringToNumber(t).IsNaN()
  {
    assert Trim(t) == t;
    assert !(|t| >= 2 && t[0] == '0' && RadixOf(t[1]) != 0);
    assert SignPrefix(t) == (false, 0);
    assert t[0..] != "Infinity" by { assert t[0..][0] != 'I'; }
    var p := ScanUnsignedDecimal(t, 0).value;
    assert StringToNumber(t) == ToDouble(p.1);
  }

  /** A plain decimal starts with a digit or the point, has no letter
      second and ends with a digit. */
  lemma PlainDecimalEnds(t: string)
    requires IsPlainDecimal(t)
    ensures |t| > 0 && (IsDigit(t[0]) || t[0] == '.') && IsDigit(t[|t| - 1])
    ensures |t| >= 2 ==> IsDigit(t[1]) || t[1] == '.'
  {
    if !(|t| > 0 && AllDigits(t)) {
      var k :| 0 <= k < |t| - 1 && t[k] == '.' && AllDigits(t[..k]) && AllDigits(t[k + 1..]);
      assert t[|t| - 1] == t[k + 1..][|t| - k - 2];
      if k > 0 { assert t[0] == t[..k][0]; }
      if k > 1 { assert t[1] == t[..k][1]; }
      if k == 0 { assert t[1] == t[k + 1..][0]; }
    }
  }

  /** The decimal scanner reads all of a plain decimal. */
  lemma {:induction false} PlainDecimalScans(t: string)
    requires IsPlainDecimal(t)
    ensures ScanUnsignedDecimal(t, 0).Some? && ScanUnsignedDecimal(t, 0).value.0 == |t|
  {
    if |t| > 0 && AllDigits(t) {
      DigitRunEndIs(t, 0, |t|);
    } else {
      var k :| 0 <= k < |t| - 1 && t[k] == '.' && AllDigits(t[..k]) && AllDigits(t[k + 1..]);
      assert forall j :: 0 <= j < k ==> IsDigit(t[j]) by {
        forall j | 0 <= j < k ensures IsDigit(t[j]) { assert t[j] == t[..k][j]; }
      }
      DigitRunEndIs(t, 0, k);
      assert forall j :: k + 1 <= j < |t| ==> IsDigit(t[j]) by {
        forall j | k + 1 <= j < |t| ensures IsDigit(t[j]) { assert t[j] == t[k + 1..][j - k - 1]; }
      }
      DigitRunEndIs(t, k + 1, |t|);
    }
  }

  /** One pattern on one script: the capture without commas, kept when
      `Number(...)` of it is not NaN. */
  function ScanPattern(s: string, pat: KeyPattern): (r: Option<string>)
    ensures r.Some? ==> ',' !in r.value
    ensures r.None? <==> FirstMatch(s, pat).None?
    ensures r.Some? ==> IsPlainDecimal(r.value) || r.value == ""
    ensures r.Some? ==> r.value == RemoveChar(CaptureText(FirstMatch(s, pat).value), ',')
  {
    match FirstMatch(s, pat)
    case None => None
    case Some(m) =>
      var num := RemoveChar(CaptureText(m), ',');
      CaptureWithoutCommas(m);
      assert !StringToNumber(num).IsNaN() by {
        if num != "" { PlainDecimalIsNumber(num); }
      }
      if !StringToNumber(num).IsNaN() then Some(num) else None
  }

  /** One script, both patterns in order (content.js:270-276). */
  function ScanScript(s: string): (r: Option<string>)
    ensures r.None? <==> FirstMatch(s, PriceAmountKey).None? && FirstMatch(s, DisplayPriceKey).None?
    ensures r.Some? ==> ',' !in r.value
    ensures r.Some? ==> IsPlainDecimal(r.value) || r.value == ""
    ensures FirstMatch(s, PriceAmountKey).Some? ==> r == ScanPattern(s, PriceAmountKey)
    ensures FirstMatch(s, PriceAmountKey).None? ==> r == ScanPattern(s, DisplayPriceKey)
  {
    match ScanPattern(s, PriceAmountKey)
    case Some(n) => Some(n)
    case None => ScanPattern(s, DisplayPriceKey)
  }

  /** The first `Some` that `f` gives on the elements of `xs`, in order. */
  function FirstHit<T, U>(xs: seq<T>, f: T -> Option<U>): (r: Option<U>)
    ensures r.None? <==> forall i :: 0 <= i < |xs| ==> f(xs[i]).None?
    ensures r.Some? ==> exists i :: 0 <= i < |xs| && f(xs[i]) == r && forall j :: 0 <= j < i ==> f(xs[j]).None?
  {
    if |xs| == 0 then None
    else if f(xs[0]).Some? then f(xs[0])
    else
      assert forall i :: 1 <= i < |xs| ==> xs[i] == xs[1..][i - 1];
      FirstHit(xs[1..], f)
  }

  /** One script as `scriptPrice` reads it: texts shorter than
      `MinScriptLength` are skipped, the others scanned. */
  function ScriptHit(s: string): (r: Option<string>)
    ensures r.Some? ==> |s| >= MinScriptLength && ',' !in r.value
    ensures |s| >= MinScriptLength ==> r == ScanScript(s)
    ensures r.None? <==> |s| < MinScriptLength || (FirstMatch(s, PriceAmountKey).None? && FirstMatch(s, DisplayPriceKey).None?)
  {
    if |s| == 0 || |s| < MinScriptLength then None else ScanScript(s)
  }

  /** `scriptPrice` (content.js:259-279) over the page's script texts. */
  function ScriptPrice(scripts: seq<string>): (r: string)
    ensures r == "" <==> forall i :: 0 <= i < |scripts| ==> ScriptHit(scripts[i]).None?
    ensures r != "" ==> r[0] == '$' && ',' !in r
    ensures r != "" ==> r == "$" || IsPlainDecimal(r[1..])
    ensures r != "" ==> exists i :: 0 <= i < |scripts| && ScriptHit(scripts[i]) == Some(r[1..])
                                    && forall j :: 0 <= j < i ==> ScriptHit(scripts[j]).None?
  {
    match FirstHit(scripts, ScriptHit)
    case None => ""
    case Some(n) =>
      assert ("$" + n)[1..] == n;
      "$" + n
  }

  /** The first script of at least `MinScriptLength` characters in which
      either pattern matches decides `scriptPrice`: `$` and that script's
      scan, whatever the later scripts hold. */
  lemma {:induction false} ScriptPriceFirstQualifying(scripts: seq<string>, i: nat)
    requires i < |scripts| && |scripts[i]| >= MinScriptLength
    requires FirstMatch(scripts[i], PriceAmountKey).Some? || FirstMatch(scripts[i], DisplayPriceKey).Some?
    requires forall j :: 0 <= j < i ==>
      (|scripts[j]| < MinScriptLength || (FirstMatch(scripts[j], PriceAmountKey).None? && FirstMatch(scripts[j], DisplayPriceKey).None?))
    ensures ScriptPrice(scripts) == "$" + ScanScript(scripts[i]).value
  {
    var r := ScriptPrice(scripts);
    assert ScriptHit(scripts[i]).Some?;
    assert r != "";
    var k :| 0 <= k < |scripts| && ScriptHit(scripts[k]) == Some(r[1..])
             && forall j :: 0 <= j < k ==> ScriptHit(scripts[j]).None?;
    assert k == i;
    assert r == "$" + r[1..];
  }
}

=== FILE: roundtrip.dfy ===
/** Round trips through `normalizePriceText`: a price rendered as a
    currency prefix and a decimal (what the composed, JSON-LD, twister and
    script probes produce) is read back as that decimal's value, and a
    rendered range as a range starting at its low end. */
module PriceRoundTrip {
  import opened Wrappers
  import opened Text
  import opened JsNumber
  import opened PriceText
  import LdPrice
  import PriceProbes

  /** Text around the numbers of a rendered price: no digits, no thousands
      separator, no `c` in either case (every unavailability phrase has
      one), single spaces only. */
  predicate NeutralText(s: string) {
    && SingleSpaced(s)
    && forall i :: 0 <= i < |s| ==> !IsDigit(s[i]) && s[i] != ',' && s[i] != 'c' && s[i] != 'C'
  }

  /** A currency prefix: neutral, no leading space and no dash. */
  predicate NeutralPrefix(s: string) {
    NeutralText(s) && (|s| == 0 || !IsSpace(s[0])) && !HasRangeDash(s)
  }

  /** Free of `c`, `C` and `,`: nothing the price normaliser would read as
      a cents sign or strip as a thousands separator. */
  predicate NoCentsOrCommas(s: string) {
    forall i :: 0 <= i < |s| ==> s[i] != 'c' && s[i] != 'C' && s[i] != ','
  }

  // ------------------------------------------------------------- helpers

  lemma ContainsHasChar(s: string, needle: string, j: nat)
    requires Contains(s, needle) && j < |needle|
    ensures needle[j] in s
  {
    var i: nat :| i <= |s| && OccursAt(s, needle, i);
    assert s[i + j] == s[i..i + |needle|][j];
  }

  lemma {:induction false} LowerKeepsNoC(s: string)
    requires 'c' !in s && 'C' !in s
    ensures 'c' !in Lower(s)
  {
    if |s| > 0 {
      assert s[0] in s;
      assert s[1..] == s[1..] && forall x :: x in s[1..] ==> x in s;
      LowerKeepsNoC(s[1..]);
    }
  }

  /** A text without `c` and `C` never reads as unavailable. */
  lemma NoCAvailable(s: string)
    requires 'c' !in s && 'C' !in s
    ensures !IsUnavailableText(Lower(s))
  {
    LowerKeepsNoC(s);
    if IsUnavailableText(Lower(s)) {
      var k :| 0 <= k < |UnavailablePhrases| && Contains(Lower(s), UnavailablePhrases[k]);
      var j := PhraseHasC(k);
      ContainsHasChar(Lower(s), UnavailablePhrases[k], j);
    }
  }

  /** Every unavailability phrase has a `c`. */
  lemma PhraseHasC(k: nat) returns (j: nat)
    requires k < |UnavailablePhrases|
    ensures j < |UnavailablePhrases[k]| && UnavailablePhrases[k][j] == 'c'
  {
    if k == 0 {
      j := 3;
      assert UnavailablePhrases[0] == "price in cart";
    } else if k == 1 {
      j := 7;
      assert UnavailablePhrases[1] == "see price";
    } else if k == 2 {
      j := 7;
      assert UnavailablePhrases[2] == "add to cart";
    } else {
      j := 0;
      assert UnavailablePhrases[3] == "currently unavailable";
    }
  }

  lemma SingleSpacedConcat(a: string, b: string)
    requires SingleSpaced(a) && SingleSpaced(b)
    requires |a| == 0 || |b| == 0 || !IsSpace(a[|a| - 1]) || !IsSpace(b[0])
    ensures SingleSpaced(a + b)
  {
    var s := a + b;
    forall i | 0 <= i < |s| && IsSpace(s[i])
      ensures s[i] == ' ' && (i + 1 == |s| || !IsSpace(s[i + 1]))
    {
      if i < |a| {
        assert s[i] == a[i];
        if i + 1 < |a| { assert s[i + 1] == a[i + 1]; }
        else if i + 1 < |s| { assert s[i + 1] == b[0]; }
      } else {
        assert s[i] == b[i - |a|];
        if i + 1 < |s| { assert s[i + 1] == b[i + 1 - |a|]; }
      }
    }
  }

  /** A canonical text without `c`, `C` and `,` is its own display, is
      never unavailable, and its runs are read from it unchanged. */
  lemma PlainPriceText(s: string)
    requires Canonical(s) && NoCentsOrCommas(s)
    ensures NormalizeSpaces(s) == s
    ensures !IsUnavailableText(Lower(s))
    ensures PriceRuns(s) == NumberRuns(s)
  {
    assert 'c' !in s && 'C' !in s && ',' !in s;
    NoCAvailable(s);
  }

  // ---------------------------------------------------------- the lemmas

  /** `pre + t` for a neutral prefix and a rendered decimal is canonical
      and free of `c`, `C` and `,`. */
  lemma PrefixedDecimalPlain(pre: string, d: Decimal)
    requires NeutralPrefix(pre) && ValidDecimal(d)
    ensures var s := pre + DecimalText(d);
      Canonical(s) && !HasRangeDash(s) && NoCentsOrCommas(s)
  {
    var t := DecimalText(d);
    var s := pre + t;
    DecimalTextShape(d);
    SingleSpacedConcat(pre, t);
    assert s[|s| - 1] == t[|t| - 1];
    assert |pre| == 0 ==> s[0] == t[0];
    assert |pre| > 0 ==> s[0] == pre[0];
    forall i | 0 <= i < |s|
      ensures s[i] != 'c' && s[i] != 'C' && s[i] != ',' && s[i] != '-' && s[i] != '\U{2013}'
    {
      if i < |pre| { assert s[i] == pre[i]; } else { assert s[i] == t[i - |pre|]; }
    }
  }

  /** The runs of `pre + d` are exactly `[d]`. */
  lemma PrefixedDecimalRuns(pre: string, d: Decimal)
    requires NeutralPrefix(pre) && ValidDecimal(d)
    ensures NumberRuns(pre + DecimalText(d)) == [d]
  {
    var t := DecimalText(d);
    var s := pre + t;
    DecimalTextShape(d);
    assert forall j :: 0 <= j < |pre| ==> s[j] == pre[j];
    SkipNonDigits(s, 0, |pre|);
    assert s[|pre|..] == t;
    LastRun(s, |pre|, d);
  }

  /** A rendered decimal that ends the text is its last run. */
  lemma LastRun(s: string, p: nat, d: Decimal)
    requires ValidDecimal(d) && p <= |s| && s[p..] == DecimalText(d)
    ensures NumberRunsFrom(s, p) == [d]
  {
    var t := DecimalText(d);
    DecimalTextShape(d);
    assert s[p..p + |t|] == t;
    RunAtDecimal(s, p, d);
    assert IsDigit(s[p]) by { assert s[p] == t[0]; }
  }

  /** A single rendered price `pre + d` normalises to itself, with `d`'s
      value, no range and no unavailability. */
  lemma SinglePriceRoundTrip(pre: string, d: Decimal)
    requires NeutralPrefix(pre) && ValidDecimal(d)
    requires DecimalValue(d) < DoubleOverflow
    ensures NormalizePriceText(pre + DecimalText(d))
         == PriceInfo(pre + DecimalText(d), Some(DecimalValue(d)), false, false)
  {
    var s := pre + DecimalText(d);
    PrefixedDecimalPlain(pre, d);
    PlainPriceText(s);
    PrefixedDecimalRuns(pre, d);
    NormalizePriceTextSpec(s);
  }

  /** `pre + lo + mid + hi` is canonical, has a dash, and is free of `c`,
      `C` and `,`. */
  lemma RangeTextPlain(pre: string, lo: Decimal, mid: string, hi: Decimal)
    requires NeutralPrefix(pre) && ValidDecimal(lo) && ValidDecimal(hi)
    requires NeutralText(mid) && HasRangeDash(mid)
    ensures var s := pre + DecimalText(lo) + mid + DecimalText(hi);
      Canonical(s) && HasRangeDash(s) && NoCentsOrCommas(s)
  {
    var a := DecimalText(lo);
    var b := DecimalText(hi);
    PrefixedDecimalPlain(pre, lo);
    DecimalTextShape(hi);
    RangeTextCanonical(pre + a, mid, b);
    NoCentsOrCommasConcat(pre + a, mid);
    NoCentsOrCommasConcat(pre + a + mid, b);
    DashKept(pre + a, mid, b);
  }

  /** A dash in the middle text is a dash of the whole. */
  lemma DashKept(u: string, mid: string, b: string)
    requires HasRangeDash(mid)
    ensures HasRangeDash(u + mid + b)
  {
    var k :| 0 <= k < |mid| && (mid[k] == '-' || mid[k] == '\U{2013}');
    assert (u + mid + b)[|u| + k] == mid[k];
  }

  /** A canonical text, single-spaced middle text and a digit-led,
      digit-ended number glue into a canonical text. */
  lemma RangeTextCanonical(u: string, mid: string, b: string)
    requires Canonical(u) && |u| > 0 && SingleSpaced(mid) && SingleSpaced(b)
    requires |b| > 0 && IsDigit(b[0]) && IsDigit(b[|b| - 1])
    ensures Canonical(u + mid + b)
  {
    SingleSpacedConcat(u, mid);
    SingleSpacedConcat(u + mid, b);
    assert (u + mid + b)[|u + mid + b| - 1] == b[|b| - 1];
    assert (u + mid + b)[0] == u[0];
  }

  /** Neither part has `c`, `C` or `,`, so neither has their concatenation. */
  lemma NoCentsOrCommasConcat(a: string, b: string)
    requires NoCentsOrCommas(a) && NoCentsOrCommas(b)
    ensures NoCentsOrCommas(a + b)
  {
    forall i | 0 <= i < |a + b| ensures (a + b)[i] != 'c' && (a + b)[i] != 'C' && (a + b)[i] != ',' {
      if i < |a| { assert (a + b)[i] == a[i]; } else { assert (a + b)[i] == b[i - |a|]; }
    }
  }

  /** Runs of a text whose first digit starts a rendered `lo` that is
      followed, after a separator, by another digit. */
  lemma RunsOfTwo(s: string, p: nat, lo: Decimal, q: nat)
    requires ValidDecimal(lo) && OccursAt(s, DecimalText(lo), p)
    requires forall j :: 0 <= j < p ==> !IsDigit(s[j])
    requires p + |DecimalText(lo)| <= q < |s| && IsDigit(s[q])
    requires !IsDigit(s[p + |DecimalText(lo)|]) && s[p + |DecimalText(lo)|] != '.'
    ensures |NumberRuns(s)| >= 2 && NumberRuns(s)[0] == lo
  {
    var t := DecimalText(lo);
    SkipNonDigits(s, 0, p);
    RunAtDecimal(s, p, lo);
    assert IsDigit(s[p]) by { DecimalTextShape(lo); assert s[p] == t[0]; }
    RunsNonEmpty(s, p + |t|, q);
  }

  /** The runs of `pre + lo + mid + hi` start with `lo` and number at
      least two. */
  lemma RangeTextRuns(pre: string, lo: Decimal, mid: string, hi: Decimal)
    requires NeutralPrefix(pre) && ValidDecimal(lo) && ValidDecimal(hi)
    requires NeutralText(mid) && |mid| > 0 && mid[0] != '.'
    ensures var runs := NumberRuns(pre + DecimalText(lo) + mid + DecimalText(hi));
      |runs| >= 2 && runs[0] == lo
  {
    var a := DecimalText(lo);
    var b := DecimalText(hi);
    var s := pre + a + mid + b;
    DecimalTextShape(hi);
    var rest := |pre| + |a|;
    forall j | 0 <= j < |pre| ensures !IsDigit(s[j]) { assert s[j] == pre[j]; }
    assert s[|pre|..rest] == a;
    assert s[rest] == mid[0];
    assert s[rest + |mid|] == b[0];
    RunsOfTwo(s, |pre|, lo, rest + |mid|);
  }

  /** A rendered range `pre + lo + mid + hi` with a dash in `mid` normalises
      to itself, as a range whose number is the low end. */
  lemma RangePriceRoundTrip(pre: string, lo: Decimal, mid: string, hi: Decimal)
    requires NeutralPrefix(pre) && ValidDecimal(lo) && ValidDecimal(hi)
    requires NeutralText(mid) && HasRangeDash(mid) && |mid| > 0 && mid[0] != '.'
    requires DecimalValue(lo) < DoubleOverflow
    ensures var s := pre + DecimalText(lo) + mid + DecimalText(hi);
      NormalizePriceText(s) == PriceInfo(s, Some(DecimalValue(lo)), true, false)
  {
    var s := pre + DecimalText(lo) + mid + DecimalText(hi);
    RangeTextPlain(pre, lo, mid, hi);
    PlainPriceText(s);
    RangeTextRuns(pre, lo, mid, hi);
    NormalizePriceTextSpec(s);
  }

  /** The composed probe's output reads back as the decimal it was built
      from, when the symbol is a neutral prefix. */
  lemma ComposedPriceRoundTrip(whole: string, frac: string, sym: string)
    requires |whole| > 0 && AllDigits(whole) && AllDigits(frac) && NeutralPrefix(sym)
    requires DecimalValue(Decimal(whole, frac)) < DoubleOverflow
    ensures PriceProbes.ComposedPrice(whole, frac, sym) == sym + DecimalText(Decimal(whole, frac))
    ensures NormalizePriceText(PriceProbes.ComposedPrice(whole, frac, sym))
         == PriceInfo(sym + DecimalText(Decimal(whole, frac)), Some(DecimalValue(Decimal(whole, frac))), false, false)
  {
    ComposedIsRendered(whole, frac, sym);
    SinglePriceRoundTrip(sym, Decimal(whole, frac));
  }

  /** With a neutral symbol the composed text is the symbol and the
      rendered decimal, with nothing to trim. */
  lemma ComposedIsRendered(whole: string, frac: string, sym: string)
    requires |whole| > 0 && AllDigits(whole) && AllDigits(frac) && NeutralPrefix(sym)
    ensures PriceProbes.ComposedPrice(whole, frac, sym) == sym + DecimalText(Decimal(whole, frac))
  {
    var d := Decimal(whole, frac);
    var t := DecimalText(d);
    var s := sym + t;
    DecimalTextShape(d);
    assert IsTrimmed(s) by {
      assert s[|s| - 1] == t[|t| - 1];
      assert |sym| == 0 ==> s[0] == t[0];
      assert |sym| > 0 ==> s[0] == sym[0];
    }
    if |frac| > 0 {
      assert sym + whole + "." + frac == s;
    } else {
      assert sym + whole == s;
    }
  }

  /** A JSON-LD single price rendered with its currency reads back as the
      decimal's value. */
  lemma LdSingleRoundTrip(cur: string, d: Decimal)
    requires |cur| > 0 && NeutralPrefix(cur) && !IsSpace(cur[|cur| - 1])
    requires ValidDecimal(d) && DecimalValue(d) < DoubleOverflow
    ensures NormalizePriceText(LdPrice.RenderPick(LdPrice.SinglePick(Some(cur), DecimalText(d)))).numeric
         == Some(DecimalValue(d))
  {
    var pre := cur + " ";
    assert SingleSpaced(" ");
    SingleSpacedConcat(cur, " ");
    assert NeutralPrefix(pre) by {
      assert pre[0] == cur[0];
      assert forall i :: 0 <= i < |pre| ==> pre[i] == (if i < |cur| then cur[i] else ' ');
    }
    assert cur + " " + DecimalText(d) == pre + DecimalText(d);
    SinglePriceRoundTrip(pre, d);
  }

  /** A JSON-LD range rendered without a currency reads back as a range
      whose number is the low end. */
  lemma LdRangeRoundTrip(lo: Decimal, hi: Decimal)
    requires ValidDecimal(lo) && ValidDecimal(hi) && DecimalValue(lo) < DoubleOverflow
    ensures var r := NormalizePriceText(LdPrice.RenderPick(LdPrice.RangePick(None, DecimalText(lo), DecimalText(hi))));
      r.isRange && r.numeric == Some(DecimalValue(lo)) && !r.isUnavailable
  {
    var mid := " - ";
    assert SingleSpaced(mid);
    assert NeutralText(mid);
    assert HasRangeDash(mid) by { assert mid[1] == '-'; }
    assert "" + DecimalText(lo) + mid + DecimalText(hi) == DecimalText(lo) + " - " + DecimalText(hi);
    RangePriceRoundTrip("", lo, mid, hi);
  }
}

=== FILE: savedlist.dfy ===
/** The saved-items list of the popup: the key an item is saved under, the
    save button's insert-or-replace with the free-plan cap (popup.js:786-815),
    removing one item (popup.js:648-658), clearing the list (popup.js:684-688)
    and the guards of the compare view (popup.js:508-518). */
module SavedList {
  import opened Wrappers
  import opened Text
  import opened Lists

  const FREE_SAVED_LIMIT: nat := 10
  const MAX_COMPARE: nat := 5

  /** One stored entry of `savedItems`. Missing optional numbers are `None`
      (the source stores `null`). */
  datatype SavedItem = SavedItem(
    key: string,
    asin: string,
    title: string,
    selectedVariant: string,
    price: string,
    priceIsRange: bool,
    rating: string,
    reviewCountText: string,
    bsr: string,
    opportunityScore: Option<int>,
    seoScore: Option<int>,
    url: string,
    savedAt: int)

  /** The product fields the save button reads; absent strings are "". */
  datatype Product = Product(
    asin: string,
    title: string,
    selectedVariant: string,
    price: string,
    priceIsRange: bool,
    rating: string,
    reviewCountText: string,
    bsr: string,
    opportunityScore: Option<int>,
    seoScore: Option<int>)

  /** Free users are limited unless the stored `isPro` or `devMode` is set. */
  predicate IsPro(isPro: bool, devMode: bool) {
    isPro || devMode
  }

  // ----------------------------------------------------------------- keys

  /** `product.asin || 'noasin'`. */
  function KeyAsin(asin: string): string {
    if asin == "" then "noasin" else asin
  }

  /** `${asin || 'noasin'}::${variant || ''}::${url || ''}`. */
  function ItemKey(asin: string, variant: string, url: string): string {
    KeyAsin(asin) + "::" + variant + "::" + url
  }

  /** The first `::` at or after `i`. */
  function FindSep(s: string, i: nat): (r: Option<nat>)
    requires i <= |s|
    ensures r.Some? ==> i <= r.value && OccursAt(s, "::", r.value)
    decreases |s| - i
  {
    if OccursAt(s, "::", i) then Some(i)
    else if i == |s| then None
    else FindSep(s, i + 1)
  }

  /** Splits a key at its first two `::` separators. */
  function SplitKey(k: string): Option<(string, string, string)> {
    match FindSep(k, 0)
    case None => None
    case Some(i) =>
      var rest := k[i + 2..];
      match FindSep(rest, 0)
      case None => None
      case Some(j) => Some((k[..i], rest[..j], rest[j + 2..]))
  }

  /** A key part the separator search cannot stop inside: it holds no
      `::` and does not end in `:`. Labelled variants such as
      "Color: Red | Size: M" qualify. */
  predicate SepFree(a: string) {
    !Contains(a, "::") && (a == "" || a[|a| - 1] != ':')
  }

  /** A separator is found right after a separator-free part. */
  lemma {:induction false} FindSepAfter(a: string, rest: string, i: nat)
    requires SepFree(a) && i <= |a|
    ensures FindSep(a + "::" + rest, i) == Some(|a|)
    decreases |a| - i
  {
    var s := a + "::" + rest;
    assert s[|a|..|a| + 2] == "::";
    if i < |a| {
      NoSepInside(a, rest, i);
      FindSepAfter(a, rest, i + 1);
    }
  }

  /** No separator starts inside a separator-free part. */
  lemma NoSepInside(a: string, rest: string, i: nat)
    requires SepFree(a) && i < |a|
    ensures !OccursAt(a + "::" + rest, "::", i)
  {
    var s := a + "::" + rest;
    if i + 1 < |a| {
      assert s[i..i + 2] == a[i..i + 2];
      assert !OccursAt(a, "::", i);
    } else {
      assert s[i..i + 2][0] == a[|a| - 1];
    }
  }

  /** The placeholder ASIN is separator-free. */
  lemma NoAsinSepFree()
    ensures SepFree("noasin")
  {
    var a := "noasin";
    forall i: nat | i <= |a| ensures !OccursAt(a, "::", i) {
      if i + 2 <= |a| {
        assert a[i..i + 2][0] == a[i] != ':';
      }
    }
  }

  /** The key gives back the parts it was built from, as long as the ASIN
      and the variant hold no `::` and do not end in `:` (the URL may hold
      anything). */
  lemma KeyRoundTrip(asin: string, variant: string, url: string)
    requires SepFree(asin) && SepFree(variant)
    ensures SplitKey(ItemKey(asin, variant, url)) == Some((KeyAsin(asin), variant, url))
  {
    var a := KeyAsin(asin);
    if asin == "" { NoAsinSepFree(); }
    var k := ItemKey(asin, variant, url);
    var rest := variant + "::" + url;
    assert k == a + "::" + rest;
    FindSepAfter(a, rest, 0);
    assert k[|a| + 2..] == rest;
    FindSepAfter(variant, url, 0);
    assert k[..|a|] == a;
    assert rest[..|variant|] == variant && rest[|variant| + 2..] == url;
  }

  /** Two saves share a key only when they name the same product page:
      same ASIN (an empty ASIN counting as "noasin"), variant and URL. */
  lemma KeyInjective(a1: string, v1: string, u1: string, a2: string, v2: string, u2: string)
    requires SepFree(a1) && SepFree(v1) && SepFree(a2) && SepFree(v2)
    requires ItemKey(a1, v1, u1) == ItemKey(a2, v2, u2)
    ensures KeyAsin(a1) == KeyAsin(a2) && v1 == v2 && u1 == u2
  {
    KeyRoundTrip(a1, v1, u1);
    KeyRoundTrip(a2, v2, u2);
  }

  /** Without the restriction the key is ambiguous: a variant ending in
      `:` and a URL starting with `:` can trade that colon. */
  lemma KeyAmbiguous()
    ensures ItemKey("B0", "x:", "u") == ItemKey("B0", "x", ":u")
    ensures !SepFree("x:")
  {
  }

  /** The entry the save button builds from the product, the tab URL and
      the clock reading `now` (`Date.now()`). */
  function MakeItem(p: Product, url: string, now: int): (r: SavedItem)
    ensures r.key == ItemKey(p.asin, p.selectedVariant, url)
  {
    SavedItem(ItemKey(p.asin, p.selectedVariant, url), p.asin, p.title, p.selectedVariant,
              p.price, p.priceIsRange, p.rating, p.reviewCountText, p.bsr,
              p.opportunityScore, p.seoScore, url, now)
  }

  // ----------------------------------------------------------------- save

  predicate HasKey(saved: seq<SavedItem>, k: string) {
    exists i :: 0 <= i < |saved| && saved[i].key == k
  }

  predicate UniqueKeys(saved: seq<SavedItem>) {
    forall i, j :: 0 <= i < j < |saved| ==> saved[i].key != saved[j].key
  }

  /** `saved.map(x => x.key === key ? item : x)`. */
  function ReplaceKey(saved: seq<SavedItem>, item: SavedItem): (r: seq<SavedItem>)
    ensures |r| == |saved|
    ensures forall i :: 0 <= i < |r| ==> r[i] == if saved[i].key == item.key then item else saved[i]
  {
    if |saved| == 0 then []
    else [if saved[0].key == item.key then item else saved[0]] + ReplaceKey(saved[1..], item)
  }

  datatype SaveOutcome = Saved | Updated
  datatype SaveError = SavedLimitReached

  /** The save button. The free-plan cap is checked before the key lookup,
      so a free user at the cap cannot even update an entry already saved. */
  function Save(saved: seq<SavedItem>, pro: bool, item: SavedItem): (r: Result<(seq<SavedItem>, SaveOutcome), SaveError>)
    ensures r.Err? <==> !pro && |saved| >= FREE_SAVED_LIMIT
    ensures r.Ok? && !pro ==> |r.value.0| <= FREE_SAVED_LIMIT
    ensures r.Ok? ==> (r.value.1 == Updated <==> HasKey(saved, item.key))
    ensures r.Ok? && r.value.1 == Updated ==>
      && |r.value.0| == |saved|
      && forall i :: 0 <= i < |saved| ==> r.value.0[i] == if saved[i].key == item.key then item else saved[i]
    ensures r.Ok? && r.value.1 == Saved ==> r.value.0 == [item] + saved
  {
    if !pro && |saved| >= FREE_SAVED_LIMIT then Err(SavedLimitReached)
    else if HasKey(saved, item.key) then Ok((ReplaceKey(saved, item), Updated))
    else Ok(([item] + saved, Saved))
  }

  /** After a save the item is the one entry under its key, and the list
      still has one entry per key. */
  lemma SaveKeepsKeysUnique(saved: seq<SavedItem>, pro: bool, item: SavedItem)
    requires UniqueKeys(saved) && Save(saved, pro, item).Ok?
    ensures var next := Save(saved, pro, item).value.0;
      && UniqueKeys(next)
      && exists i :: 0 <= i < |next| && next[i] == item
  {
    if HasKey(saved, item.key) {
      var i :| 0 <= i < |saved| && saved[i].key == item.key;
      ReplaceUnique(saved, item);
      assert Save(saved, pro, item).value.0 == ReplaceKey(saved, item);
      assert ReplaceKey(saved, item)[i] == item;
    } else {
      PrependUnique(saved, item);
      assert Save(saved, pro, item).value.0 == [item] + saved;
      assert ([item] + saved)[0] == item;
    }
  }

  lemma ReplaceUnique(saved: seq<SavedItem>, item: SavedItem)
    requires UniqueKeys(saved)
    ensures UniqueKeys(ReplaceKey(saved, item))
  {
    var next := ReplaceKey(saved, item);
    forall i, j | 0 <= i < j < |next| ensures next[i].key != next[j].key {
      assert next[i].key == saved[i].key && next[j].key == saved[j].key;
    }
  }

  lemma PrependUnique(saved: seq<SavedItem>, item: SavedItem)
    requires UniqueKeys(saved) && !HasKey(saved, item.key)
    ensures UniqueKeys([item] + saved)
  {
    var next := [item] + saved;
    forall i, j | 0 <= i < j < |next| ensures next[i].key != next[j].key {
      assert next[j] == saved[j - 1];
      if i > 0 {
        assert next[i] == saved[i - 1];
      }
    }
  }

  // ------------------------------------------------------- remove, clear

  /** The remove button: `saved.filter(x => x.key !== key)`. */
  function Remove(saved: seq<SavedItem>, k: string): (r: seq<SavedItem>)
    ensures !HasKey(r, k)
  {
    Filter(saved, (x: SavedItem) => x.key != k)
  }

  /** Removing keeps every entry under another key, in order. */
  lemma RemoveKeepsOthers(saved: seq<SavedItem>, k: string)
    ensures forall x :: x in Remove(saved, k) <==> x in saved && x.key != k
  {
    FilterMembers(saved, (x: SavedItem) => x.key != k);
  }

  /** Removing a key nobody has changes nothing. */
  lemma RemoveAbsent(saved: seq<SavedItem>, k: string)
    requires !HasKey(saved, k)
    ensures Remove(saved, k) == saved
  {
    FilterAll(saved, (x: SavedItem) => x.key != k);
  }

  /** Saving a new item and removing it again gives the list back. */
  lemma SaveThenRemove(saved: seq<SavedItem>, pro: bool, item: SavedItem)
    requires Save(saved, pro, item).Ok? && !HasKey(saved, item.key)
    ensures Remove(Save(saved, pro, item).value.0, item.key) == saved
  {
    var p := (x: SavedItem) => x.key != item.key;
    FilterAppend([item], saved, p);
    RemoveAbsent(saved, item.key);
  }

  /** The clear button stores the empty list. */
  function Clear(saved: seq<SavedItem>): (r: seq<SavedItem>)
    ensures |r| == 0
  {
    []
  }

  /** After clearing, even a free user can save again, as a new entry. */
  lemma SaveAfterClear(saved: seq<SavedItem>, pro: bool, item: SavedItem)
    ensures Save(Clear(saved), pro, item) == Ok(([item], Saved))
  {
    assert [item] + Clear(saved) == [item];
  }

  // -------------------------------------------------------------- compare

  datatype CompareError = ProOnly | NoneSelected | TooMany | NotFound

  /** `openCompareFromSelection`: Pro only, one to five ticked keys, and
      the saved entries whose key is ticked, in list order. */
  function CompareSelection(pro: bool, keys: seq<string>, saved: seq<SavedItem>): (r: Result<seq<SavedItem>, CompareError>)
    ensures r.Ok? ==> pro && 1 <= |keys| <= MAX_COMPARE && |r.value| >= 1
    ensures r.Ok? ==> forall i :: 0 <= i < |r.value| ==> r.value[i].key in keys
    ensures r.Ok? ==> forall x :: x in r.value <==> x in saved && x.key in keys
    ensures r.Ok? ==> r.value == Filter(saved, (x: SavedItem) => x.key in keys)
    ensures !pro ==> r == Err(ProOnly)
    ensures pro && |keys| == 0 ==> r == Err(NoneSelected)
    ensures pro && |keys| > MAX_COMPARE ==> r == Err(TooMany)
    ensures r == Err(NotFound) <==>
      pro && 1 <= |keys| <= MAX_COMPARE && forall i :: 0 <= i < |saved| ==> saved[i].key !in keys
  {
    if !pro then Err(ProOnly)
    else if |keys| == 0 then Err(NoneSelected)
    else if |keys| > MAX_COMPARE then Err(TooMany)
    else
      var selected := Filter(saved, (x: SavedItem) => x.key in keys);
      FilterMembers(saved, (x: SavedItem) => x.key in keys);
      assert |selected| == 0 <==> forall i :: 0 <= i < |saved| ==> saved[i].key !in keys by {
        if |selected| > 0 { assert selected[0] in selected; }
        forall i | 0 <= i < |saved| && saved[i].key in keys ensures |selected| > 0 {
          assert saved[i] in saved;
        }
      }
      if |selected| == 0 then Err(NotFound) else Ok(selected)
  }

  /** With one entry per key the compare view never shows more items than
      were ticked, hence at most five. */
  lemma CompareAtMostTicked(pro: bool, keys: seq<string>, saved: seq<SavedItem>)
    requires UniqueKeys(saved) && CompareSelection(pro, keys, saved).Ok?
    ensures |CompareSelection(pro, keys, saved).value| <= |keys| <= MAX_COMPARE
  {
    var ks := set k | k in keys;
    SelectBound(saved, ks);
    FilterSame(saved, (x: SavedItem) => x.key in keys, (x: SavedItem) => x.key in ks);
    SetSizeAtMostLength(keys);
  }

  /** Entries under distinct keys drawn from `ks` number at most `|ks|`. */
  lemma {:induction false} SelectBound(saved: seq<SavedItem>, ks: set<string>)
    requires UniqueKeys(saved)
    ensures |Filter(saved, (x: SavedItem) => x.key in ks)| <= |ks|
  {
    if |saved| > 0 {
      var h := saved[0];
      var tail := saved[1..];
      var rest := ks - {h.key};
      assert UniqueKeys(tail) by {
        forall i, j | 0 <= i < j < |tail| ensures tail[i].key != tail[j].key {
          assert tail[i] == saved[i + 1] && tail[j] == saved[j + 1];
        }
      }
      SelectBound(tail, rest);
      forall i | 0 <= i < |tail| ensures (tail[i].key in ks) == (tail[i].key in rest) {
        assert tail[i] == saved[i + 1];
      }
      FilterSame(tail, (x: SavedItem) => x.key in ks, (x: SavedItem) => x.key in rest);
      if h.key in ks {
        assert |rest| == |ks| - 1;
      } else {
        assert rest == ks;
      }
    }
  }
}

=== FILE: scores.dfy ===
/** The popup's two additive scores: `seoScore` (popup.js:178-215) and
    `opportunityScore` (popup.js:217-246). Each adds one banded amount per
    criterion and pushes one note per criterion; the final
    `Math.max(1, Math.min(100, Math.round(score)))` never changes the sum,
    because every sum already lies inside [1, 100]. */
module Scores {
  import opened Wrappers
  import opened Text
  import opened JsNumber
  import opened Lists
  import opened TextParsers

  datatype ScoreCard = ScoreCard(score: int, notes: seq<string>)

  /** The points one criterion adds and the note it pushes. */
  datatype Band = Band(points: int, note: string)

  /** `Math.max(1, Math.min(100, Math.round(x)))` on an integer sum. */
  function Clamp(x: int): (r: int)
    ensures 1 <= r <= 100
    ensures 1 <= x <= 100 ==> r == x
  {
    if x > 100 then 100 else if x < 1 then 1 else x
  }

  // ------------------------------------------------------------- seoScore

  /** Title-length band on the trimmed title. */
  function TitleBand(len: nat): (r: Band)
    ensures 5 <= r.points <= 25
  {
    if len >= 120 then Band(25, "Good title length (120+ chars).")
    else if len >= 80 then Band(18, "Decent title length (80+ chars).")
    else if len >= 50 then Band(10, "Short title (add key attributes).")
    else Band(5, "Very short title.")
  }

  function BrandBand(brand: string): (r: Band)
    ensures r.points == (if |Trim(brand)| > 0 then 10 else 0)
  {
    if |Trim(brand)| > 0 then Band(10, "Brand detected.") else Band(0, "Brand not detected.")
  }

  /** Bullet-count band. The middle note carries the characters the source
      file holds between "3" and "4". */
  function BulletBand(n: nat): (r: Band)
    ensures 0 <= r.points <= 20
  {
    if n >= 5 then Band(20, "5+ bullet points detected.")
    else if n >= 3 then Band(12, "3\U{201A}\U{00C4}\U{00EC}4 bullet points detected.")
    else if n > 0 then Band(6, "Few bullet points detected.")
    else Band(0, "No bullet points detected.")
  }

  /** First index at or after `i` holding whitespace, or the end. */
  function WordEnd(s: string, i: nat): (e: nat)
    requires i <= |s|
    ensures i <= e <= |s|
    ensures forall k :: i <= k < e ==> !IsSpace(s[k])
    ensures e == |s| || IsSpace(s[e])
    decreases |s| - i
  {
    if i == |s| || IsSpace(s[i]) then i else WordEnd(s, i + 1)
  }

  /** `s.split(/\s+/)` without the empty strings a leading or trailing
      whitespace run produces: the maximal runs of non-whitespace. */
  function Words(s: string): seq<string>
    decreases |s|
  {
    var t := TrimStart(s);
    if |t| == 0 then []
    else
      var e := WordEnd(t, 0);
      [t[..e]] + Words(t[e..])
  }

  function Concat(ws: seq<string>): string {
    if |ws| == 0 then "" else ws[0] + Concat(ws[1..])
  }

  lemma {:induction false} SqueezeNoSpace(w: string)
    requires HasNoSpace(w)
    ensures Squeeze(w) == w
  {
    if |w| > 0 {
      SqueezeNoSpace(w[1..]);
      assert w == [w[0]] + w[1..];
    }
  }

  /** The words are exactly the visible characters of the text, cut at
      whitespace: nothing is lost or invented by the split. */
  lemma {:induction false} WordsCover(s: string)
    ensures Concat(Words(s)) == Squeeze(s)
    decreases |s|, 1
  {
    SqueezeTrimStart(s);
    if |TrimStart(s)| > 0 {
      WordsCoverStep(s);
    }
  }

  /** The step of `WordsCover` past the first word. */
  lemma {:induction false} WordsCoverStep(s: string)
    requires |TrimStart(s)| > 0
    ensures Concat(Words(s)) == Squeeze(TrimStart(s))
    decreases |s|, 0
  {
    var t := TrimStart(s);
    var e := WordsStep(s);
    WordsCover(t[e..]);
    SqueezeSplit(t, e);
  }

  /** One step of the split: the first word, then the words of the rest. */
  lemma WordsStep(s: string) returns (e: nat)
    requires |TrimStart(s)| > 0
    ensures e == WordEnd(TrimStart(s), 0) && 0 < e <= |TrimStart(s)|
    ensures Concat(Words(s)) == TrimStart(s)[..e] + Concat(Words(TrimStart(s)[e..]))
  {
    var t := TrimStart(s);
    e := WordEnd(t, 0);
    var ws := Words(s);
    assert ws == [t[..e]] + Words(t[e..]);
    assert ws[1..] == Words(t[e..]);
  }

  lemma {:induction false} SqueezeSplit(t: string, e: nat)
    requires e <= |t| && forall k :: 0 <= k < e ==> !IsSpace(t[k])
    ensures Squeeze(t) == t[..e] + Squeeze(t[e..])
  {
    var w, rest := t[..e], t[e..];
    assert HasNoSpace(w) by {
      forall k | 0 <= k < |w| ensures !IsSpace(w[k]) { assert w[k] == t[k]; }
    }
    assert t == w + rest;
    calc {
      Squeeze(t);
      { SqueezeAppend(w, rest); }
      Squeeze(w) + Squeeze(rest);
      { SqueezeNoSpace(w); }
      w + Squeeze(rest);
    }
  }

  /** The words of the lower-cased title that are at least four long. */
  function KeywordCandidates(title: string): seq<string> {
    Filter(Words(Lower(title)), (w: string) => |w| >= 4)
  }

  /** Keyword-variety band for `u` distinct words among `n`:
      `u / n >= 0.75` is `4u >= 3n`, `u / n >= 0.6` is `5u >= 3n`, and no
      words counts as ratio 0. */
  function VarietyBand(n: nat, u: nat): (r: Band)
    ensures r.points == 6 || r.points == 12 || r.points == 20
    ensures n > 0 && u == n ==> r.points == 20
  {
    if n > 0 && 4 * u >= 3 * n then Band(20, "Good keyword variety.")
    else if n > 0 && 5 * u >= 3 * n then Band(12, "Moderate keyword variety.")
    else Band(6, "Title may be repetitive.")
  }

  const PackWords: seq<string> := ["pack", "pcs", "pieces", "count"]
  const UnitWords: seq<string> := ["inch", "in.", "cm", "mm", "oz", "lb", "kg"]
  const SizeWords: seq<string> := ["size", "small", "medium", "large", "xl", "xxl"]
  const ColorWords: seq<string> := ["color", "black", "white", "red", "blue", "green", "pink", "gray", "grey"]

  /** One of `words` occurs anywhere in `t`, ignoring ASCII case. */
  predicate AnyWordIn(t: string, words: seq<string>) {
    exists k :: 0 <= k < |words| && ContainsIgnoreCase(t, words[k])
  }

  /** `g\b` at `i`: a `g` or `G` not followed by a word character. */
  predicate GramAt(t: string, i: nat) {
    i < |t| && FoldChar(t[i]) == 'g' && (i + 1 == |t| || !IsWordChar(t[i + 1]))
  }

  /** The four attribute regular expressions, any of which may match. */
  predicate HasAttributes(t: string) {
    || AnyWordIn(t, PackWords)
    || AnyWordIn(t, UnitWords) || (exists i: nat | i < |t| :: GramAt(t, i))
    || AnyWordIn(t, SizeWords)
    || AnyWordIn(t, ColorWords)
  }

  function AttributeBand(t: string): (r: Band)
    ensures r.points == (if HasAttributes(t) then 15 else 6)
  {
    if HasAttributes(t) then Band(15, "Attributes detected (size/color/units).")
    else Band(6, "Few attributes detected.")
  }

  /** The three bands read from the title alone: length, keyword variety
      and attributes, all on the trimmed title. */
  function TitleBands(title: string): (r: seq<Band>)
    ensures |r| == 3
    ensures 5 <= r[0].points <= 25
    ensures r[1].points in {6, 12, 20} && r[2].points in {6, 15}
  {
    var t := Trim(title);
    var ws := KeywordCandidates(t);
    [TitleBand(|t|), VarietyBand(|ws|, DistinctCount(ws)), AttributeBand(t)]
  }

  /** `seoScore(title, bullets, brand)`; `bullets` is None when it is not
      an array. */
  function SeoScore(title: string, bullets: Option<seq<string>>, brand: string): (r: ScoreCard)
    ensures |r.notes| == 5
    ensures 17 <= r.score <= 90
  {
    var fromTitle := TitleBands(title);
    var named := BrandBand(brand);
    var listed := BulletBand(|bullets.GetOr([])|);
    ScoreCard(Clamp(fromTitle[0].points + named.points + listed.points + fromTitle[1].points + fromTitle[2].points),
              [fromTitle[0].note, named.note, listed.note, fromTitle[1].note, fromTitle[2].note])
  }

  /** More bullets never lower the score. */
  lemma SeoBulletsMonotone(title: string, b1: Option<seq<string>>, b2: Option<seq<string>>, brand: string)
    requires |b1.GetOr([])| <= |b2.GetOr([])|
    ensures SeoScore(title, b1, brand).score <= SeoScore(title, b2, brand).score
  {
  }

  /** A brand adds exactly ten points, whatever else the listing has. */
  lemma {:induction false} SeoBrandBonus(title: string, bullets: Option<seq<string>>, brand: string)
    requires |Trim(brand)| > 0
    ensures SeoScore(title, bullets, brand).score == SeoScore(title, bullets, "").score + 10
  {
    var tb := TitleBands(title);
    var listed := BulletBand(|bullets.GetOr([])|).points;
    var rest := tb[0].points + listed + tb[1].points + tb[2].points;
    assert 17 <= rest <= 80;
    assert Trim("") == "";
    assert BrandBand(brand) == Band(10, "Brand detected.");
    assert SeoScore(title, bullets, "").score == Clamp(rest);
    assert SeoScore(title, bullets, brand).score == Clamp(rest + 10);
  }

  /** ... and says so in the second note. */
  lemma SeoBrandNote(title: string, bullets: Option<seq<string>>, brand: string)
    requires |Trim(brand)| > 0
    ensures SeoScore(title, bullets, brand).notes[1] == "Brand detected."
  {
    assert BrandBand(brand) == Band(10, "Brand detected.");
  }

  /** A title whose long words are all different earns the top variety
      band. */
  lemma {:induction false} SeoDistinctWords(title: string, bullets: Option<seq<string>>, brand: string)
    requires |KeywordCandidates(Trim(title))| > 0
    requires DistinctCount(KeywordCandidates(Trim(title))) == |KeywordCandidates(Trim(title))|
    ensures SeoScore(title, bullets, brand).notes[3] == "Good keyword variety."
  {
    var ws := KeywordCandidates(Trim(title));
    assert VarietyBand(|ws|, DistinctCount(ws)) == Band(20, "Good keyword variety.");
    assert TitleBands(title)[1] == VarietyBand(|ws|, DistinctCount(ws));
  }

  // ----------------------------------------------------- opportunityScore

  /** `parseFloat(safeText(rating)) || 0`: NaN and zero both become 0. */
  function RatingNumber(rating: string): (r: JsNum)
    ensures !r.IsNaN()
  {
    var x := ParseFloat(rating);
    if x.NaN? || x == Finite(0.0) then Finite(0.0) else x
  }

  /** `x >= bound` for a number that is not NaN. */
  predicate AtLeast(x: JsNum, bound: real) {
    match x
    case Finite(v) => v >= bound
    case Infinite(positive) => positive
    case NaN => false
  }

  function RatingBand(x: JsNum): (r: Band)
    ensures r.points in {8, 15, 22, 28}
  {
    if AtLeast(x, 4.5) then Band(28, "Strong rating (4.5+).")
    else if AtLeast(x, 4.2) then Band(22, "Good rating (4.2+).")
    else if AtLeast(x, 3.9) then Band(15, "Okay rating (3.9+).")
    else Band(8, "Low rating risk.")
  }

  function ReviewBand(reviews: nat): (r: Band)
    ensures r.points in {10, 20, 30}
  {
    if reviews == 0 then Band(10, "Review count unknown/0.")
    else if reviews < 200 then Band(30, "Low competition (<200 reviews).")
    else if reviews < 800 then Band(20, "Medium competition (200\U{201A}\U{00C4}\U{00EC}800).")
    else Band(10, "High competition (800+).")
  }

  function BsrBand(bsr: Option<nat>): (r: Band)
    ensures bsr.None? <==> r.points == 8
    ensures r.points in {8, 10, 18, 28, 35}
  {
    match bsr
    case None => Band(8, "BSR not found.")
    case Some(n) =>
      if n < 5000 then Band(35, "Very strong demand (BSR < 5k).")
      else if n < 20000 then Band(28, "Strong demand (BSR < 20k).")
      else if n < 50000 then Band(18, "Moderate demand (BSR < 50k).")
      else Band(10, "Lower demand (BSR 50k+).")
  }

  /** `opportunityScore({rating, reviewCount, bsr})`. `reviewCount` is the
      parsed review count (None for NaN, which `|| 0` turns into 0); the
      rank is read with the same pattern `parseBsr` uses. */
  function OpportunityScore(rating: string, reviewCount: Option<nat>, bsr: string): (r: ScoreCard)
    ensures |r.notes| == 3
    ensures 26 <= r.score <= 93
  {
    var stars := RatingBand(RatingNumber(rating));
    var competition := ReviewBand(reviewCount.GetOr(0));
    var demand := BsrBand(ParseBsr(bsr));
    ScoreCard(Clamp(stars.points + competition.points + demand.points), [stars.note, competition.note, demand.note])
  }

  /** A better rating never lowers the score. */
  lemma OpportunityRatingMonotone(r1: string, r2: string, reviewCount: Option<nat>, bsr: string)
    requires NumLe(RatingNumber(r1), RatingNumber(r2))
    ensures OpportunityScore(r1, reviewCount, bsr).score <= OpportunityScore(r2, reviewCount, bsr).score
  {
  }

  /** A worse (larger) best-sellers rank never raises the score. */
  lemma OpportunityBsrMonotone(rating: string, reviewCount: Option<nat>, b1: string, b2: string)
    requires ParseBsr(b1).Some? && ParseBsr(b2).Some?
    requires ParseBsr(b1).value <= ParseBsr(b2).value
    ensures OpportunityScore(rating, reviewCount, b1).score >= OpportunityScore(rating, reviewCount, b2).score
  {
  }

  /** A missing rank scores below any rank at all. */
  lemma OpportunityMissingBsr(rating: string, reviewCount: Option<nat>, b1: string, b2: string)
    requires ParseBsr(b1).None? && ParseBsr(b2).Some?
    ensures OpportunityScore(rating, reviewCount, b1).score < OpportunityScore(rating, reviewCount, b2).score
  {
  }

  /** The rating is read from the head of the text only: "Rated 4.5"
      scores as a low rating although `parseRating` reads 4.5 from it. */
  lemma OpportunityReadsLeadingRating(reviewCount: Option<nat>, bsr: string)
    ensures OpportunityScore("Rated 4.5", reviewCount, bsr).notes[0] == "Low rating risk."
    ensures OpportunityScore("4.5 out of 5 stars", reviewCount, bsr).notes[0] == "Strong rating (4.5+)."
  {
    RatedTextNumber();
    StarsTextNumber();
  }

  lemma RatedTextNumber()
    ensures RatingNumber("Rated 4.5") == Finite(0.0)
  {
    TwoRatingReaders();
  }

  lemma StarsTextNumber()
    ensures RatingNumber("4.5 out of 5 stars") == Finite(4.5)
  {
    var d := Decimal("4", "5");
    assert DecimalText(d) + " out of 5 stars" == "4.5 out of 5 stars";
    ParseFloatDecimal(d, " out of 5 stars");
    FourPointFive();
    assert ParseFloat("4.5 out of 5 stars") == Finite(4.5);
  }
}

=== FILE: stablesort.dfy ===
/** A stable sort by key. JavaScript's `Array.prototype.sort` is stable,
    and every comparator the popup passes is a total preorder that compares
    two items through a key, so each sort call is this sort with the key
    the comparator reads (ascending; a descending comparator negates). */
module StableSort {

  /** Keys compare by tier first (used for "unparseable" placement), then
      by value. */
  datatype SortKey = SortKey(tier: int, value: real)

  predicate KeyLe(a: SortKey, b: SortKey) {
    a.tier < b.tier || (a.tier == b.tier && a.value <= b.value)
  }

  predicate SortedBy<T>(xs: seq<T>, key: T -> SortKey) {
    forall i, j :: 0 <= i < j < |xs| ==> KeyLe(key(xs[i]), key(xs[j]))
  }

  /** The elements of `xs` whose key is `k`, in order. */
  function KeyClass<T>(xs: seq<T>, key: T -> SortKey, k: SortKey): (r: seq<T>)
    ensures |r| <= |xs|
    ensures forall y :: y in r ==> y in xs && key(y) == k
  {
    if |xs| == 0 then []
    else (if key(xs[0]) == k then [xs[0]] else []) + KeyClass(xs[1..], key, k)
  }

  /** `x` placed before the first element whose key is not below its own. */
  function Insert<T>(x: T, xs: seq<T>, key: T -> SortKey): (r: seq<T>)
    ensures |r| == |xs| + 1
    ensures multiset(r) == multiset(xs) + multiset{x}
  {
    if |xs| == 0 || KeyLe(key(x), key(xs[0])) then [x] + xs
    else
      assert xs == [xs[0]] + xs[1..];
      [xs[0]] + Insert(x, xs[1..], key)
  }

  function Sort<T>(xs: seq<T>, key: T -> SortKey): (r: seq<T>)
    ensures |r| == |xs|
    ensures multiset(r) == multiset(xs)
  {
    if |xs| == 0 then []
    else
      assert xs == [xs[0]] + xs[1..];
      Insert(xs[0], Sort(xs[1..], key), key)
  }

  // ------------------------------------------------------------ sortedness

  lemma {:induction false} InsertSorted<T>(x: T, xs: seq<T>, key: T -> SortKey)
    requires SortedBy(xs, key)
    ensures SortedBy(Insert(x, xs, key), key)
    decreases |xs|
  {
    if |xs| == 0 || KeyLe(key(x), key(xs[0])) {
      var r := [x] + xs;
      forall i, j | 0 <= i < j < |r| ensures KeyLe(key(r[i]), key(r[j])) {
        if i > 0 { assert r[i] == xs[i - 1] && r[j] == xs[j - 1]; }
        else { assert r[j] == xs[j - 1]; assert KeyLe(key(xs[0]), key(xs[j - 1])) || j == 1; }
      }
    } else {
      var rest := Insert(x, xs[1..], key);
      InsertSorted(x, xs[1..], key);
      InsertMembers(x, xs[1..], key);
      var r := [xs[0]] + rest;
      forall i, j | 0 <= i < j < |r| ensures KeyLe(key(r[i]), key(r[j])) {
        if i > 0 {
          assert r[i] == rest[i - 1] && r[j] == rest[j - 1];
        } else {
          assert r[j] == rest[j - 1];
          assert rest[j - 1] in rest;
        }
      }
    }
  }

  /** Every element of an insertion is `x` or came from `xs`, and neither
      is below the head of a sorted `xs` when `x` was placed after it. */
  lemma InsertMembers<T>(x: T, xs: seq<T>, key: T -> SortKey)
    ensures forall y :: y in Insert(x, xs, key) ==> y == x || y in xs
  {
    var r := Insert(x, xs, key);
    forall y | y in r ensures y == x || y in xs {
      assert y in multiset(r);
    }
  }

  /** The sort orders its input by key. */
  lemma {:induction false} SortSorted<T>(xs: seq<T>, key: T -> SortKey)
    ensures SortedBy(Sort(xs, key), key)
  {
    if |xs| > 0 {
      SortSorted(xs[1..], key);
      InsertSorted(xs[0], Sort(xs[1..], key), key);
    }
  }

  // ------------------------------------------------------------- stability

  /** Inserting `x` puts it in front of the elements that share its key. */
  lemma {:induction false} InsertClass<T>(x: T, ys: seq<T>, key: T -> SortKey, k: SortKey)
    ensures KeyClass(Insert(x, ys, key), key, k)
         == (if key(x) == k then [x] else []) + KeyClass(ys, key, k)
    decreases |ys|
  {
    if |ys| == 0 || KeyLe(key(x), key(ys[0])) {
      assert ([x] + ys)[1..] == ys;
    } else {
      var rest := Insert(x, ys[1..], key);
      InsertClass(x, ys[1..], key, k);
      assert ([ys[0]] + rest)[1..] == rest;
      assert key(x) == k ==> key(ys[0]) != k;
    }
  }

  /** Stability: the elements sharing a key keep their input order. */
  lemma {:induction false} SortStable<T>(xs: seq<T>, key: T -> SortKey, k: SortKey)
    ensures KeyClass(Sort(xs, key), key, k) == KeyClass(xs, key, k)
  {
    if |xs| > 0 {
      SortStable(xs[1..], key, k);
      InsertClass(xs[0], Sort(xs[1..], key), key, k);
    }
  }

  // ------------------------------------------------------------------ head

  /** `xs[m]` has the least key, and every earlier element a larger one. */
  predicate IsFirstMin<T>(xs: seq<T>, key: T -> SortKey, m: nat) {
    && m < |xs|
    && (forall j :: 0 <= j < |xs| ==> KeyLe(key(xs[m]), key(xs[j])))
    && (forall j :: 0 <= j < m ==> !KeyLe(key(xs[j]), key(xs[m])))
  }

  /** The head of the sorted list is the first element with the least key. */
  lemma {:induction false} SortHead<T>(xs: seq<T>, key: T -> SortKey) returns (m: nat)
    requires |xs| > 0
    ensures IsFirstMin(xs, key, m) && Sort(xs, key)[0] == xs[m]
  {
    if |xs| == 1 {
      m := 0;
    } else {
      var tail := xs[1..];
      var n := SortHead(tail, key);
      if KeyLe(key(xs[0]), key(Sort(tail, key)[0])) {
        m := 0;
        HeadIsFirstMin(xs, key, n);
      } else {
        m := n + 1;
        TailMinIsFirstMin(xs, key, n);
      }
    }
  }

  /** The head wins when it is not above the least key of the rest. */
  lemma HeadIsFirstMin<T>(xs: seq<T>, key: T -> SortKey, n: nat)
    requires |xs| > 1 && IsFirstMin(xs[1..], key, n) && KeyLe(key(xs[0]), key(xs[n + 1]))
    ensures IsFirstMin(xs, key, 0)
  {
    forall j | 0 <= j < |xs| ensures KeyLe(key(xs[0]), key(xs[j])) {
      if j > 0 { assert xs[j] == xs[1..][j - 1]; }
    }
  }

  /** The first least key of the rest wins when the head is above it. */
  lemma TailMinIsFirstMin<T>(xs: seq<T>, key: T -> SortKey, n: nat)
    requires |xs| > 1 && IsFirstMin(xs[1..], key, n) && !KeyLe(key(xs[0]), key(xs[n + 1]))
    ensures IsFirstMin(xs, key, n + 1)
  {
    var tail := xs[1..];
    forall j | 0 <= j < |xs| ensures KeyLe(key(xs[n + 1]), key(xs[j])) {
      if j > 0 { assert xs[j] == tail[j - 1]; }
    }
    forall j | 0 <= j < n + 1 ensures !KeyLe(key(xs[j]), key(xs[n + 1])) {
      if j > 0 { assert xs[j] == tail[j - 1]; }
    }
  }

  // ------------------------------------------------------------ peeling

  /** `xs` without its element at `m`. */
  function RemoveAt<T>(xs: seq<T>, m: nat): (r: seq<T>)
    requires m < |xs|
    ensures |r| == |xs| - 1
    ensures forall j :: 0 <= j < |r| ==> r[j] == if j < m then xs[j] else xs[j + 1]
  {
    xs[..m] + xs[m + 1..]
  }

  /** The first two entries of the sorted list, each the first least of
      what is left. */
  lemma {:induction false} SortPeelTwo<T>(xs: seq<T>, key: T -> SortKey) returns (m1: nat, m2: nat)
    requires |xs| >= 2
    ensures IsFirstMin(xs, key, m1) && IsFirstMin(RemoveAt(xs, m1), key, m2)
    ensures Sort(xs, key) == [xs[m1], RemoveAt(xs, m1)[m2]] + Sort(RemoveAt(RemoveAt(xs, m1), m2), key)
  {
    m1 := SortHead(xs, key);
    m2 := SortHead(RemoveAt(xs, m1), key);
    SortPeelBoth(xs, key, m1, m2);
  }

  lemma {:induction false} SortPeelBoth<T>(xs: seq<T>, key: T -> SortKey, m1: nat, m2: nat)
    requires IsFirstMin(xs, key, m1) && IsFirstMin(RemoveAt(xs, m1), key, m2)
    ensures Sort(xs, key) == [xs[m1], RemoveAt(xs, m1)[m2]] + Sort(RemoveAt(RemoveAt(xs, m1), m2), key)
  {
    var rest := RemoveAt(xs, m1);
    var t := Sort(RemoveAt(rest, m2), key);
    SortPeel(xs, key, m1);
    SortPeel(rest, key, m2);
    assert [xs[m1]] + ([rest[m2]] + t) == [xs[m1], rest[m2]] + t;
  }

  /** The sorted list is the first least element followed by the sorted
      rest, so the sort picks its elements one first minimum at a time. */
  lemma {:induction false} SortPeel<T>(xs: seq<T>, key: T -> SortKey, m: nat)
    requires IsFirstMin(xs, key, m)
    ensures Sort(xs, key) == [xs[m]] + Sort(RemoveAt(xs, m), key)
  {
    if m == 0 {
      PeelFirst(xs, key);
    } else {
      var tail := xs[1..];
      PeelTail(xs, key, m);
      SortPeel(tail, key, m - 1);
      var rest := RemoveAt(tail, m - 1);
      assert RemoveAt(xs, m) == [xs[0]] + rest;
      calc {
        Sort(xs, key);
        Insert(xs[0], [xs[m]] + Sort(rest, key), key);
        { assert ([xs[m]] + Sort(rest, key))[1..] == Sort(rest, key); }
        [xs[m]] + Insert(xs[0], Sort(rest, key), key);
        { assert ([xs[0]] + rest)[1..] == rest; }
        [xs[m]] + Sort(RemoveAt(xs, m), key);
      }
    }
  }

  /** A least head stays in front. */
  lemma PeelFirst<T>(xs: seq<T>, key: T -> SortKey)
    requires IsFirstMin(xs, key, 0)
    ensures Sort(xs, key) == [xs[0]] + Sort(RemoveAt(xs, 0), key)
  {
    var tail := xs[1..];
    assert RemoveAt(xs, 0) == tail;
    if |tail| > 0 {
      var s := Sort(tail, key);
      assert s[0] in multiset(tail);
      var j :| 0 <= j < |tail| && tail[j] == s[0];
      assert xs[j + 1] == s[0];
    }
  }

  lemma PeelTail<T>(xs: seq<T>, key: T -> SortKey, m: nat)
    requires IsFirstMin(xs, key, m) && m > 0
    ensures IsFirstMin(xs[1..], key, m - 1) && !KeyLe(key(xs[0]), key(xs[m]))
  {
    var tail := xs[1..];
    forall j | 0 <= j < |tail| ensures KeyLe(key(tail[m - 1]), key(tail[j])) {
      assert tail[j] == xs[j + 1];
    }
  }

  // ------------------------------------------------------------ same order

  /** Keys that order every pair of elements alike give the same sort. */
  predicate SameOrder<T>(xs: seq<T>, k1: T -> SortKey, k2: T -> SortKey) {
    forall i, j :: 0 <= i < |xs| && 0 <= j < |xs| ==>
      (KeyLe(k1(xs[i]), k1(xs[j])) <==> KeyLe(k2(xs[i]), k2(xs[j])))
  }

  lemma {:induction false} SortSameOrder<T>(xs: seq<T>, k1: T -> SortKey, k2: T -> SortKey)
    requires SameOrder(xs, k1, k2)
    ensures Sort(xs, k1) == Sort(xs, k2)
  {
    if |xs| > 0 {
      var tail := xs[1..];
      SameOrderTail(xs, k1, k2);
      SortSameOrder(tail, k1, k2);
      assert multiset(Sort(tail, k1)) <= multiset(xs) by {
        assert xs == [xs[0]] + tail;
      }
      InsertSameOrder(xs[0], Sort(tail, k1), k1, k2, xs);
    }
  }

  lemma SameOrderTail<T>(xs: seq<T>, k1: T -> SortKey, k2: T -> SortKey)
    requires |xs| > 0 && SameOrder(xs, k1, k2)
    ensures SameOrder(xs[1..], k1, k2)
  {
    var tail := xs[1..];
    forall i, j | 0 <= i < |tail| && 0 <= j < |tail|
      ensures KeyLe(k1(tail[i]), k1(tail[j])) <==> KeyLe(k2(tail[i]), k2(tail[j]))
    {
      assert tail[i] == xs[i + 1] && tail[j] == xs[j + 1];
    }
  }

  lemma {:induction false} InsertSameOrder<T>(x: T, ys: seq<T>, k1: T -> SortKey, k2: T -> SortKey, xs: seq<T>)
    requires x in xs && multiset(ys) <= multiset(xs) && SameOrder(xs, k1, k2)
    ensures Insert(x, ys, k1) == Insert(x, ys, k2)
    decreases |ys|
  {
    if |ys| > 0 {
      assert ys[0] in multiset(ys);
      assert ys == [ys[0]] + ys[1..];
      assert multiset(ys[1..]) <= multiset(ys);
      var i :| 0 <= i < |xs| && xs[i] == x;
      var j :| 0 <= j < |xs| && xs[j] == ys[0];
      InsertSameOrder(x, ys[1..], k1, k2, xs);
    }
  }
}

=== FILE: text.dfy ===
/** Character classes and string helpers with the exact meaning JavaScript
    gives them: the `\s` class, `trim`, `toLowerCase`, `includes`, `join`,
    and decimal digit strings. */
module Text {

  /** JavaScript's `\s` (and the set `trim` removes): WhiteSpace plus
      LineTerminator code points. */
  predicate IsSpace(c: char) {
    || c == ' ' || c == '\t' || c == '\n' || c == '\U{000B}' || c == '\U{000C}' || c == '\r'
    || c == '\U{00A0}' || c == '\U{1680}' || ('\U{2000}' <= c <= '\U{200A}')
    || c == '\U{2028}' || c == '\U{2029}' || c == '\U{202F}' || c == '\U{205F}'
    || c == '\U{3000}' || c == '\U{FEFF}'
  }

  predicate IsDigit(c: char) { '0' <= c <= '9' }

  predicate AllDigits(s: string) { forall i :: 0 <= i < |s| ==> IsDigit(s[i]) }

  /** `\w` without the unicode flag: [A-Za-z0-9_]. */
  predicate IsWordChar(c: char) {
    ('a' <= c <= 'z') || ('A' <= c <= 'Z') || IsDigit(c) || c == '_'
  }

  predicate HasNoSpace(s: string) { forall i :: 0 <= i < |s| ==> !IsSpace(s[i]) }

  /** True iff `s` has no leading and no trailing whitespace. */
  predicate IsTrimmed(s: string) {
    |s| == 0 || (!IsSpace(s[0]) && !IsSpace(s[|s| - 1]))
  }

  // ---------------------------------------------------------------- case

  /** Case folding used by a regular expression's `i` flag outside unicode
      mode: only ASCII letters are identified with one another. */
  function FoldChar(c: char): (r: char)
    ensures !('A' <= r <= 'Z')
    ensures IsSpace(r) <==> IsSpace(c)
    ensures !('A' <= c <= 'Z') ==> r == c
  {
    if 'A' <= c <= 'Z' then (c as int + 32) as char else c
  }

  predicate EqIgnoreCase(a: string, b: string) {
    |a| == |b| && forall i :: 0 <= i < |a| ==> FoldChar(a[i]) == FoldChar(b[i])
  }

  predicate StartsWithIgnoreCase(s: string, p: string) {
    |p| <= |s| && EqIgnoreCase(s[..|p|], p)
  }

  predicate EndsWithIgnoreCase(s: string, p: string) {
    |p| <= |s| && EqIgnoreCase(s[|s| - |p|..], p)
  }

  /** `String.prototype.toLowerCase` on one code point, as far as it can
      produce ASCII: ASCII capitals, U+0130 (which lower-cases to "i" and a
      combining dot) and U+212A KELVIN SIGN (which lower-cases to "k").
      Every other code point is kept as it is. */
  function LowerChar(c: char): (r: string)
    ensures 1 <= |r| <= 2
    ensures forall i :: 0 <= i < |r| ==> !('A' <= r[i] <= 'Z')
  {
    if c == '\U{0130}' then "i\U{0307}"
    else if c == '\U{212A}' then "k"
    else [FoldChar(c)]
  }

  function Lower(s: string): (r: string)
    ensures |s| <= |r| <= 2 * |s|
    ensures forall i :: 0 <= i < |r| ==> !('A' <= r[i] <= 'Z')
  {
    if |s| == 0 then "" else LowerChar(s[0]) + Lower(s[1..])
  }

  // ---------------------------------------------------------- searching

  predicate OccursAt(s: string, needle: string, i: nat) {
    i + |needle| <= |s| && s[i..i + |needle|] == needle
  }

  /** `s.includes(needle)`. */
  predicate Contains(s: string, needle: string) {
    exists i: nat | i <= |s| :: OccursAt(s, needle, i)
  }

  predicate OccursAtIgnoreCase(s: string, needle: string, i: nat) {
    i + |needle| <= |s| && EqIgnoreCase(s[i..i + |needle|], needle)
  }

  /** A case-insensitive literal regular expression searched for anywhere in `s`. */
  predicate ContainsIgnoreCase(s: string, needle: string) {
    exists i: nat | i <= |s| :: OccursAtIgnoreCase(s, needle, i)
  }

  // ------------------------------------------------------------ trimming

  function TrimStart(s: string): (r: string)
    ensures |r| <= |s| && r == s[|s| - |r|..]
    ensures |r| == 0 || !IsSpace(r[0])
    ensures forall i :: 0 <= i < |s| - |r| ==> IsSpace(s[i])
  {
    if |s| > 0 && IsSpace(s[0]) then TrimStart(s[1..]) else s
  }

  function TrimEnd(s: string): (r: string)
    ensures |r| <= |s| && r == s[..|r|]
    ensures |r| == 0 || !IsSpace(r[|r| - 1])
    ensures forall i :: |r| <= i < |s| ==> IsSpace(s[i])
  {
    if |s| > 0 && IsSpace(s[|s| - 1]) then TrimEnd(s[..|s| - 1]) else s
  }

  /** The visible content of `s`: every non-whitespace character, in order. */
  function Squeeze(s: string): (r: string)
    ensures HasNoSpace(r)
  {
    if |s| == 0 then ""
    else (if IsSpace(s[0]) then "" else [s[0]]) + Squeeze(s[1..])
  }

  lemma {:induction false} SqueezeAppend(a: string, b: string)
    ensures Squeeze(a + b) == Squeeze(a) + Squeeze(b)
    decreases |a|
  {
    if |a| > 0 {
      assert (a + b)[1..] == a[1..] + b;
      SqueezeAppend(a[1..], b);
    } else {
      assert a + b == b;
    }
  }

  lemma {:induction false} SqueezeTrim(s: string)
    ensures Squeeze(TrimStart(s)) == Squeeze(s)
    ensures Squeeze(TrimEnd(s)) == Squeeze(s)
    ensures Squeeze(Trim(s)) == Squeeze(s)
  {
    SqueezeTrimStart(s);
    SqueezeTrimEnd(s);
    SqueezeTrimEnd(TrimStart(s));
  }

  lemma {:induction false} SqueezeTrimStart(s: string)
    ensures Squeeze(TrimStart(s)) == Squeeze(s)
    decreases |s|
  {
    if |s| > 0 && IsSpace(s[0]) {
      SqueezeTrimStart(s[1..]);
    }
  }

  lemma {:induction false} SqueezeTrimEnd(s: string)
    ensures Squeeze(TrimEnd(s)) == Squeeze(s)
    decreases |s|
  {
    if |s| > 0 && IsSpace(s[|s| - 1]) {
      var init := s[..|s| - 1];
      SqueezeTrimEnd(init);
      assert s == init + [s[|s| - 1]];
      SqueezeAppend(init, [s[|s| - 1]]);
    }
  }

  /** The first index at or after `i` that does not hold whitespace (the
      end of a `\s*` match starting at `i`). */
  function SkipSpaces(s: string, i: nat): (j: nat)
    requires i <= |s|
    ensures i <= j <= |s|
    ensures forall k :: i <= k < j ==> IsSpace(s[k])
    ensures j == |s| || !IsSpace(s[j])
    decreases |s| - i
  {
    if i < |s| && IsSpace(s[i]) then SkipSpaces(s, i + 1) else i
  }

  /** `String.prototype.trim`. */
  function Trim(s: string): (r: string)
    ensures IsTrimmed(r)
    ensures IsTrimmed(s) ==> r == s
  {
    var t := TrimStart(s);
    var r := TrimEnd(t);
    assert |r| > 0 ==> r[0] == t[0];
    r
  }

  /** `parts.join(sep)`. */
  function Join(parts: seq<string>, sep: string): string {
    if |parts| == 0 then ""
    else if |parts| == 1 then parts[0]
    else parts[0] + sep + Join(parts[1..], sep)
  }

  /** `s.replace(/c/g, '')` for a single character `c`. */
  function RemoveChar(s: string, c: char): (r: string)
    ensures c !in r
    ensures |r| <= |s|
    ensures c !in s ==> r == s
  {
    if |s| == 0 then ""
    else
      assert s == [s[0]] + s[1..];
      (if s[0] == c then "" else [s[0]]) + RemoveChar(s[1..], c)
  }

  /** `RemoveChar` keeps every other character. */
  lemma {:induction false} RemoveCharKeeps(s: string, c: char)
    ensures forall x :: x in RemoveChar(s, c) <==> x in s && x != c
  {
    if |s| > 0 {
      RemoveCharKeeps(s[1..], c);
      assert s == [s[0]] + s[1..];
    }
  }

  lemma {:induction false} RemoveCharAppend(a: string, b: string, c: char)
    ensures RemoveChar(a + b, c) == RemoveChar(a, c) + RemoveChar(b, c)
    decreases |a|
  {
    if |a| == 0 {
      assert a + b == b;
      assert RemoveChar(a, c) == "";
    } else {
      var ab := a + b;
      assert ab[0] == a[0] && ab[1..] == a[1..] + b;
      var h: string := if a[0] == c then "" else [a[0]];
      RemoveCharAppend(a[1..], b, c);
      calc {
        RemoveChar(ab, c);
        h + RemoveChar(a[1..] + b, c);
        h + (RemoveChar(a[1..], c) + RemoveChar(b, c));
        (h + RemoveChar(a[1..], c)) + RemoveChar(b, c);
      }
    }
  }

  // -------------------------------------------------------------- digits

  function Pow10(n: nat): (r: nat)
    ensures r >= 1
  {
    if n == 0 then 1 else 10 * Pow10(n - 1)
  }

  function DigitValue(c: char): nat
    requires IsDigit(c)
  {
    c as int - '0' as int
  }

  /** The value of a decimal digit string, most significant digit first. */
  function DigitsValue(s: string): (r: nat)
    requires AllDigits(s)
    ensures r < Pow10(|s|)
  {
    if |s| == 0 then 0
    else DigitsValue(s[..|s| - 1]) * 10 + DigitValue(s[|s| - 1])
  }

  function DigitChar(d: nat): (c: char)
    requires d < 10
    ensures IsDigit(c) && DigitValue(c) == d
  {
    ('0' as int + d) as char
  }

  /** The decimal rendering of a natural number, as `String(n)` writes it. */
  function NatToDigits(n: nat): (r: string)
    ensures |r| >= 1 && AllDigits(r)
    ensures DigitsValue(r) == n
  {
    if n < 10 then [DigitChar(n)]
    else
      var r := NatToDigits(n / 10) + [DigitChar(n % 10)];
      assert r[..|r| - 1] == NatToDigits(n / 10);
      r
  }
}

=== FILE: usage.dfy ===
/** The daily inspection gate of the popup (popup.js:704-719): free users
    get thirty inspections per calendar day; the stored date and counter
    are reset on the first inspection of a new day. */
module Usage {
  import opened Wrappers

  const FREE_DAILY_LIMIT: nat := 30

  /** The stored `usageDate` (`None` when never set) and `usageCount`
      (0 when never set). The date is the `YYYY-MM-DD` text of the day. */
  datatype UsageState = UsageState(date: Option<string>, count: int)

  datatype UsageError = LimitReached

  /** One press of Inspect on day `today`: the state stored afterwards, or
      the limit error (nothing is stored then). Pro users pass untouched. */
  function Gate(s: UsageState, pro: bool, today: string): (r: Result<UsageState, UsageError>)
    ensures pro ==> r == Ok(s)
    ensures !pro && s.date != Some(today) ==> r == Ok(UsageState(Some(today), 1))
    ensures r.Err? <==> !pro && s.date == Some(today) && s.count >= FREE_DAILY_LIMIT
    ensures r.Ok? && !pro ==> r.value.date == Some(today)
    ensures r.Ok? && !pro && s.date == Some(today) ==> r.value.count == s.count + 1
    ensures r.Ok? && !pro && s.count <= FREE_DAILY_LIMIT ==> r.value.count <= FREE_DAILY_LIMIT
  {
    if pro then Ok(s)
    else if s.date != Some(today) then Ok(UsageState(Some(today), 1))
    else if s.count >= FREE_DAILY_LIMIT then Err(LimitReached)
    else Ok(UsageState(s.date, s.count + 1))
  }

  /** `n` presses of Inspect on the same day: how many were let through,
      and the state stored at the end. */
  function Presses(s: UsageState, pro: bool, today: string, n: nat): (r: (nat, UsageState))
    ensures r.0 <= n
    decreases n
  {
    if n == 0 then (0, s)
    else
      match Gate(s, pro, today)
      case Err(_) => Presses(s, pro, today, n - 1)
      case Ok(next) =>
        var rest := Presses(next, pro, today, n - 1);
        (1 + rest.0, rest.1)
  }

  function Min(a: int, b: int): int {
    if a <= b then a else b
  }

  /** Room left on the day of the stored state. */
  function Remaining(s: UsageState, today: string): nat {
    if s.date != Some(today) then FREE_DAILY_LIMIT
    else if s.count >= FREE_DAILY_LIMIT then 0
    else FREE_DAILY_LIMIT - s.count
  }

  /** A free user gets exactly as many inspections in a day as are left:
      all thirty on a fresh day, then one fewer per inspection. */
  lemma {:induction false} FreePressesAllowed(s: UsageState, today: string, n: nat)
    ensures Presses(s, false, today, n).0 == Min(n, Remaining(s, today))
    decreases n
  {
    if n > 0 {
      match Gate(s, false, today)
      case Err(_) =>
        FreePressesAllowed(s, today, n - 1);
      case Ok(next) =>
        FreePressesAllowed(next, today, n - 1);
        assert Remaining(next, today) == Remaining(s, today) - 1;
    }
  }

  /** Hence on a fresh day at most thirty inspections pass, whatever the
      number of presses. */
  lemma FreeDailyCap(s: UsageState, today: string, n: nat)
    requires s.date != Some(today) || 0 <= s.count
    ensures Presses(s, false, today, n).0 <= FREE_DAILY_LIMIT
  {
    FreePressesAllowed(s, today, n);
  }

  /** A Pro user is never stopped. */
  lemma {:induction false} ProUnlimited(s: UsageState, today: string, n: nat)
    ensures Presses(s, true, today, n).0 == n
  {
    if n > 0 {
      ProUnlimited(s, today, n - 1);
    }
  }
}

=== FILE: wrappers.dfy ===
/** Failure-compatible carriers used across the model: an optional value
    (JavaScript's `null`/`undefined`/`NaN` results) and a success-or-error
    result for operations that the extension reports to the user. */
module Wrappers {

  datatype Option<+T> = None | Some(value: T) {
    function GetOr(default: T): T {
      match this
      case Some(v) => v
      case None => default
    }
  }

  datatype Result<+T, +E> = Ok(value: T) | Err(error: E)
}
